=== FILE: README.md ===
# Insurance workspace: claim intake, policy forms, uploads and list views

This project models the functional core of a Next.js insurance application:

- the claims API route: pagination arithmetic, claim intake with defaults,
  least-loaded adjuster assignment, the activity entry and the fraud-indicator rules;
- the policies API route: the `GET` filter chain and the `POST` defaults;
- the two policy-application forms: per-step validation, coverage templates,
  the clamped 1..5 step counter, index-wise edits and the review premium total;
- the upload widget's admission control;
- the claims-document processor;
- the analysis workspace page: category, tags, canned insights and deletion;
- the classifiers, colour bands, counters and search/filter/sort pipelines of the
  sidebar, top bar, insight list, document library, policy lists, fraud and
  compliance views, processing panel and dashboard.

Everything is stated over immutable datatypes, `seq`s and unbounded integers.
Clocks, random draws and database answers are parameters:

- `numberMs`, `nowMs`, `idMs`, `checkMs`, `insightMs`, `uploadMs` are clock readings;
- `draws` and `confidenceDraw` are random outcomes;
- `stored` (the claims already in the database) and `adjusters` with their
  assigned-claim counts are database answers.

Money is in integer cents. Times are integer milliseconds.

Modules:

| module | file |
|---|---|
| `Optional`, `Text`, `Seqs` | shared helpers: `Option`; ASCII lower-casing, `includes`, `startsWith`/`endsWith`, `trim`, `join` and decimal rendering; filter, sum, index-wise edits, take, stable descending sort and distinct values |
| `ClaimsRoute` | `app/api/claims/route.ts` |
| `PoliciesRoute` | `app/api/policies/route.ts` |
| `PolicyForm` | shared parts of both `NewPolicyForm.tsx` files |
| `PolicyWizard` | `app/components/Policy/NewPolicyForm.tsx` |
| `SimplePolicyForm` | `app/components/NewPolicyForm.tsx` |
| `FileUpload` | `app/components/FileUpload.tsx` |
| `ClaimsProcessor` | `app/components/Claims/ClaimsProcessor.tsx` |
| `Workspace` | `app/page.tsx` |
| `Navigation` | `Layout/Sidebar.tsx` and `Layout/TopBar.tsx` |
| `InsightsList`, `DocumentLibrary`, `ProcessingStatus`, `Dashboard` | the components of the same names |
| `PolicyOverview` | `app/components/PolicyManagement.tsx` |
| `PolicyRegister` | `app/components/Policy/PolicyManagement.tsx` |
| `FraudDetection`, `ComplianceCenter` | the fraud and compliance views |

## Model

| member | source | states |
|---|---|---|
| ClaimsRoute.PageTotal | app/api/claims/route.ts:62 | for a positive limit, the page count is the least n with n·limit ≥ total, and it is 0 iff there are no rows; a zero limit gives NaN for no rows and Infinity otherwise |
| ClaimsRoute.ClaimNumber | app/api/claims/route.ts:81 | the claim number is `CLM-` followed by a suffix of the clock's decimal digits, at most 8 long |
| ClaimsRoute.NewClaim | app/api/claims/route.ts:83-108 | the stored claim is OPEN, reported now and unassigned; an absent or zero loss or reserve amount becomes null, an empty location null, and absent participants an empty list; the other fields are copied |
| ClaimsRoute.StoredAmount | app/api/claims/route.ts:92-93 | an absent or zero amount is stored as null; any other amount is stored as given |
| ClaimsRoute.PickAdjuster | app/api/claims/route.ts:111-122 | there is no pick iff there are no adjusters; otherwise the pick has the fewest assigned claims and no earlier adjuster has as few |
| ClaimsRoute.ClaimActivity | app/api/claims/route.ts:125-134 | the activity entry is a CLAIM / CREATED entry for the claim and the user, described as `Claim <number> filed`, whose metadata records the claim's loss amount and status |
| ClaimsRoute.Indicators | app/api/claims/route.ts:148-166 | "High value claim" fires iff the loss is present and above $50,000; "Multiple recent claims" fires iff more than 3 recent claims are counted; when both fire, high value comes first |
| ClaimsRoute.IndicatorsJoined | app/api/claims/route.ts:173 | joining the fired labels with ", " gives the indicator text: high value first, both, one or none |
| ClaimsRoute.CheckFraudIndicators | app/api/claims/route.ts:168-180 | an alert is written iff some indicator fires. It is a SUSPICIOUS_PATTERN alert on the claim with investigation required, HIGH iff the loss is above $75,000, scored 75, 50 or 25 by the fired indicators, and described by the joined labels |
| ClaimsRoute.HighSeverityImpliesHighValue | app/api/claims/route.ts:172-176 | a HIGH alert is always a high-value alert, and its score is at least 50 |
| ClaimsRoute.NewClaimIsCounted | app/api/claims/route.ts:155-162 | a claim stored with `reportedDate = now` adds exactly one to its customer's 90-day count taken within 90 days |
| ClaimsRoute.FileClaim | app/api/claims/route.ts:71-139 | intake stores the defaults, numbers the claim from one clock reading and dates it from a second, and assigns the first least-loaded adjuster, or none when there is none. It logs the activity and runs the fraud rules on a count that includes the new claim, so, when the count is taken within 90 days of filing, "Multiple recent claims" fires iff at least 3 earlier claims are recent |
| PoliciesRoute.ListPolicies | app/api/policies/route.ts:57-84 | the listing holds exactly the policies passing every filter, in their order; the total is their count, and the page count is that of the limit, or NaN when the limit is not a number |
| PoliciesRoute.Pages | app/api/policies/route.ts:82 | a non-numeric limit parses to NaN and gives NaN pages; a numeric one gives the ceiling of total over limit |
| PoliciesRoute.FilterChain | app/api/policies/route.ts:60-74 | the status, type and search filters applied one after another equal one filter by their conjunction |
| PoliciesRoute.ByStatusIsFilter | app/api/policies/route.ts:60-62 | a missing status or `all` keeps every policy; otherwise only policies with that status are kept |
| PoliciesRoute.ByTypeIsFilter | app/api/policies/route.ts:63-65 | the same for the policy type |
| PoliciesRoute.BySearchIsFilter | app/api/policies/route.ts:66-74 | an empty search keeps everything; otherwise the number, the e-mail or a non-null name must contain the term, ignoring case |
| PoliciesRoute.ListingIsOrderedSubset | app/api/policies/route.ts:57-74 | the listing is an ordered subsequence of the policies, and a policy is listed iff it is selected |
| PoliciesRoute.NoRestrictionListsAll | app/api/policies/route.ts:60-74 | with no status, type or search restriction, every policy is listed |
| PoliciesRoute.PageIsIgnored | app/api/policies/route.ts:13 | `skip` is never applied, so the page number, even NaN, changes neither the listing nor the page count |
| PoliciesRoute.PolicyNumber | app/api/policies/route.ts:96 | the policy number is `POL-` followed by a suffix of the clock's decimal digits, at most 8 long |
| PoliciesRoute.CreatePolicy | app/api/policies/route.ts:96-117 | a created policy is PENDING with placeholder customer fields, no coverages and zero claim and document counts; its number and its id come from two separate clock readings; the customer, type and dates are copied; each amount is the submitted number, or NaN when it is missing or not numeric; its risk score is 50 when none or 0 is submitted |
| PoliciesRoute.ParseFloat | app/api/policies/route.ts:106-107 | a parsed amount is NaN iff the field does not hold a number, and otherwise that number |
| PoliciesRoute.Post | app/api/policies/route.ts:119 | the answer is 201 and its body is the created policy itself, with the contents `CreatePolicy` states, numbered from the first clock reading and PENDING |
| PolicyForm.NextStep | app/components/Policy/NewPolicyForm.tsx:148-152 | the step stays in 1..5, and it advances by one iff the current step validated and is not the last |
| PolicyForm.PrevStep | app/components/Policy/NewPolicyForm.tsx:154-156 | the step stays in 1..5 and goes back by one iff it is not the first |
| PolicyForm.StepsAreInverse | app/components/Policy/NewPolicyForm.tsx:148-156 | going back undoes a successful step forward, and the other way round |
| PolicyForm.ForwardClamps | app/components/Policy/NewPolicyForm.tsx:150 | k validated forward moves reach min(step + k, 5) |
| PolicyForm.Offered | app/components/Policy/NewPolicyForm.tsx:404-405 | the offered templates are the options whose code is not selected yet, in template order |
| PolicyForm.AddCoverage | app/components/Policy/NewPolicyForm.tsx:176-186 | adding a coverage appends exactly one entry: the template with blank limit, deductible and premium; the earlier entries are unchanged |
| PolicyForm.RemoveCoverage | app/components/Policy/NewPolicyForm.tsx:188-193 | removing a coverage drops only entry i and keeps the rest in order; an index outside the list changes nothing |
| PolicyForm.UpdateCoverage | app/components/Policy/NewPolicyForm.tsx:195-202 | updating a coverage changes only the named field of entry i |
| PolicyForm.AddOfferedKeepsUnique | app/components/Policy/NewPolicyForm.tsx:404-410 | adding an offered template keeps the selected codes pairwise different |
| PolicyForm.RemoveAndUpdateKeepUnique | app/components/Policy/NewPolicyForm.tsx:188-202 | removal and field edits keep the selected codes pairwise different |
| PolicyForm.ReviewTotal | app/components/Policy/NewPolicyForm.tsx:985-988 | the review total is NaN iff some premium does not parse; otherwise it is the sum of the premiums, blank ones counting 0 |
| PolicyForm.FoldIsSum | app/components/Policy/NewPolicyForm.tsx:985-988 | the `reduce` fold from any start adds the premium sum to it, or gives NaN |
| PolicyForm.AddCoverageKeepsTotal | app/components/Policy/NewPolicyForm.tsx:176-186 | a newly added coverage leaves the review total unchanged |
| PolicyForm.RemoveCoverageTotal | app/components/Policy/NewPolicyForm.tsx:188-193 | removing a coverage takes exactly its premium out of the total |
| PolicyForm.SetPremiumTotal | app/components/Policy/NewPolicyForm.tsx:195-202 | setting one premium changes the total by the difference |
| PolicyForm.UpdateItem | app/components/Policy/NewPolicyForm.tsx:244-251 | updating an insured item changes only the named field of item i |
| PolicyForm.RemoveItem | app/components/Policy/NewPolicyForm.tsx:237-242 | removing an insured item drops only item i and keeps the rest in order |
| PolicyWizard.Options | app/components/Policy/NewPolicyForm.tsx:171-174 | each of the three template keys has its list; every other product type has no options |
| PolicyWizard.MissingRequired | app/components/Policy/NewPolicyForm.tsx:126-129 | the missing list holds exactly the required options whose code is not selected, in template order |
| PolicyWizard.MissingIn | app/components/Policy/NewPolicyForm.tsx:126-129 | a template is listed as missing iff it is one of the options, required, and its code is not selected; the list keeps the options' order |
| PolicyWizard.MissingFromNothing | app/components/Policy/NewPolicyForm.tsx:126-129 | with nothing selected, a template list whose required entries come first misses exactly those entries |
| PolicyWizard.NoneMissingIff | app/components/Policy/NewPolicyForm.tsx:126-129 | nothing is missing iff every required option's code is selected |
| PolicyWizard.AutoRequiredCoverages | app/components/Policy/NewPolicyForm.tsx:83-91 | with nothing selected, personal and commercial auto miss exactly BI and PD |
| PolicyWizard.HomeownersRequiredCoverages | app/components/Policy/NewPolicyForm.tsx:92-98 | with nothing selected, homeowners misses exactly dwelling, other structures, personal property and liability |
| PolicyWizard.BasicInfoErrors | app/components/Policy/NewPolicyForm.tsx:112-119 | step 1 gives one message per missing field. When both dates parse and are out of order, the ordering message replaces the expiration message |
| PolicyWizard.CoverageErrors | app/components/Policy/NewPolicyForm.tsx:121-133 | step 2 fails iff nothing is selected or a required coverage is missing; the missing names, joined with ", ", win over the empty-list message |
| PolicyWizard.ItemErrors | app/components/Policy/NewPolicyForm.tsx:134-141 | step 3 fails iff the type mentions AUTO or HOMEOWNERS and there is no insured item; the homeowners message wins |
| PolicyWizard.Validate | app/components/Policy/NewPolicyForm.tsx:108-146 | `validateStep` dispatches to the three step checks, and steps 4 and 5 never fail |
| PolicyWizard.BasicInfoValidIff | app/components/Policy/NewPolicyForm.tsx:112-119 | step 1 passes iff the four fields are filled and the dates, when both parse, are in order |
| PolicyWizard.CoverageValidIff | app/components/Policy/NewPolicyForm.tsx:121-133 | step 2 passes iff some coverage is selected and every required option is among them |
| PolicyWizard.ValidIffComplete | app/components/Policy/NewPolicyForm.tsx:108-146 | a step validates iff its requirements, stated directly, hold |
| PolicyWizard.OtherTypesNeedAnyCoverage | app/components/Policy/NewPolicyForm.tsx:171-174 | renters, commercial property, umbrella and unknown types only need some coverage on step 2 |
| PolicyWizard.NewItem | app/components/Policy/NewPolicyForm.tsx:204-235 | a new insured item is a vehicle for a type mentioning AUTO, otherwise a building with an empty address, with the listed default fields |
| PolicyWizard.GoTo | app/components/Policy/NewPolicyForm.tsx:1147-1153 | a header click moves only to a step no later than the current one |
| PolicyWizard.Apply | app/components/Policy/NewPolicyForm.tsx:148-251 | every event keeps the step in 1..5 and the codes unique. Only `Next` revalidates, and the step grows only by a validated `Next`, by exactly one |
| PolicyWizard.Run | app/components/Policy/NewPolicyForm.tsx:148-251 | any sequence of events keeps the step in 1..5 and the codes unique |
| PolicyWizard.ReachableKeepsInvariant | app/components/Policy/NewPolicyForm.tsx:28-51 | every state reachable from the initial form satisfies the invariant |
| PolicyWizard.StepBoundedByNexts | app/components/Policy/NewPolicyForm.tsx:148-156 | the step reached never exceeds the start plus the number of `Next` events |
| PolicyWizard.Submit | app/components/Policy/NewPolicyForm.tsx:158-169 | the form is handed on iff the current step is complete |
| PolicyWizard.ReviewStepAlwaysSubmits | app/components/Policy/NewPolicyForm.tsx:158-169 | on the review step submission always hands the form on |
| SimplePolicyForm.Options | app/components/NewPolicyForm.tsx:197-201 | any type mentioning AUTO gets the auto list; exactly HOMEOWNERS gets the home list; any other type gets none |
| SimplePolicyForm.CommercialAutoGetsAutoList | app/components/NewPolicyForm.tsx:198 | commercial auto is offered the personal auto list |
| SimplePolicyForm.BasicInfoErrors | app/components/NewPolicyForm.tsx:101-106 | step 1 gives one message per missing field and does not compare the dates |
| SimplePolicyForm.Validate | app/components/NewPolicyForm.tsx:97-116 | step 2 only asks for some coverage; steps 3 to 5 never fail |
| SimplePolicyForm.ValidIffComplete | app/components/NewPolicyForm.tsx:97-116 | a step validates iff its weaker requirements hold, so out-of-order dates and missing required coverages pass |
| SimplePolicyForm.Apply | app/components/NewPolicyForm.tsx:118-195 | every event keeps the step in 1..5 and the codes unique; the step moves by one, forward only on a validated `Next` |
| SimplePolicyForm.Submit | app/components/NewPolicyForm.tsx:128-167 | the form is posted iff the step is complete, and nothing is alerted when it is not; only an OK answer whose body names the created policy resets the form and the step and alerts its number; a refusal alerts the server's error, and an OK answer without a `policy` member lands in the catch branch and alerts the failure, both leaving the form and the step as they were |
| SimplePolicyForm.AcceptedSubmitRestarts | app/components/NewPolicyForm.tsx:141-156 | after a submission answered with the created policy the form is exactly the freshly opened one |
| SimplePolicyForm.RouteAnswerKeepsForm | app/components/NewPolicyForm.tsx:141-163 | against the policies route, whose 201 body is the policy itself with no `policy` member, a complete form is posted but ends in the "Failed to create policy" alert with its data and step unchanged |
| FileUpload.BeforeSlash | app/components/FileUpload.tsx:37 | the base type is the prefix up to the first slash, or the whole type when there is none |
| FileUpload.AnyMatches | app/components/FileUpload.tsx:33-42 | the type check passes iff some accepted entry matches the file |
| FileUpload.ValidateFile | app/components/FileUpload.tsx:23-49 | an oversized file gets the size message first; otherwise an unmatched type gets the type message; any other file gets no message |
| FileUpload.DefaultTypes | app/components/FileUpload.tsx:17 | the default `image/*` entry accepts every MIME type starting with `image`, and the `.pdf` entry every name ending in `.pdf` in any letter case |
| FileUpload.BatchErrors | app/components/FileUpload.tsx:63-71 | the batch messages are exactly the messages of the invalid files, one each, in batch order; there are none iff every file is acceptable |
| FileUpload.ProcessFiles | app/components/FileUpload.tsx:51-80 | a batch that would exceed the file limit is refused with one message; a batch with an invalid file is refused with its messages; otherwise all files are appended and the errors cleared |
| FileUpload.Drop | app/components/FileUpload.tsx:99-117 | a drop or picker change with files runs the batch check; an empty one changes nothing |
| FileUpload.RemoveFile | app/components/FileUpload.tsx:119-123 | removal drops only file i, keeps the order and clears the errors |
| FileUpload.HandleUpload | app/components/FileUpload.tsx:125-131 | a non-empty selection is handed over whole and cleared; an empty one is not handed over |
| FileUpload.OperationsKeepAdmissible | app/components/FileUpload.tsx:51-131 | every operation keeps at most `maxFiles` files selected, each of them valid |
| FileUpload.RunKeepsAdmissible | app/components/FileUpload.tsx:51-131 | no sequence of events from an empty selection exceeds the limit or selects an invalid file |
| ClaimsProcessor.GetDocumentType | app/components/Claims/ClaimsProcessor.tsx:102-109 | the first keyword group found in the lower-cased name decides the type; no match gives an incident report |
| ClaimsProcessor.DocumentTypeIgnoresCase | app/components/Claims/ClaimsProcessor.tsx:103 | names equal up to ASCII case get the same type |
| ClaimsProcessor.DocumentTypeOfLowered | app/components/Claims/ClaimsProcessor.tsx:103 | a name and its lower-cased form get the same type |
| ClaimsProcessor.PoliceBeatsEstimate | app/components/Claims/ClaimsProcessor.tsx:104-105 | a name mentioning both accident and repair is a police report |
| ClaimsProcessor.GenerateFlags | app/components/Claims/ClaimsProcessor.tsx:144-147 | the flags are an ordered subsequence of the four, and a flag is present iff its draw came out true |
| ClaimsProcessor.Document | app/components/Claims/ClaimsProcessor.tsx:73-82 | the processed record has confidence 80 plus the draw, a `CLM-` number followed by the last 6 digits of the clock, the given policy number, the name's type, and exactly the flags whose draw came out true, in order |
| ClaimsProcessor.ProcessDocument | app/components/Claims/ClaimsProcessor.tsx:84-98 | each document is appended once; one high, risk-75 alert about it is appended iff its loss is above 50000 |
| ClaimsProcessor.ProcessAll | app/components/Claims/ClaimsProcessor.tsx:63-65 | processing a batch appends the batch's documents, one per file in upload order, after the earlier ones |
| ClaimsProcessor.DocumentsAt | app/components/Claims/ClaimsProcessor.tsx:63-65 | the i-th document a batch appends is the i-th file's document |
| ClaimsProcessor.ProcessAllClaims | app/components/Claims/ClaimsProcessor.tsx:63-65 | a batch appends one document per file and keeps the earlier ones |
| ClaimsProcessor.ProcessAllAlerts | app/components/Claims/ClaimsProcessor.tsx:63-65 | a batch raises exactly one alert per high-value file |
| Workspace.Category | app/page.tsx:151-157 | the first matching MIME rule decides the category, and each category comes with its exact condition |
| Workspace.Tags | app/page.tsx:159-173 | the tags are the name tags then the type tags, cut after the third |
| Workspace.TagsIgnoreNameCase | app/page.tsx:161 | name tags ignore the case of the file name |
| Workspace.RevenueLeads | app/page.tsx:163 | a name mentioning revenue or sales always leads with the Revenue tag |
| Workspace.MockInsights | app/page.tsx:82-149 | spreadsheets get 2 insights, plain text 2, images 1 and anything else none; each carries the file's name, the time and a confidence of 79..92 |
| Workspace.InsightsFollowCategory | app/page.tsx:82-157 | a file gets insights iff it is filed as financial data, a text document or a scanned document |
| Workspace.NewDocument | app/page.tsx:64-74 | the library entry is processed and carries the file's fields, the insight count, the category and the tags |
| Workspace.ProcessFile | app/page.tsx:50-77 | one iteration appends exactly the file's mock insights, stamped with one clock reading, and the file's library document counting them, dated with a later reading; earlier entries are kept |
| Workspace.Titles | app/page.tsx:55 | the processing record gets one title per insight, in order |
| Workspace.CompleteRecord | app/page.tsx:53-57 | only the record with the file's id changes: it becomes completed with the given titles, keeping its progress and error; the queue keeps its order and length |
| Workspace.CompletedCardShowsNewInsights | app/page.tsx:50-58 | after one iteration the file's record is completed and its card lists the titles of the insights the iteration appended, at most three |
| Workspace.DeleteDocument | app/page.tsx:186-191 | deletion keeps the documents with another id. It drops every insight whose file name is the name of a deleted document, and keeps the order |
| Workspace.DeletionFollowsNames | app/page.tsx:188-190 | deleting one document also drops the insights of another document with the same name |
| Navigation.VisibleItems | app/components/Layout/Sidebar.tsx:70-72 | the menu is the ordered subsequence of entries whose roles include the user's role |
| Navigation.DashboardForAll | app/components/Layout/Sidebar.tsx:25-31 | every known role sees the dashboard entry |
| Navigation.UsersAdminOnly | app/components/Layout/Sidebar.tsx:62-67 | the user-management entry is visible iff the role is admin |
| Navigation.AdminSeesAll | app/components/Layout/Sidebar.tsx:25-72 | the administrator sees the whole menu |
| Navigation.UnknownRoleSeesNone | app/components/Layout/Sidebar.tsx:25-72 | a role outside the five sees an empty menu |
| Navigation.SidebarHighlightsAtMostOne | app/components/Layout/Sidebar.tsx:97 | at most one visible entry is highlighted as active |
| Navigation.UnreadCount | app/components/Layout/TopBar.tsx:31 | the unread count counts the first notification when it is unread, plus the rest; it is at most the number of notifications, and 0 iff all are read |
| Navigation.UnreadCountAppend | app/components/Layout/TopBar.tsx:31 | the unread count of a concatenation is the sum of the parts' counts |
| Navigation.Badge | app/components/Layout/TopBar.tsx:93-97 | there is no badge iff nothing is unread; above nine it reads `9+`; otherwise it is the single digit of the count |
| Navigation.Listed | app/components/Layout/TopBar.tsx:115 | the dropdown lists the first five notifications in order |
| Navigation.ViewAllIffTruncated | app/components/Layout/TopBar.tsx:143 | "View all" shows iff some notification is not listed |
| Navigation.FormatTimeAgo | app/components/Layout/TopBar.tsx:46-59 | the four buckets partition the elapsed time at one minute, one hour and one day, and the shown count brackets the elapsed time |
| Navigation.TimeAgoMonotone | app/components/Layout/TopBar.tsx:46-59 | an older notification never shows a shorter relative time |
| InsightsList.ConfidenceBand | app/components/InsightsList.tsx:35-39 | 90 and above is green, 70 to 89 yellow, below 70 red |
| InsightsList.ConfidenceBandMonotone | app/components/InsightsList.tsx:35-39 | a higher confidence never gets a worse band |
| InsightsList.Visible | app/components/InsightsList.tsx:41-60 | the list is a permutation of the matching insights, sorted by the chosen key in non-increasing order, with insights of equal key kept in their original order |
| InsightsList.NoRestrictionListsAll | app/components/InsightsList.tsx:41-49 | with no search or restriction every insight is listed, as often as it occurs |
| InsightsList.CategoryMenu | app/components/InsightsList.tsx:62 | the category menu holds every category once, ordered by first occurrence |
| InsightsList.KindMenu | app/components/InsightsList.tsx:63 | the same for the insight types |
| DocumentLibrary.Visible | app/components/DocumentLibrary.tsx:62-81 | the list is a permutation of the matching documents, newest first or most insights first, with documents of equal key kept in their original order |
| DocumentLibrary.ListedIffSelected | app/components/DocumentLibrary.tsx:62-69 | a document is listed iff it matches the search and status filter |
| DocumentLibrary.NoRestrictionListsAll | app/components/DocumentLibrary.tsx:62-69 | with no search and status `all` every document is listed |
| DocumentLibrary.TagChips | app/components/DocumentLibrary.tsx:185-197 | a card shows the first two tags and `+k more` iff there are more than two |
| DocumentLibrary.CardActions | app/components/DocumentLibrary.tsx:203-228 | a card always offers View first and Delete last, each once, and offers Export between them iff the document is processed and has at least one insight |
| DocumentLibrary.NoExportWithoutInsights | app/components/DocumentLibrary.tsx:212-228 | a failed, still-processing or insight-free document offers View and Delete only |
| PolicyOverview.CustomerName | app/components/PolicyManagement.tsx:118-121 | a truthy business name wins. Otherwise the name is a slice of "first last", with absent parts empty: only white space is cut off either side, and none is left at either end |
| PolicyOverview.PersonName | app/components/PolicyManagement.tsx:118-121 | names without outer white space come back as "first last" |
| PolicyOverview.Filtered | app/components/PolicyManagement.tsx:123-129 | the list is the ordered subsequence of the policies whose number or customer name contains the term, ignoring case, and whose status and type pass |
| PolicyOverview.NoRestrictionListsAll | app/components/PolicyManagement.tsx:123-129 | with no search or restriction every policy is listed |
| PolicyOverview.SearchIgnoresTermCase | app/components/PolicyManagement.tsx:124-125 | lower-casing the search term does not change the list |
| PolicyOverview.StatusCount | app/components/PolicyManagement.tsx:153-165 | a status tile counts the first policy when it has the status, plus the rest; it is at most the number of policies, and 0 iff no policy has the status |
| PolicyOverview.ActiveAndPendingAtMostAll | app/components/PolicyManagement.tsx:153-165 | the active and pending tiles together count at most all policies |
| PolicyOverview.ClaimsFiled | app/components/PolicyManagement.tsx:189 | the claims tile is the sum of the policies' claim counts; it is at least each count, and 0 iff every count is 0 |
| PolicyOverview.ClaimsFiledAppend | app/components/PolicyManagement.tsx:189 | the claims tile of a concatenation is the sum of the parts' tiles |
| PolicyOverview.PremiumVolume | app/components/PolicyManagement.tsx:177 | the premium volume is the first policy's premium plus the volume of the rest, and 0 for no policies; it is at least each premium |
| PolicyOverview.PremiumVolumeAppend | app/components/PolicyManagement.tsx:177 | the premium volume of a concatenation is the sum of the parts' volumes |
| PolicyRegister.RiskColor | app/components/Policy/PolicyManagement.tsx:86-90 | 70 and above is red, 40 to 69 yellow, below 40 green |
| PolicyRegister.RiskColorMonotone | app/components/Policy/PolicyManagement.tsx:86-90 | a higher score never gets a lower risk band |
| PolicyRegister.Filtered | app/components/Policy/PolicyManagement.tsx:92-98 | the list is the ordered subsequence of the matching policies |
| PolicyRegister.NoRestrictionListsAll | app/components/Policy/PolicyManagement.tsx:92-98 | with no search or restriction every policy is listed |
| PolicyRegister.SearchIgnoresTermCase | app/components/Policy/PolicyManagement.tsx:93-94 | lower-casing the search term does not change the list |
| PolicyRegister.StatusCount | app/components/Policy/PolicyManagement.tsx:131-143 | a status tile counts the first policy when it has the status, plus the rest; it is at most the total, and 0 iff no policy has the status |
| PolicyRegister.ActiveAndPendingAtMostTotal | app/components/Policy/PolicyManagement.tsx:120-143 | the active and pending tiles together never exceed the total tile |
| PolicyRegister.StatusCountsPartition | app/components/Policy/PolicyManagement.tsx:120-143 | when every policy has one of the four statuses, the four per-status counts add up to the total tile |
| FraudDetection.Filtered | app/components/Fraud/FraudDetection.tsx:88-95 | the list is the ordered subsequence of the matching alerts |
| FraudDetection.NoRestrictionListsAll | app/components/Fraud/FraudDetection.tsx:88-95 | with no search or restriction every alert is listed |
| FraudDetection.SeverityNarrows | app/components/Fraud/FraudDetection.tsx:92 | choosing a severity narrows the list to the alerts of that severity, in the same order |
| FraudDetection.RiskBar | app/components/Fraud/FraudDetection.tsx:259-263 | the bar is red from 80, orange from 60, yellow from 40 and green below |
| FraudDetection.RiskBarMonotone | app/components/Fraud/FraudDetection.tsx:259-263 | a higher score never gets a lower band |
| FraudDetection.SeverityCount | app/components/Fraud/FraudDetection.tsx:114-126 | a severity tile counts the first alert when it has the severity, plus the rest; it is at most the number of alerts, and 0 iff none has the severity |
| FraudDetection.StatusCount | app/components/Fraud/FraudDetection.tsx:138-150 | a status tile counts the first alert when it has the status, plus the rest; it is at most the number of alerts, and 0 iff none has the status |
| FraudDetection.TilesCountDistinctAlerts | app/components/Fraud/FraudDetection.tsx:114-150 | the critical and high tiles together, and the investigating and resolved tiles together, never exceed the alert count |
| ComplianceCenter.OverdueIsPermanent | app/components/Compliance/ComplianceCenter.tsx:85-87 | an overdue issue stays overdue as time passes, and an issue is not overdue at its due instant |
| ComplianceCenter.Filtered | app/components/Compliance/ComplianceCenter.tsx:89-96 | the list is the ordered subsequence of the matching issues |
| ComplianceCenter.NoRestrictionListsAll | app/components/Compliance/ComplianceCenter.tsx:89-96 | with no search or restriction every issue is listed |
| ComplianceCenter.SearchIgnoresTermCase | app/components/Compliance/ComplianceCenter.tsx:90-92 | lower-casing the search term does not change the list |
| ComplianceCenter.SeverityCount | app/components/Compliance/ComplianceCenter.tsx:115-139 | a severity tile counts the first issue when it has the severity, plus the rest; it is at most the issue count, and 0 iff none has the severity |
| ComplianceCenter.ResolvedCount | app/components/Compliance/ComplianceCenter.tsx:151 | the resolved tile counts the first issue when it is resolved, plus the rest; it is at most the issue count, and 0 iff none is resolved |
| ComplianceCenter.SeverityTilesPartition | app/components/Compliance/ComplianceCenter.tsx:115-139 | when every issue has one of the three severities, the three severity tiles add up to the issue count |
| ProcessingStatus.BarWidth | app/components/ProcessingStatus.tsx:86 | the bar width is the progress clamped to 0..100 |
| ProcessingStatus.BarWidthMonotone | app/components/ProcessingStatus.tsx:86 | more progress never gives a narrower bar, and clamping twice changes nothing |
| ProcessingStatus.CardOf | app/components/ProcessingStatus.tsx:82-99 | a bar shows iff the file is processing; the error text shows iff the status is error with a non-empty message; at most the first three insights of a completed file show |
| ProcessingStatus.CompletedCount | app/components/ProcessingStatus.tsx:56 | the completed count counts the first file when it is completed, plus the rest; it is at most the total, and equals it iff every file is completed |
| ProcessingStatus.Render | app/components/ProcessingStatus.tsx:22-57 | nothing renders iff there are no files; otherwise one card per file, with the completed and total counts |
| Dashboard.ProcessingRate | app/components/Dashboard.tsx:19 | with no files the rate is 0; otherwise it is the integer nearest to 100·processed/total, ties rounded up |
| Dashboard.NearestIsUnique | app/components/Dashboard.tsx:19 | at most one integer satisfies that nearest-integer bracket |
| Dashboard.RateEndpoints | app/components/Dashboard.tsx:19 | nothing processed gives 0 and everything processed gives 100 |
| Dashboard.RateMonotone | app/components/Dashboard.tsx:19 | more processed files never lower the rate |
| Dashboard.RateIsPercentage | app/components/Dashboard.tsx:19 | for 0 ≤ processed ≤ total the rate lies in 0..100 |
| Dashboard.ProgressBar | app/components/Dashboard.tsx:121 | the progress bar shows iff there are files, with the processing rate |
| Text.DecimalRoundTrip | app/api/claims/route.ts:81 | the decimal text of a clock reading reads back as that reading, so the numbers built from it carry its digits |
| Text.Trim | app/components/PolicyManagement.tsx:120 | `trim` cuts only leading and trailing white space and leaves none at either end of the result |

## Left out

- Rendering, icons, colours as CSS classes, and loading flags. The colour rules are modelled as bands.
- Network calls, `alert` and console output.
- The database: queries are replaced by their answers, passed as parameters.
- Authentication and the 401 and 500 responses.
- Form fields outside the validated ones: payment plan, drivers, locations, the additional-details step, and the inline item and driver handlers of the older form.
- The effect that fills the expiration date one year after the effective date: it needs calendar arithmetic on JavaScript dates.
- Sorts by `localeCompare`: documents by name and insights by type. Locale collation is not modelled.
- Floating point:
  - amounts are integer cents, and `parseFloat` yields the submitted number or NaN; partial parses such as `"12abc"` are not modelled;
  - `formatCurrency`, `toLocaleString` and the `k` premium display are not modelled.
- Dashboard.ProcessingRate: rounds the exact rational 100·processed/total, so floating-point error in the quotient and the product is not modelled.
- ClaimsRoute.PageTotal: the claims listing takes its limit as an integer; the NaN that `parseInt` gives for a non-numeric limit is modelled for the policies route only.
- The `skip` offset `(page - 1) * limit` of the claims listing (app/api/claims/route.ts:19) is passed to the database query, which is not part of this model. The policies route computes it and never uses it.
- ClaimsRoute.NewClaim: the loss and reserve amounts are integers in cents rather than parsed floats.
- ClaimsRoute.CheckFraudIndicators: compares amounts in cents (above 5,000,000 and 7,500,000), which equals the dollar comparison for whole-cent amounts.
- PolicyOverview.PremiumVolume: premiums are non-negative cents, not arbitrary numbers.
- Random ids, `Math.random` draws and the clock are inputs. The generated mock claim data (incident date, parties, location, damage text) is left out, except the loss amount, which is an input.
- ClaimsProcessor.Document: the policy number is random text and is an input.
- Workspace.NewDocument: takes the size from the uploaded file. The page reads it from its processing record, which has no size field.
- Workspace.ProcessFile: the per-file progress ticks and timers are left out. The record update that follows it is `Workspace.CompleteRecord`, applied to the titles of the same mock insights.
- Case folding and white space cover ASCII only: `toLowerCase` lower-cases A–Z, and `trim` removes the ASCII white-space characters.
- The fraud indicator labels are capitalised as the route writes them: "High value claim" and "Multiple recent claims".
- The analytics, customer and single-policy routes, the seed script and the type files are context and are not part of this model.

=== FILE: claims_processor.dfy ===
/** The claims-document processor: file-name classification, the
    high-value alert raised while a document is processed, the random flag
    pick, and the list of processed documents. The random draws, the clock
    and the extracted loss amount are inputs. */
module ClaimsProcessor {
  import opened Optional
  import opened Text
  import Seqs

  datatype DocumentType = PoliceReport | Estimate | Photos | MedicalRecords | IncidentReport

  // ------------------------------------------------------- classification

  predicate Mentions(name: string, a: string, b: string) {
    Contains(Lower(name), a) || Contains(Lower(name), b)
  }

  /** `getDocumentType`: the first rule whose keywords occur in the
      lower-cased file name decides; no match means an incident report. */
  function GetDocumentType(fileName: string): (r: DocumentType)
    ensures r == PoliceReport <==> Mentions(fileName, "police", "accident")
    ensures r == Estimate <==> !Mentions(fileName, "police", "accident") && Mentions(fileName, "estimate", "repair")
    ensures r == Photos <==>
              !Mentions(fileName, "police", "accident") && !Mentions(fileName, "estimate", "repair")
              && Mentions(fileName, "photo", "image")
    ensures r == MedicalRecords <==>
              !Mentions(fileName, "police", "accident") && !Mentions(fileName, "estimate", "repair")
              && !Mentions(fileName, "photo", "image") && Mentions(fileName, "medical", "hospital")
    ensures r == IncidentReport <==>
              !Mentions(fileName, "police", "accident") && !Mentions(fileName, "estimate", "repair")
              && !Mentions(fileName, "photo", "image") && !Mentions(fileName, "medical", "hospital")
  {
    var lower := Lower(fileName);
    if Contains(lower, "police") || Contains(lower, "accident") then PoliceReport
    else if Contains(lower, "estimate") || Contains(lower, "repair") then Estimate
    else if Contains(lower, "photo") || Contains(lower, "image") then Photos
    else if Contains(lower, "medical") || Contains(lower, "hospital") then MedicalRecords
    else IncidentReport
  }

  /** Names that differ only in the case of ASCII letters get the same type. */
  lemma DocumentTypeIgnoresCase(a: string, b: string)
    requires Lower(a) == Lower(b)
    ensures GetDocumentType(a) == GetDocumentType(b)
  {
  }

  /** The lower-cased name is classified like the name itself. */
  lemma DocumentTypeOfLowered(name: string)
    ensures GetDocumentType(Lower(name)) == GetDocumentType(name)
  {
    LowerIdempotent(name);
  }

  /** A name mentioning several keyword groups gets the earliest rule's type. */
  lemma PoliceBeatsEstimate(name: string)
    requires Contains(Lower(name), "accident") && Contains(Lower(name), "repair")
    ensures GetDocumentType(name) == PoliceReport
  {
  }

  // ---------------------------------------------------------------- flags

  const PossibleFlags: seq<string> := ["review_required", "high_value", "multiple_parties", "prior_claims"]
  const FlagCount := 4

  /** `possibleFlags.filter(() => Math.random() > 0.7)` with the four draws'
      outcomes given: the flags whose draw came out true, in declared order. */
  function GenerateFlags(draws: seq<bool>): (r: seq<string>)
    requires |draws| == FlagCount
    ensures Seqs.IsSubseq(r, PossibleFlags)
    ensures forall i :: 0 <= i < |PossibleFlags| ==> (PossibleFlags[i] in r <==> draws[i])
  {
    Pick(PossibleFlags, draws)
  }

  /** The entries of `s` whose draw is true, in order. */
  function Pick(s: seq<string>, draws: seq<bool>): (r: seq<string>)
    requires |draws| == |s|
    requires forall i, j :: 0 <= i < j < |s| ==> s[i] != s[j]
    ensures Seqs.IsSubseq(r, s)
    ensures forall i :: 0 <= i < |s| ==> (s[i] in r <==> draws[i])
    ensures forall x :: x in r ==> x in s
    decreases |s|
  {
    if |s| == 0 then []
    else
      var rest := Pick(s[1..], draws[1..]);
      assert forall i :: 1 <= i < |s| ==> s[i] == s[1..][i - 1] && draws[i] == draws[1..][i - 1];
      if draws[0] then [s[0]] + rest else rest
  }

  // ----------------------------------------------------------- processing

  /** What the processor learns about one uploaded file. `lossAmount` is the
      extracted amount in whole dollars; `confidenceDraw` is the random pick
      in 0..19 and `flagDraws` the four flag draws. */
  datatype Upload = Upload(
    id: string,
    fileName: string,
    nowMs: nat,
    policyNumber: string,
    lossAmount: Option<int>,
    confidenceDraw: nat,
    flagDraws: seq<bool>)

  datatype ClaimDocument = ClaimDocument(
    id: string,
    claimNumber: string,
    policyNumber: string,
    documentType: DocumentType,
    lossAmount: Option<int>,
    confidence: int,
    flags: seq<string>,
    processed: bool)

  datatype Alert = Alert(
    kind: string,
    severity: string,
    description: string,
    documentIds: seq<string>,
    riskScore: int,
    investigationRequired: bool)

  datatype Processor = Processor(processedClaims: seq<ClaimDocument>, fraudAlerts: seq<Alert>)

  predicate WellFormed(u: Upload) {
    u.confidenceDraw < 20 && |u.flagDraws| == FlagCount
  }

  /** The extracted amount is present (and non-zero) and above 50000. */
  predicate HighValue(u: Upload) {
    u.lossAmount.Some? && u.lossAmount.value != 0 && u.lossAmount.value > 50000
  }

  /** The document record `processClaimDocument` builds: the claim number is
      `CLM-` and the last 6 digits of the clock, the confidence is 80 plus the
      draw, and the flags are those whose draw came out true. */
  function Document(u: Upload): (d: ClaimDocument)
    requires WellFormed(u)
    ensures 80 <= d.confidence <= 99 && d.confidence - 80 == u.confidenceDraw
    ensures d.claimNumber == "CLM-" + LastN(Decimal(u.nowMs), 6)
    ensures EndsWith(Decimal(u.nowMs), d.claimNumber[4..])
    ensures |d.claimNumber| == 4 + (if |Decimal(u.nowMs)| < 6 then |Decimal(u.nowMs)| else 6)
    ensures d.documentType == GetDocumentType(u.fileName)
    ensures d.flags == GenerateFlags(u.flagDraws)
    ensures forall i :: 0 <= i < |PossibleFlags| ==> (PossibleFlags[i] in d.flags <==> u.flagDraws[i])
    ensures d.processed && d.id == u.id && d.lossAmount == u.lossAmount && d.policyNumber == u.policyNumber
  {
    ClaimDocument(
      u.id,
      "CLM-" + LastN(Decimal(u.nowMs), 6),
      u.policyNumber,
      GetDocumentType(u.fileName),
      u.lossAmount,
      80 + u.confidenceDraw,
      GenerateFlags(u.flagDraws),
      true)
  }

  /** `processClaimDocument`: the document is appended exactly once, and an
      alert about it (risk 75, severity high, investigation required) is
      appended exactly when its loss amount is above 50000. */
  function ProcessDocument(p: Processor, u: Upload): (r: Processor)
    requires WellFormed(u)
    ensures r.processedClaims == p.processedClaims + [Document(u)]
    ensures HighValue(u) ==> |r.fraudAlerts| == |p.fraudAlerts| + 1 && r.fraudAlerts[..|p.fraudAlerts|] == p.fraudAlerts
    ensures !HighValue(u) ==> r.fraudAlerts == p.fraudAlerts
    ensures HighValue(u) ==>
              var a := r.fraudAlerts[|p.fraudAlerts|];
              a.riskScore == 75 && a.severity == "high" && a.investigationRequired
              && a.documentIds == [u.id] && a.kind == "excessive_claims"
  {
    var d := Document(u);
    var alerts :=
      if HighValue(u) then
        p.fraudAlerts + [Alert("excessive_claims", "high", "High-value claim detected requiring additional review", [d.id], 75, true)]
      else p.fraudAlerts;
    Processor(p.processedClaims + [d], alerts)
  }

  /** The documents of a batch, one per upload, in upload order. */
  function Documents(us: seq<Upload>): (r: seq<ClaimDocument>)
    requires forall u :: u in us ==> WellFormed(u)
    ensures |r| == |us|
    decreases |us|
  {
    if |us| == 0 then []
    else
      [Document(us[0])] + Documents(us[1..])
  }

  /** The document at position i of a batch is the i-th upload's document. */
  lemma {:induction false} DocumentsAt(us: seq<Upload>, i: nat)
    requires forall u :: u in us ==> WellFormed(u)
    requires i < |us|
    ensures Documents(us)[i] == Document(us[i])
    decreases |us|
  {
    if i > 0 {
      DocumentsAt(us[1..], i - 1);
      assert us[1..][i - 1] == us[i];
    }
  }

  /** Processing the first upload and then the documents of the rest gives
      the documents of the whole batch. */
  lemma DocumentsCons(p: Processor, us: seq<Upload>)
    requires |us| > 0 && forall u :: u in us ==> WellFormed(u)
    ensures ProcessDocument(p, us[0]).processedClaims + Documents(us[1..]) == p.processedClaims + Documents(us)
  {
    var d := Document(us[0]);
    var rest := Documents(us[1..]);
    assert Documents(us) == [d] + rest;
    assert ProcessDocument(p, us[0]).processedClaims == p.processedClaims + [d];
    Concat(p.processedClaims, d, rest);
  }

  /** Concatenation regrouped around one document. */
  lemma Concat(a: seq<ClaimDocument>, d: ClaimDocument, b: seq<ClaimDocument>)
    ensures (a + [d]) + b == a + ([d] + b)
  {
  }

  /** `handleFileUpload`: the files are processed one after the other, so the
      processed list grows by each file's document, in upload order. */
  function ProcessAll(p: Processor, us: seq<Upload>): (r: Processor)
    requires forall u :: u in us ==> WellFormed(u)
    ensures r.processedClaims == p.processedClaims + Documents(us)
    decreases |us|
  {
    if |us| == 0 then p
    else
      DocumentsCons(p, us);
      ProcessAll(ProcessDocument(p, us[0]), us[1..])
  }

  /** A batch appends one processed document per file and keeps the earlier ones. */
  lemma {:induction false} ProcessAllClaims(p: Processor, us: seq<Upload>)
    requires forall u :: u in us ==> WellFormed(u)
    ensures |ProcessAll(p, us).processedClaims| == |p.processedClaims| + |us|
    ensures ProcessAll(p, us).processedClaims[..|p.processedClaims|] == p.processedClaims
    decreases |us|
  {
    var r := ProcessAll(p, us);
    assert r.processedClaims[..|p.processedClaims|] == p.processedClaims;
  }

  /** A batch raises one alert per high-value file. */
  lemma {:induction false} ProcessAllAlerts(p: Processor, us: seq<Upload>)
    requires forall u :: u in us ==> WellFormed(u)
    ensures |ProcessAll(p, us).fraudAlerts| == |p.fraudAlerts| + |Seqs.Filter(us, HighValue)|
    decreases |us|
  {
    if |us| > 0 {
      var q := ProcessDocument(p, us[0]);
      assert forall i :: 0 <= i < |us| - 1 ==> us[1..][i] == us[i + 1];
      ProcessAllAlerts(q, us[1..]);
      assert ProcessAll(p, us) == ProcessAll(q, us[1..]);
      assert |q.fraudAlerts| == |p.fraudAlerts| + if HighValue(us[0]) then 1 else 0;
      assert |Seqs.Filter(us, HighValue)| == (if HighValue(us[0]) then 1 else 0) + |Seqs.Filter(us[1..], HighValue)|;
    }
  }
}

=== FILE: claims_route.dfy ===
/** The claims API route: listing arithmetic (`GET`), claim intake with
    adjuster assignment and the activity entry (`POST`), and the fraud rules
    run after intake (`checkFraudIndicators`).

    Money is in integer cents. Times are milliseconds since the epoch. The
    database is replaced by its answers: the claims already stored and the
    adjusters with their assigned-claim counts are parameters, and so are the
    three clock readings the route takes: one for the claim number, one for
    the reported date and one inside the fraud check. */
module ClaimsRoute {
  import opened Optional
  import opened Text
  import Seqs

  /** A loss above $50,000 is a high-value claim. */
  const HighValueCents: int := 50000_00
  /** A loss above $75,000 makes the alert's severity HIGH. */
  const HighSeverityCents: int := 75000_00
  /** The trailing window for counting a customer's recent claims: 90 days. */
  const RecentWindowMs: int := 90 * 24 * 60 * 60 * 1000
  /** More than this many recent claims is suspicious. */
  const RecentClaimLimit: int := 3
  /** Each fired indicator is worth 25 points. */
  const PointsPerIndicator: int := 25

  datatype ClaimStatus = Open | Investigating | Processing | Closed | Denied

  datatype Participant = Participant(kind: string, name: string, role: string, contact: string)

  /** The JSON body of `POST /api/claims`. An amount of 0 is falsy in the
      route and therefore stored as null, like an absent one. */
  datatype ClaimRequest = ClaimRequest(
    policyId: string,
    customerId: string,
    lossDate: int,
    description: string,
    lossAmount: Option<int>,
    reserveAmount: Option<int>,
    location: Option<string>,
    participants: Option<seq<Participant>>)

  datatype Claim = Claim(
    id: string,
    claimNumber: string,
    policyId: string,
    customerId: string,
    lossDate: int,
    reportedDate: int,
    status: ClaimStatus,
    description: string,
    lossAmount: Option<int>,
    reserveAmount: Option<int>,
    location: Option<string>,
    participants: seq<Participant>,
    assignedTo: Option<string>)

  /** A user with role ADJUSTER and the number of claims assigned to them. */
  datatype Adjuster = Adjuster(id: string, assignedClaims: nat)

  /** An audit entry; its metadata records the claim's loss amount and status. */
  datatype Activity = Activity(
    entityType: string,
    entityId: string,
    userId: string,
    action: string,
    description: string,
    lossAmount: Option<int>,
    claimStatus: ClaimStatus)

  datatype Severity = High | Medium

  datatype Indicator = HighValueClaim | MultipleRecentClaims

  datatype FraudAlert = FraudAlert(
    kind: string,
    severity: Severity,
    description: string,
    entityType: string,
    entityId: string,
    riskScore: int,
    investigationRequired: bool)

  // ---------------------------------------------------------------------------
  // GET: pagination arithmetic

  /** The JavaScript number `Math.ceil(total / limit)`: a division by a zero
      limit gives NaN for 0 rows and Infinity otherwise. */
  datatype PageCount = Pages(n: int) | Infinity | NaN

  /** The smallest integer not below `a / b` (b != 0). */
  function CeilDiv(a: int, b: int): int
    requires b != 0
  {
    if b > 0 then -((-a) / b) else -(a / (-b))
  }

  /** `pages = Math.ceil(total / limit)` */
  function PageTotal(total: nat, limit: int): (r: PageCount)
    ensures limit > 0 ==> r.Pages? && (r.n - 1) * limit < total <= r.n * limit
    ensures limit > 0 ==> r.n >= 0 && (total == 0 <==> r.n == 0)
    ensures limit == 0 ==> (r == NaN <==> total == 0) && (r == Infinity <==> total > 0)
  {
    if limit == 0 then (if total == 0 then NaN else Infinity)
    else
      var n := CeilDiv(total, limit);
      if limit > 0 then
        CeilBounds(total, limit);
        Pages(n)
      else Pages(n)
  }

  /** For a positive limit the ceiling is the page count that just covers `total`. */
  lemma CeilBounds(total: nat, limit: int)
    requires limit > 0
    ensures (CeilDiv(total, limit) - 1) * limit < total <= CeilDiv(total, limit) * limit
    ensures CeilDiv(total, limit) >= 0
    ensures total == 0 <==> CeilDiv(total, limit) == 0
  {
    var negTotal: int := -(total as int);
    var q := negTotal / limit;
    var m := negTotal % limit;
    assert negTotal == q * limit + m && 0 <= m < limit;
    assert CeilDiv(total, limit) == -q;
    assert total == (-q) * limit - m;
    assert (-q - 1) * limit == (-q) * limit - limit;
  }

  // ---------------------------------------------------------------------------
  // POST: the new claim

  /** `CLM-` followed by the last 8 digits of `Date.now()`. */
  function ClaimNumber(nowMs: nat): (r: string)
    ensures StartsWith(r, "CLM-")
    ensures EndsWith(Decimal(nowMs), r[4..])
    ensures |r| == 4 + (if |Decimal(nowMs)| < 8 then |Decimal(nowMs)| else 8)
  {
    "CLM-" + LastN(Decimal(nowMs), 8)
  }

  /** The route's truthiness test on an amount: absent and 0 both become null. */
  function StoredAmount(raw: Option<int>): (r: Option<int>)
    ensures r == None <==> raw == None || raw == Some(0)
    ensures r.Some? ==> r == raw
  {
    match raw
    case Some(v) => if v != 0 then Some(v) else None
    case None => None
  }

  /** The stored claim before adjuster assignment. */
  function NewClaim(req: ClaimRequest, id: string, claimNumber: string, nowMs: int): (c: Claim)
    ensures c.status == Open && c.reportedDate == nowMs && c.assignedTo == None
    ensures c.id == id && c.claimNumber == claimNumber
    ensures c.policyId == req.policyId && c.customerId == req.customerId
    ensures c.lossDate == req.lossDate && c.description == req.description
    ensures c.lossAmount == None <==> req.lossAmount == None || req.lossAmount == Some(0)
    ensures c.lossAmount.Some? ==> req.lossAmount == c.lossAmount
    ensures c.reserveAmount == None <==> req.reserveAmount == None || req.reserveAmount == Some(0)
    ensures c.reserveAmount.Some? ==> req.reserveAmount == c.reserveAmount
    ensures c.location == None <==> req.location == None || req.location == Some("")
    ensures req.participants == None ==> c.participants == []
    ensures req.participants.Some? ==> c.participants == req.participants.value
  {
    Claim(
      id := id,
      claimNumber := claimNumber,
      policyId := req.policyId,
      customerId := req.customerId,
      lossDate := req.lossDate,
      reportedDate := nowMs,
      status := Open,
      description := req.description,
      lossAmount := StoredAmount(req.lossAmount),
      reserveAmount := StoredAmount(req.reserveAmount),
      location := match req.location case Some(l) => (if l == "" then None else Some(l)) case None => None,
      participants := req.participants.GetOr([]),
      assignedTo := None)
  }

  /** The adjuster at index `k` carries the fewest assigned claims and no
      earlier adjuster carries as few. */
  predicate FirstLeastLoaded(adjusters: seq<Adjuster>, k: int) {
    && 0 <= k < |adjusters|
    && (forall j :: 0 <= j < |adjusters| ==> adjusters[k].assignedClaims <= adjusters[j].assignedClaims)
    && (forall j :: 0 <= j < k ==> adjusters[j].assignedClaims > adjusters[k].assignedClaims)
  }

  /** The workload-based pick: the query orders adjusters by assigned-claim
      count ascending and takes the first. Among equal counts the earlier
      adjuster of the list wins. */
  method PickAdjuster(adjusters: seq<Adjuster>) returns (pick: Option<nat>)
    ensures pick == None <==> |adjusters| == 0
    ensures pick.Some? ==> FirstLeastLoaded(adjusters, pick.value)
  {
    if |adjusters| == 0 {
      return None;
    }
    var best := 0;
    var i := 1;
    while i < |adjusters|
      invariant 1 <= i <= |adjusters|
      invariant 0 <= best < i
      invariant forall j :: 0 <= j < i ==> adjusters[best].assignedClaims <= adjusters[j].assignedClaims
      invariant forall j :: 0 <= j < best ==> adjusters[j].assignedClaims > adjusters[best].assignedClaims
    {
      if adjusters[i].assignedClaims < adjusters[best].assignedClaims {
        best := i;
      }
      i := i + 1;
    }
    return Some(best);
  }

  /** `assignedTo` after the workload step: set to the picked adjuster, left
      unset when there is no adjuster. */
  function Assign(c: Claim, pick: Option<nat>, adjusters: seq<Adjuster>): Claim
    requires pick.Some? ==> pick.value < |adjusters|
  {
    match pick
    case Some(k) => c.(assignedTo := Some(adjusters[k].id))
    case None => c
  }

  /** The audit entry the route writes for a new claim. */
  function ClaimActivity(c: Claim, userId: string): (a: Activity)
    ensures a.entityType == "CLAIM" && a.action == "CREATED"
    ensures a.entityId == c.id && a.userId == userId
    ensures a.description == "Claim " + c.claimNumber + " filed"
    ensures a.lossAmount == c.lossAmount && a.claimStatus == c.status
  {
    Activity("CLAIM", c.id, userId, "CREATED", "Claim " + c.claimNumber + " filed", c.lossAmount, c.status)
  }

  // ---------------------------------------------------------------------------
  // checkFraudIndicators

  /** `claim.lossAmount && claim.lossAmount > 50000` */
  predicate IsHighValue(loss: Option<int>) {
    loss.Some? && loss.value > HighValueCents
  }

  /** `claim.lossAmount > 75000`, which is false for a null amount. */
  predicate IsHighSeverity(loss: Option<int>) {
    loss.Some? && loss.value > HighSeverityCents
  }

  /** The claims counted by the recent-claims query: same customer, reported
      at or after `nowMs` minus 90 days. */
  function RecentClaims(stored: seq<Claim>, customerId: string, nowMs: int): seq<Claim> {
    Seqs.Filter(stored, (c: Claim) => c.customerId == customerId && c.reportedDate >= nowMs - RecentWindowMs)
  }

  function Label(i: Indicator): string {
    match i
    case HighValueClaim => "High value claim"
    case MultipleRecentClaims => "Multiple recent claims"
  }

  /** The indicators that fire, in the order the route pushes them. */
  function Indicators(loss: Option<int>, recentCount: nat): (r: seq<Indicator>)
    ensures HighValueClaim in r <==> IsHighValue(loss)
    ensures MultipleRecentClaims in r <==> recentCount > RecentClaimLimit
    ensures |r| == 2 ==> r == [HighValueClaim, MultipleRecentClaims]
    ensures forall i, j :: 0 <= i < j < |r| ==> r[i] != r[j]
  {
    (if IsHighValue(loss) then [HighValueClaim] else [])
    + (if recentCount > RecentClaimLimit then [MultipleRecentClaims] else [])
  }

  function Labels(ind: seq<Indicator>): (r: seq<string>)
    ensures |r| == |ind|
  {
    seq(|ind|, i requires 0 <= i < |ind| => Label(ind[i]))
  }

  /** The indicator list of the alert text, high-value first, as the
      route's `indicators.join(', ')` spells it. */
  function IndicatorText(loss: Option<int>, recentCount: nat): string {
    if IsHighValue(loss) && recentCount > RecentClaimLimit then "High value claim, Multiple recent claims"
    else if IsHighValue(loss) then "High value claim"
    else if recentCount > RecentClaimLimit then "Multiple recent claims"
    else ""
  }

  /** Joining the fired indicators' labels with ", " gives `IndicatorText`. */
  lemma IndicatorsJoined(loss: Option<int>, recentCount: nat)
    ensures Join(Labels(Indicators(loss, recentCount)), ", ") == IndicatorText(loss, recentCount)
  {
    var ind := Indicators(loss, recentCount);
    if IsHighValue(loss) && recentCount > RecentClaimLimit {
      assert Labels(ind) == ["High value claim", "Multiple recent claims"];
    } else if IsHighValue(loss) {
      assert Labels(ind) == ["High value claim"];
    } else if recentCount > RecentClaimLimit {
      assert Labels(ind) == ["Multiple recent claims"];
    } else {
      assert Labels(ind) == [];
    }
  }

  /** The alert written after intake, or none. `recentCount` is the database's
      count of the customer's recent claims, which includes the new claim. */
  function CheckFraudIndicators(c: Claim, recentCount: nat): (alert: Option<FraudAlert>)
    ensures alert.Some? <==> IsHighValue(c.lossAmount) || recentCount > RecentClaimLimit
    ensures alert.Some? ==>
              (&& alert.value.kind == "SUSPICIOUS_PATTERN"
               && alert.value.entityType == "CLAIM" && alert.value.entityId == c.id
               && alert.value.investigationRequired)
    ensures alert.Some? ==> (alert.value.severity == High <==> IsHighSeverity(c.lossAmount))
    ensures alert.Some? ==>
              alert.value.riskScore ==
                (if IsHighValue(c.lossAmount) && recentCount > RecentClaimLimit then 75
                 else if IsHighValue(c.lossAmount) then 50
                 else 25)
    ensures alert.Some? ==>
              alert.value.description == "Potential fraud detected: " + IndicatorText(c.lossAmount, recentCount)
  {
    var ind := Indicators(c.lossAmount, recentCount);
    if |ind| == 0 then None
    else
      IndicatorsJoined(c.lossAmount, recentCount);
      var raw := |ind| * PointsPerIndicator + (if IsHighValue(c.lossAmount) then PointsPerIndicator else 0);
      Some(FraudAlert(
        kind := "SUSPICIOUS_PATTERN",
        severity := if IsHighSeverity(c.lossAmount) then High else Medium,
        description := "Potential fraud detected: " + Join(Labels(ind), ", "),
        entityType := "CLAIM",
        entityId := c.id,
        riskScore := if raw < 100 then raw else 100,
        investigationRequired := true))
  }

  /** A HIGH alert is always a high-value one: above $75,000 is above $50,000. */
  lemma HighSeverityImpliesHighValue(c: Claim, recentCount: nat)
    requires CheckFraudIndicators(c, recentCount).Some?
    requires CheckFraudIndicators(c, recentCount).value.severity == High
    ensures IsHighValue(c.lossAmount)
    ensures CheckFraudIndicators(c, recentCount).value.riskScore >= 50
  {
  }

  /** The new claim is stored with `reportedDate = now` before the count, so
      when the count is taken within 90 days of storing it, it is counted. */
  lemma {:induction false} NewClaimIsCounted(stored: seq<Claim>, c: Claim, checkMs: int)
    requires c.reportedDate <= checkMs <= c.reportedDate + RecentWindowMs
    ensures |RecentClaims(stored + [c], c.customerId, checkMs)|
            == |RecentClaims(stored, c.customerId, checkMs)| + 1
  {
    var p := (x: Claim) => x.customerId == c.customerId && x.reportedDate >= checkMs - RecentWindowMs;
    Seqs.FilterAppend(stored, [c], p);
    assert Seqs.Filter([c], p) == [c] + Seqs.Filter([c][1..], p);
  }

  /** The intake flow of `POST /api/claims`: store the claim, assign the
      least-loaded adjuster, log the activity, then run the fraud rules on the
      stored claims (which now include the new one) at the later clock
      reading `checkMs`. The claim number comes from its own, earlier clock
      reading `numberMs`, so it need not match the reported date. */
  method FileClaim(req: ClaimRequest, id: string, numberMs: nat, nowMs: nat, userId: string,
                   adjusters: seq<Adjuster>, stored: seq<Claim>, checkMs: int)
    returns (c: Claim, activity: Activity, alert: Option<FraudAlert>)
    ensures c.status == Open && c.reportedDate == nowMs && c.claimNumber == ClaimNumber(numberMs)
    ensures c == NewClaim(req, id, ClaimNumber(numberMs), nowMs).(assignedTo := c.assignedTo)
    ensures c.assignedTo == None <==> |adjusters| == 0
    ensures c.assignedTo.Some? ==> exists k :: FirstLeastLoaded(adjusters, k) && adjusters[k].id == c.assignedTo.value
    ensures activity == ClaimActivity(c, userId)
    ensures alert == CheckFraudIndicators(c, |RecentClaims(stored + [c], c.customerId, checkMs)|)
    ensures nowMs <= checkMs <= nowMs + RecentWindowMs ==>
              (|RecentClaims(stored + [c], c.customerId, checkMs)| > RecentClaimLimit
               <==> |RecentClaims(stored, c.customerId, checkMs)| >= RecentClaimLimit)
  {
    var created := NewClaim(req, id, ClaimNumber(numberMs), nowMs);
    var pick := PickAdjuster(adjusters);
    c := Assign(created, pick, adjusters);
    activity := ClaimActivity(c, userId);
    var recent := RecentClaims(stored + [c], c.customerId, checkMs);
    alert := CheckFraudIndicators(c, |recent|);
    if nowMs <= checkMs <= nowMs + RecentWindowMs {
      NewClaimIsCounted(stored, c, checkMs);
    }
  }
}

=== FILE: compliance_center.dfy ===
/** The compliance centre: the overdue test, the search / severity / status
    filter over the issues, and the four tiles. The current time is an input. */
module ComplianceCenter {
  import opened Text
  import Seqs

  /** A compliance issue; `kind` is the issue's `type` and `dueMs` its due date. */
  datatype Issue = Issue(
    id: string,
    kind: string,
    regulation: string,
    severity: string,
    description: string,
    remediation: string,
    dueMs: int,
    status: string,
    entityType: string,
    entityId: string)

  /** `isOverdue`: the current time is strictly after the due date. */
  predicate IsOverdue(nowMs: int, dueMs: int) {
    nowMs > dueMs
  }

  /** Once overdue, an issue stays overdue as time goes on, and an issue is
      never overdue at its own due date. */
  lemma OverdueIsPermanent(nowMs: int, laterMs: int, dueMs: int)
    requires nowMs <= laterMs
    ensures IsOverdue(nowMs, dueMs) ==> IsOverdue(laterMs, dueMs)
    ensures !IsOverdue(dueMs, dueMs)
  {
  }

  // ------------------------------------------------------------ the filter

  /** The page's controls; `"all"` imposes no restriction. */
  datatype Query = Query(search: string, severity: string, status: string)

  predicate MatchesSearch(i: Issue, term: string) {
    || ContainsIgnoreCase(i.kind, term)
    || ContainsIgnoreCase(i.regulation, term)
    || ContainsIgnoreCase(i.description, term)
  }

  predicate Selected(i: Issue, q: Query) {
    MatchesSearch(i, q.search) && AllOr(q.severity, i.severity) && AllOr(q.status, i.status)
  }

  function Selects(q: Query): Issue -> bool {
    (i: Issue) => Selected(i, q)
  }

  /** `filteredIssues`: the matching issues, in their original order. */
  function Filtered(issues: seq<Issue>, q: Query): (r: seq<Issue>)
    ensures Seqs.IsSubseq(r, issues)
    ensures forall k :: 0 <= k < |issues| ==> (issues[k] in r <==> Selected(issues[k], q))
    ensures forall k :: 0 <= k < |r| ==> Selected(r[k], q)
  {
    Seqs.Filter(issues, Selects(q))
  }

  /** An empty search with both filters on `"all"` lists every issue. */
  lemma NoRestrictionListsAll(issues: seq<Issue>)
    ensures Filtered(issues, Query("", "all", "all")) == issues
  {
    forall i | i in issues
      ensures Selected(i, Query("", "all", "all"))
    {
      ContainsEmpty(Lower(i.kind));
    }
    Seqs.FilterKeepsAll(issues, Selects(Query("", "all", "all")));
  }

  /** The case of the search term does not matter. */
  lemma SearchIgnoresTermCase(issues: seq<Issue>, q: Query)
    ensures Filtered(issues, q.(search := Lower(q.search))) == Filtered(issues, q)
  {
    forall i: Issue
      ensures Selects(q.(search := Lower(q.search)))(i) == Selects(q)(i)
    {
      IgnoreCaseOfLowered(i.kind, q.search);
      IgnoreCaseOfLowered(i.regulation, q.search);
      IgnoreCaseOfLowered(i.description, q.search);
    }
    Seqs.FilterExt(issues, Selects(q.(search := Lower(q.search))), Selects(q));
  }

  // -------------------------------------------------------------- the tiles

  function HasSeverity(severity: string): Issue -> bool {
    (i: Issue) => i.severity == severity
  }

  /** A severity tile: how many issues have the severity. */
  function SeverityCount(issues: seq<Issue>, severity: string): (r: nat)
    ensures r <= |issues|
    ensures r == 0 <==> forall k :: 0 <= k < |issues| ==> issues[k].severity != severity
    ensures |issues| > 0 ==>
              r == (if issues[0].severity == severity then 1 else 0) + SeverityCount(issues[1..], severity)
    decreases |issues|
  {
    var hits := Seqs.Filter(issues, HasSeverity(severity));
    assert |hits| > 0 ==> hits[0] in issues;
    |hits|
  }

  /** The Resolved tile: how many issues are resolved. */
  function ResolvedCount(issues: seq<Issue>): (r: nat)
    ensures r <= |issues|
    ensures r == 0 <==> forall k :: 0 <= k < |issues| ==> issues[k].status != "resolved"
    ensures |issues| > 0 ==>
              r == (if issues[0].status == "resolved" then 1 else 0) + ResolvedCount(issues[1..])
    decreases |issues|
  {
    var hits := Seqs.Filter(issues, (i: Issue) => i.status == "resolved");
    assert |hits| > 0 ==> hits[0] in issues;
    |hits|
  }

  /** When every issue is a warning, a violation or critical, the three
      severity tiles add up to the number of issues. */
  lemma {:induction false} SeverityTilesPartition(issues: seq<Issue>)
    requires forall k :: 0 <= k < |issues| ==> issues[k].severity in {"warning", "violation", "critical"}
    ensures SeverityCount(issues, "critical") + SeverityCount(issues, "violation")
            + SeverityCount(issues, "warning") == |issues|
    decreases |issues|
  {
    if |issues| > 0 {
      assert forall k :: 0 <= k < |issues| - 1 ==> issues[1..][k] == issues[k + 1];
      SeverityTilesPartition(issues[1..]);
    }
  }

}

=== FILE: dashboard.dfy ===
/** The dashboard's processing rate and the guard on its progress bar. */
module Dashboard {
  import opened Optional

  /** `processingRate`: 0 without files; otherwise processed / total as a
      percentage rounded to the nearest whole number, halves rounded up
      (`Math.round`), computed exactly on integers. */
  function ProcessingRate(processed: int, total: int): (r: int)
    ensures total <= 0 ==> r == 0
    ensures total > 0 ==> 2 * r * total - total <= 200 * processed < 2 * r * total + total
  {
    if total > 0 then (200 * processed + total) / (2 * total) else 0
  }

  /** The rounding target is unique: any two whole numbers within half a
      unit of the exact percentage are the same. */
  lemma {:induction false} NearestIsUnique(processed: int, total: int, a: int, b: int)
    requires total > 0
    requires 2 * a * total - total <= 200 * processed < 2 * a * total + total
    requires 2 * b * total - total <= 200 * processed < 2 * b * total + total
    ensures a == b
  {
    if a < b {
      MulNonNegative(b - a - 1, total);
    } else if b < a {
      MulNonNegative(a - b - 1, total);
    }
  }

  lemma MulNonNegative(x: int, y: int)
    requires x >= 0 && y >= 0
    ensures x * y >= 0
  {
  }

  /** No files processed gives 0, all files processed gives 100. */
  lemma RateEndpoints(total: int)
    requires total > 0
    ensures ProcessingRate(0, total) == 0
    ensures ProcessingRate(total, total) == 100
  {
    NearestIsUnique(0, total, ProcessingRate(0, total), 0);
    NearestIsUnique(total, total, ProcessingRate(total, total), 100);
  }

  /** For a fixed total, processing more files never lowers the rate. */
  lemma {:induction false} RateMonotone(p: int, q: int, total: int)
    requires p <= q
    ensures ProcessingRate(p, total) <= ProcessingRate(q, total)
  {
    if total > 0 {
      var a, b := ProcessingRate(p, total), ProcessingRate(q, total);
      if a > b {
        MulNonNegative(a - b - 1, total);
      }
    }
  }

  /** Between none and all files processed, the rate is a percentage. */
  lemma RateIsPercentage(processed: int, total: int)
    requires 0 <= processed <= total
    ensures 0 <= ProcessingRate(processed, total) <= 100
  {
    if total > 0 {
      RateEndpoints(total);
      RateMonotone(0, processed, total);
      RateMonotone(processed, total, total);
    }
  }

  /** The progress section: shown, with the rate as the bar's width, exactly
      when there are files. */
  function ProgressBar(processed: int, total: int): (r: Option<int>)
    ensures r.Some? <==> total > 0
    ensures r.Some? ==> r.value == ProcessingRate(processed, total)
    ensures r.Some? && 0 <= processed <= total ==> 0 <= r.value <= 100
  {
    if total > 0 then
      if 0 <= processed <= total then
        RateIsPercentage(processed, total);
        Some(ProcessingRate(processed, total))
      else Some(ProcessingRate(processed, total))
    else None
  }
}

=== FILE: document_library.dfy ===
/** The document library: the search and status filter followed by the
    chosen sort, the tag chips on each card, and the export button's guard. */
module DocumentLibrary {
  import opened Optional
  import opened Text
  import Seqs

  /** A stored document; `category` and `tags` may be absent. */
  datatype Document = Document(
    id: string,
    name: string,
    mime: string,
    size: nat,
    uploadMs: int,
    status: string,
    insightCount: int,
    category: Option<string>,
    tags: Option<seq<string>>)

  datatype SortKey = ByDate | ByInsights

  /** The library's controls; status `"all"` imposes no restriction. */
  datatype Query = Query(search: string, status: string, sortBy: SortKey)

  predicate SomeTagMatches(tags: seq<string>, term: string) {
    exists k :: 0 <= k < |tags| && ContainsIgnoreCase(tags[k], term)
  }

  /** Name, category or some tag contains the term, ignoring case. */
  predicate MatchesSearch(d: Document, term: string) {
    || ContainsIgnoreCase(d.name, term)
    || (d.category.Some? && ContainsIgnoreCase(d.category.value, term))
    || (d.tags.Some? && SomeTagMatches(d.tags.value, term))
  }

  predicate Selected(d: Document, q: Query) {
    MatchesSearch(d, q.search) && (q.status == "all" || d.status == q.status)
  }

  function SortValue(key: SortKey): Document -> int {
    match key
    case ByDate => (d: Document) => d.uploadMs
    case ByInsights => (d: Document) => d.insightCount
  }

  /** `filteredAndSortedDocuments`: exactly the matching documents, newest
      first or with the most insights first; equal keys keep the library's order. */
  function Visible(docs: seq<Document>, q: Query): (r: seq<Document>)
    ensures multiset(r) == multiset(Seqs.Filter(docs, (d: Document) => Selected(d, q)))
    ensures Seqs.SortedDesc(r, SortValue(q.sortBy))
    ensures Seqs.SameTies(Seqs.Filter(docs, (d: Document) => Selected(d, q)), r, SortValue(q.sortBy))
    ensures forall k :: 0 <= k < |r| ==> Selected(r[k], q) && r[k] in docs
  {
    var kept := Seqs.Filter(docs, (d: Document) => Selected(d, q));
    var r := Seqs.SortDesc(kept, SortValue(q.sortBy));
    assert forall k :: 0 <= k < |r| ==> r[k] in multiset(kept);
    r
  }

  /** A document is listed exactly when it matches: the sort loses and adds nothing. */
  lemma ListedIffSelected(docs: seq<Document>, q: Query, d: Document)
    requires d in docs
    ensures d in Visible(docs, q) <==> Selected(d, q)
  {
    var kept := Seqs.Filter(docs, (d: Document) => Selected(d, q));
    var i :| 0 <= i < |docs| && docs[i] == d;
    assert d in kept <==> d in multiset(kept);
    assert d in Visible(docs, q) <==> d in multiset(Visible(docs, q));
  }

  /** With an empty search and status `"all"`, every document is listed. */
  lemma NoRestrictionListsAll(docs: seq<Document>, sortBy: SortKey)
    ensures multiset(Visible(docs, Query("", "all", sortBy))) == multiset(docs)
  {
    var q := Query("", "all", sortBy);
    forall d | d in docs
      ensures Selected(d, q)
    {
      ContainsEmpty(Lower(d.name));
    }
    Seqs.FilterKeepsAll(docs, (d: Document) => Selected(d, q));
  }

  // ------------------------------------------------------------ the card

  /** The tag chips of a card: the first two tags, then `+k more` for the rest. */
  datatype Chips = Chips(shown: seq<string>, more: Option<string>)

  function TagChips(tags: seq<string>): (r: Chips)
    ensures |r.shown| == if |tags| < 2 then |tags| else 2
    ensures forall k :: 0 <= k < |r.shown| ==> r.shown[k] == tags[k]
    ensures r.more.Some? <==> |tags| > 2
    ensures r.more.Some? ==> r.more.value == "+" + Decimal(|tags| - 2) + " more"
  {
    Chips(Seqs.Take(tags, 2), if |tags| > 2 then Some("+" + Decimal(|tags| - 2) + " more") else None)
  }

  datatype Action = View | Export | Delete

  /** The buttons of a document card: View first and Delete last, always;
      between them Export, which appears only for a processed document with
      at least one insight. */
  function CardActions(d: Document): (r: seq<Action>)
    ensures |r| >= 2 && r[0] == View && r[|r| - 1] == Delete
    ensures Export in r <==> d.status == "processed" && d.insightCount > 0
    ensures forall k :: 1 <= k < |r| - 1 ==> r[k] == Export
    ensures forall i, j :: 0 <= i < j < |r| ==> r[i] != r[j]
  {
    [View] + (if d.status == "processed" && d.insightCount > 0 then [Export] else []) + [Delete]
  }

  /** A document whose processing failed or is still running, or that has no
      insights, offers View and Delete only. */
  lemma NoExportWithoutInsights(d: Document)
    requires d.status != "processed" || d.insightCount == 0
    ensures CardActions(d) == [View, Delete]
  {
  }
}

=== FILE: file_upload.dfy ===
/** The upload widget's admission control: per-file size and type checks,
    the bound on the number of selected files, all-or-nothing batch
    admission, removal, and hand-over of the selection. */
module FileUpload {
  import opened Optional
  import opened Text
  import Seqs

  const Megabyte: nat := 1024 * 1024

  /** A browser `File`: its name, MIME type and size in bytes. */
  datatype FileInfo = FileInfo(name: string, mime: string, size: nat)

  /** The widget's props: at most `maxFiles` files of at most `maxSizeMb` megabytes each. */
  datatype Config = Config(maxFiles: nat, maxSizeMb: nat, accepted: seq<string>)

  const DefaultConfig: Config :=
    Config(10, 10, ["image/*", ".pdf", ".doc", ".docx", ".xls", ".xlsx", ".txt"])

  /** The selected files and the error list shown under the drop zone. */
  datatype Upload = Upload(selected: seq<FileInfo>, errors: seq<string>)

  const Empty: Upload := Upload([], [])

  // ------------------------------------------------------- single files

  /** `t.split('/')[0]`: everything before the first slash. */
  function BeforeSlash(t: string): (r: string)
    ensures StartsWith(t, r)
    ensures '/' !in r
    ensures |r| < |t| ==> t[|r|] == '/'
    decreases |t|
  {
    if |t| == 0 || t[0] == '/' then "" else [t[0]] + BeforeSlash(t[1..])
  }

  /** One accepted-types entry against a file: `.ext` entries test the
      lower-cased name's ending, wildcard entries the MIME type's start,
      any other entry the whole MIME type. */
  predicate EntryMatches(entry: string, f: FileInfo) {
    if StartsWith(entry, ".") then EndsWith(Lower(f.name), entry)
    else if '*' in entry then StartsWith(f.mime, BeforeSlash(entry))
    else f.mime == entry
  }

  /** `acceptedTypes.some(...)`, scanned from the front. */
  function AnyMatches(entries: seq<string>, f: FileInfo): (r: bool)
    ensures r <==> exists i :: 0 <= i < |entries| && EntryMatches(entries[i], f)
    decreases |entries|
  {
    if |entries| == 0 then false
    else if EntryMatches(entries[0], f) then true
    else
      var rest := AnyMatches(entries[1..], f);
      assert forall i :: 1 <= i < |entries| ==> entries[i] == entries[1..][i - 1];
      rest
  }

  predicate TooLarge(cfg: Config, f: FileInfo) {
    f.size > cfg.maxSizeMb * Megabyte
  }

  /** `validateFile`: no message for an acceptable file; otherwise the size
      message when it is too large, whatever its type, and the type message
      when only the type is wrong. */
  function ValidateFile(cfg: Config, f: FileInfo): (r: Option<string>)
    ensures r.None? <==> !TooLarge(cfg, f) && exists i :: 0 <= i < |cfg.accepted| && EntryMatches(cfg.accepted[i], f)
    ensures TooLarge(cfg, f) ==>
              r == Some("File \"" + f.name + "\" is too large. Maximum size is " + Decimal(cfg.maxSizeMb) + "MB.")
    ensures !TooLarge(cfg, f) && r.Some? ==> r == Some("File \"" + f.name + "\" is not a supported file type.")
  {
    if TooLarge(cfg, f) then
      Some("File \"" + f.name + "\" is too large. Maximum size is " + Decimal(cfg.maxSizeMb) + "MB.")
    else if !AnyMatches(cfg.accepted, f) then
      Some("File \"" + f.name + "\" is not a supported file type.")
    else None
  }

  predicate Valid(cfg: Config, f: FileInfo) {
    ValidateFile(cfg, f).None?
  }

  /** The default types accept any image type and the listed extensions
      whatever the case of the file name. */
  lemma DefaultTypes(f: FileInfo)
    ensures StartsWith(f.mime, "image") ==> EntryMatches(DefaultConfig.accepted[0], f)
    ensures EndsWith(Lower(f.name), ".pdf") ==> EntryMatches(DefaultConfig.accepted[1], f)
  {
    assert BeforeSlash("image/*") == "image" by {
      assert BeforeSlash("/*") == "";
      assert "image/*"[1..] == "mage/*";
      assert "mage/*"[1..] == "age/*";
      assert "age/*"[1..] == "ge/*";
      assert "ge/*"[1..] == "e/*";
      assert "e/*"[1..] == "/*";
    }
    assert '*' in "image/*" by { assert "image/*"[6] == '*'; }
    assert !StartsWith("image/*", ".") by { assert "image/*"[..1] == "i"; }
    assert StartsWith(".pdf", ".") by { assert ".pdf"[..1] == "."; }
  }

  // ------------------------------------------------------------ batches

  function Invalid(cfg: Config): FileInfo -> bool {
    (f: FileInfo) => !Valid(cfg, f)
  }

  /** Each file's message, in order; an acceptable file has none and shows as "". */
  function Messages(cfg: Config, fs: seq<FileInfo>): seq<string> {
    seq(|fs|, i requires 0 <= i < |fs| => ValidateFile(cfg, fs[i]).GetOr(""))
  }

  /** The messages of the invalid files of a batch, in batch order: one per
      invalid file, and none for an acceptable one. */
  function BatchErrors(cfg: Config, files: seq<FileInfo>): (r: seq<string>)
    ensures r == Messages(cfg, Seqs.Filter(files, Invalid(cfg)))
    ensures |r| == 0 <==> forall i :: 0 <= i < |files| ==> Valid(cfg, files[i])
    decreases |files|
  {
    if |files| == 0 then []
    else
      var rest := BatchErrors(cfg, files[1..]);
      var tail := Seqs.Filter(files[1..], Invalid(cfg));
      assert forall i :: 1 <= i < |files| ==> files[i] == files[1..][i - 1];
      match ValidateFile(cfg, files[0])
      case Some(msg) =>
        assert Messages(cfg, [files[0]] + tail) == [msg] + Messages(cfg, tail);
        [msg] + rest
      case None => rest
  }

  /** `processFiles`: a batch that would exceed `maxFiles` is refused with one
      message; a batch with an invalid file is refused with the per-file
      messages; otherwise every file is appended in order and the errors clear.
      A refused batch never changes the selection. */
  function ProcessFiles(cfg: Config, u: Upload, files: seq<FileInfo>): (r: Upload)
    ensures |u.selected| + |files| > cfg.maxFiles ==>
              r == Upload(u.selected, ["Cannot upload more than " + Decimal(cfg.maxFiles) + " files at once."])
    ensures |u.selected| + |files| <= cfg.maxFiles && (exists i :: 0 <= i < |files| && !Valid(cfg, files[i])) ==>
              r == Upload(u.selected, BatchErrors(cfg, files)) && |r.errors| > 0
    ensures |u.selected| + |files| <= cfg.maxFiles && (forall i :: 0 <= i < |files| ==> Valid(cfg, files[i])) ==>
              r == Upload(u.selected + files, [])
  {
    if |u.selected| + |files| > cfg.maxFiles then
      u.(errors := ["Cannot upload more than " + Decimal(cfg.maxFiles) + " files at once."])
    else
      var errs := BatchErrors(cfg, files);
      if |errs| > 0 then u.(errors := errs) else Upload(u.selected + files, [])
  }

  /** A drop or a file-picker change with at least one file runs `processFiles`;
      an empty one does nothing. */
  function Drop(cfg: Config, u: Upload, files: seq<FileInfo>): (r: Upload)
    ensures |files| == 0 ==> r == u
    ensures |files| > 0 ==> r == ProcessFiles(cfg, u, files)
  {
    if |files| > 0 then ProcessFiles(cfg, u, files) else u
  }

  /** `removeFile`: drops selected file `i`, keeps the rest in order, clears the errors. */
  function RemoveFile(u: Upload, i: int): (r: Upload)
    ensures r.errors == []
    ensures 0 <= i < |u.selected| ==> |r.selected| == |u.selected| - 1
    ensures 0 <= i < |u.selected| ==>
              forall j :: 0 <= j < |r.selected| ==> r.selected[j] == u.selected[if j < i then j else j + 1]
    ensures !(0 <= i < |u.selected|) ==> r.selected == u.selected
  {
    Upload(Seqs.RemoveAt(u.selected, i), [])
  }

  /** What `handleUpload` leaves behind and what it hands to `onFilesSelected`. */
  datatype Handover = Handover(upload: Upload, emitted: Option<seq<FileInfo>>)

  /** `handleUpload`: a non-empty selection is handed over whole and the
      widget empties; an empty one does nothing. */
  function HandleUpload(u: Upload): (r: Handover)
    ensures |u.selected| > 0 ==> r.emitted == Some(u.selected) && r.upload == Empty
    ensures |u.selected| == 0 ==> r.emitted == None && r.upload == u
  {
    if |u.selected| > 0 then Handover(Empty, Some(u.selected)) else Handover(u, None)
  }

  // -------------------------------------------------------- the invariant

  /** At most `maxFiles` files are selected and each of them passed validation. */
  predicate Admissible(cfg: Config, u: Upload) {
    |u.selected| <= cfg.maxFiles && forall i :: 0 <= i < |u.selected| ==> Valid(cfg, u.selected[i])
  }

  /** Every operation keeps the selection admissible. */
  lemma OperationsKeepAdmissible(cfg: Config, u: Upload, files: seq<FileInfo>, i: int)
    requires Admissible(cfg, u)
    ensures Admissible(cfg, Drop(cfg, u, files))
    ensures Admissible(cfg, RemoveFile(u, i))
    ensures Admissible(cfg, HandleUpload(u).upload)
  {
    var r := Drop(cfg, u, files);
    if |files| > 0 && |u.selected| + |files| <= cfg.maxFiles && |BatchErrors(cfg, files)| == 0 {
      forall j | 0 <= j < |r.selected|
        ensures Valid(cfg, r.selected[j])
      {
        if j >= |u.selected| {
          assert r.selected[j] == files[j - |u.selected|];
        }
      }
    }
  }

  /** The widget's events, as the user produces them. */
  datatype Event = Dropped(files: seq<FileInfo>) | Removed(i: int) | Uploaded

  function Step(cfg: Config, u: Upload, ev: Event): Upload {
    match ev
    case Dropped(files) => Drop(cfg, u, files)
    case Removed(i) => RemoveFile(u, i)
    case Uploaded => HandleUpload(u).upload
  }

  function Run(cfg: Config, u: Upload, evs: seq<Event>): Upload
    decreases |evs|
  {
    if |evs| == 0 then u else Run(cfg, Step(cfg, u, evs[0]), evs[1..])
  }

  /** Starting empty, no sequence of events ever selects more than
      `maxFiles` files or a file that failed validation. */
  lemma {:induction false} RunKeepsAdmissible(cfg: Config, u: Upload, evs: seq<Event>)
    requires Admissible(cfg, u)
    ensures Admissible(cfg, Run(cfg, u, evs))
    decreases |evs|
  {
    if |evs| > 0 {
      match evs[0] {
        case Dropped(files) => OperationsKeepAdmissible(cfg, u, files, 0);
        case Removed(i) => OperationsKeepAdmissible(cfg, u, [], i);
        case Uploaded => OperationsKeepAdmissible(cfg, u, [], 0);
      }
      RunKeepsAdmissible(cfg, Step(cfg, u, evs[0]), evs[1..]);
    }
  }
}

=== FILE: fraud_detection.dfy ===
/** The fraud-detection page: the search / severity / status filter over the
    alerts, the risk bar's colour band, and the four tiles. */
module FraudDetection {
  import opened Text
  import Seqs

  /** A fraud alert; `kind` is the alert's `type`. */
  datatype Alert = Alert(
    id: string,
    kind: string,
    severity: string,
    description: string,
    claimNumber: string,
    customerName: string,
    riskScore: int,
    createdMs: int,
    status: string)

  // ------------------------------------------------------------ the filter

  /** The page's controls; `"all"` imposes no restriction. */
  datatype Query = Query(search: string, severity: string, status: string)

  predicate MatchesSearch(a: Alert, term: string) {
    || ContainsIgnoreCase(a.claimNumber, term)
    || ContainsIgnoreCase(a.customerName, term)
    || ContainsIgnoreCase(a.description, term)
  }

  predicate Selected(a: Alert, q: Query) {
    MatchesSearch(a, q.search) && AllOr(q.severity, a.severity) && AllOr(q.status, a.status)
  }

  function Selects(q: Query): Alert -> bool {
    (a: Alert) => Selected(a, q)
  }

  /** `filteredAlerts`: the matching alerts, in their original order. */
  function Filtered(alerts: seq<Alert>, q: Query): (r: seq<Alert>)
    ensures Seqs.IsSubseq(r, alerts)
    ensures forall k :: 0 <= k < |alerts| ==> (alerts[k] in r <==> Selected(alerts[k], q))
    ensures forall k :: 0 <= k < |r| ==> Selected(r[k], q)
  {
    Seqs.Filter(alerts, Selects(q))
  }

  /** An empty search with both filters on `"all"` lists every alert. */
  lemma NoRestrictionListsAll(alerts: seq<Alert>)
    ensures Filtered(alerts, Query("", "all", "all")) == alerts
  {
    forall a | a in alerts
      ensures Selected(a, Query("", "all", "all"))
    {
      ContainsEmpty(Lower(a.claimNumber));
    }
    Seqs.FilterKeepsAll(alerts, Selects(Query("", "all", "all")));
  }

  /** Narrowing the severity from `"all"` to one value keeps exactly the
      alerts of that severity among those listed before. */
  lemma SeverityNarrows(alerts: seq<Alert>, q: Query, severity: string)
    requires q.severity == "all" && severity != "all"
    ensures Filtered(alerts, q.(severity := severity))
            == Seqs.Filter(Filtered(alerts, q), HasSeverity(severity))
  {
    var narrowed := q.(severity := severity);
    forall a: Alert
      ensures Selects(narrowed)(a) == (Selects(q)(a) && HasSeverity(severity)(a))
    {
    }
    Seqs.FilterFuse(alerts, Selects(q), HasSeverity(severity), Selects(narrowed));
  }

  // ----------------------------------------------------------- the risk bar

  datatype Band = Green | Yellow | Orange | Red

  function BandRank(b: Band): nat {
    match b
    case Green => 0
    case Yellow => 1
    case Orange => 2
    case Red => 3
  }

  /** The risk bar's colour: 80 and above red, 60 to 79 orange, 40 to 59
      yellow, below 40 green. */
  function RiskBar(score: int): (r: Band)
    ensures r == Red <==> score >= 80
    ensures r == Orange <==> 60 <= score < 80
    ensures r == Yellow <==> 40 <= score < 60
    ensures r == Green <==> score < 40
  {
    if score >= 80 then Red
    else if score >= 60 then Orange
    else if score >= 40 then Yellow
    else Green
  }

  /** A higher risk score never gets a milder colour. */
  lemma RiskBarMonotone(a: int, b: int)
    requires a <= b
    ensures BandRank(RiskBar(a)) <= BandRank(RiskBar(b))
  {
  }

  // -------------------------------------------------------------- the tiles

  function HasSeverity(severity: string): Alert -> bool {
    (a: Alert) => a.severity == severity
  }

  function HasStatus(status: string): Alert -> bool {
    (a: Alert) => a.status == status
  }

  /** A severity tile: how many alerts have the severity. */
  function SeverityCount(alerts: seq<Alert>, severity: string): (r: nat)
    ensures r <= |alerts|
    ensures r == 0 <==> forall k :: 0 <= k < |alerts| ==> alerts[k].severity != severity
    ensures |alerts| > 0 ==>
              r == (if alerts[0].severity == severity then 1 else 0) + SeverityCount(alerts[1..], severity)
    decreases |alerts|
  {
    var hits := Seqs.Filter(alerts, HasSeverity(severity));
    assert |hits| > 0 ==> hits[0] in alerts;
    |hits|
  }

  /** A status tile: how many alerts have the status. */
  function StatusCount(alerts: seq<Alert>, status: string): (r: nat)
    ensures r <= |alerts|
    ensures r == 0 <==> forall k :: 0 <= k < |alerts| ==> alerts[k].status != status
    ensures |alerts| > 0 ==>
              r == (if alerts[0].status == status then 1 else 0) + StatusCount(alerts[1..], status)
    decreases |alerts|
  {
    var hits := Seqs.Filter(alerts, HasStatus(status));
    assert |hits| > 0 ==> hits[0] in alerts;
    |hits|
  }

  /** The Critical and High tiles count different alerts, and so do the
      Investigating and Resolved tiles. */
  lemma TilesCountDistinctAlerts(alerts: seq<Alert>)
    ensures SeverityCount(alerts, "critical") + SeverityCount(alerts, "high") <= |alerts|
    ensures StatusCount(alerts, "investigating") + StatusCount(alerts, "resolved") <= |alerts|
  {
    Seqs.DisjointCounts(alerts, HasSeverity("critical"), HasSeverity("high"));
    Seqs.DisjointCounts(alerts, HasStatus("investigating"), HasStatus("resolved"));
  }
}

=== FILE: insights_list.dfy ===
/** The insights list: the confidence colour band, the search / category /
    type filter followed by the chosen sort, and the distinct categories and
    types offered in the filter menus. */
module InsightsList {
  import opened Text
  import Seqs

  /** An extracted insight; `kind` is the insight's `type` and `timestampMs`
      its creation time. */
  datatype Insight = Insight(
    id: string,
    fileName: string,
    kind: string,
    title: string,
    content: string,
    confidence: int,
    category: string,
    timestampMs: int)

  // ------------------------------------------------------- colour bands

  datatype Band = Green | Yellow | Red

  function BandRank(b: Band): nat {
    match b
    case Red => 0
    case Yellow => 1
    case Green => 2
  }

  /** `getConfidenceColor`: 90 and above green, 70 to 89 yellow, below 70 red. */
  function ConfidenceBand(confidence: int): (r: Band)
    ensures r == Green <==> confidence >= 90
    ensures r == Yellow <==> 70 <= confidence < 90
    ensures r == Red <==> confidence < 70
  {
    if confidence >= 90 then Green else if confidence >= 70 then Yellow else Red
  }

  /** A higher confidence never gets a worse band. */
  lemma ConfidenceBandMonotone(a: int, b: int)
    requires a <= b
    ensures BandRank(ConfidenceBand(a)) <= BandRank(ConfidenceBand(b))
  {
  }

  // ---------------------------------------------------- filter and sort

  datatype SortKey = ByDate | ByConfidence

  /** The list's controls; `"all"` imposes no restriction. */
  datatype Query = Query(search: string, category: string, kind: string, sortBy: SortKey)

  predicate MatchesSearch(i: Insight, term: string) {
    ContainsIgnoreCase(i.title, term) || ContainsIgnoreCase(i.content, term) || ContainsIgnoreCase(i.fileName, term)
  }

  predicate Selected(i: Insight, q: Query) {
    && MatchesSearch(i, q.search)
    && (q.category == "all" || i.category == q.category)
    && (q.kind == "all" || i.kind == q.kind)
  }

  function SortValue(key: SortKey): Insight -> int {
    match key
    case ByConfidence => (i: Insight) => i.confidence
    case ByDate => (i: Insight) => i.timestampMs
  }

  /** `filteredAndSortedInsights`: exactly the matching insights, sorted
      newest first or most confident first; insights with equal keys keep
      their list order. */
  function Visible(insights: seq<Insight>, q: Query): (r: seq<Insight>)
    ensures multiset(r) == multiset(Seqs.Filter(insights, (i: Insight) => Selected(i, q)))
    ensures Seqs.SortedDesc(r, SortValue(q.sortBy))
    ensures Seqs.SameTies(Seqs.Filter(insights, (i: Insight) => Selected(i, q)), r, SortValue(q.sortBy))
    ensures forall k :: 0 <= k < |r| ==> Selected(r[k], q) && r[k] in insights
  {
    var kept := Seqs.Filter(insights, (i: Insight) => Selected(i, q));
    var r := Seqs.SortDesc(kept, SortValue(q.sortBy));
    assert forall k :: 0 <= k < |r| ==> r[k] in multiset(kept);
    r
  }

  /** With an empty search and no category or type restriction every insight
      is listed, each as often as it occurs. */
  lemma NoRestrictionListsAll(insights: seq<Insight>, sortBy: SortKey)
    ensures multiset(Visible(insights, Query("", "all", "all", sortBy))) == multiset(insights)
  {
    var q := Query("", "all", "all", sortBy);
    forall i | i in insights
      ensures Selected(i, q)
    {
      ContainsEmpty(Lower(i.title));
    }
    Seqs.FilterKeepsAll(insights, (i: Insight) => Selected(i, q));
  }

  // --------------------------------------------------------- filter menus

  function Categories(insights: seq<Insight>): seq<string> {
    seq(|insights|, k requires 0 <= k < |insights| => insights[k].category)
  }

  function Kinds(insights: seq<Insight>): seq<string> {
    seq(|insights|, k requires 0 <= k < |insights| => insights[k].kind)
  }

  /** `Array.from(new Set(insights.map(i => i.category)))`: every category
      that occurs, once, ordered by where it first occurs. */
  function CategoryMenu(insights: seq<Insight>): (r: seq<string>)
    ensures forall k :: 0 <= k < |insights| ==> insights[k].category in r
    ensures forall k :: 0 <= k < |r| ==> exists j :: 0 <= j < |insights| && insights[j].category == r[k]
    ensures forall a, b :: 0 <= a < b < |r| ==> r[a] != r[b]
    ensures forall k :: 0 <= k < |r| ==> r[k] in Categories(insights)
    ensures forall a, b :: 0 <= a < b < |r| ==> Seqs.FirstIndex(Categories(insights), r[a]) < Seqs.FirstIndex(Categories(insights), r[b])
  {
    var cs := Categories(insights);
    Seqs.DistinctHasNoDuplicates(cs);
    var r := Seqs.Distinct(cs);
    assert forall k :: 0 <= k < |insights| ==> cs[k] == insights[k].category;
    r
  }

  /** The same for the insight types. */
  function KindMenu(insights: seq<Insight>): (r: seq<string>)
    ensures forall k :: 0 <= k < |insights| ==> insights[k].kind in r
    ensures forall k :: 0 <= k < |r| ==> exists j :: 0 <= j < |insights| && insights[j].kind == r[k]
    ensures forall a, b :: 0 <= a < b < |r| ==> r[a] != r[b]
    ensures forall k :: 0 <= k < |r| ==> r[k] in Kinds(insights)
    ensures forall a, b :: 0 <= a < b < |r| ==> Seqs.FirstIndex(Kinds(insights), r[a]) < Seqs.FirstIndex(Kinds(insights), r[b])
  {
    var ks := Kinds(insights);
    Seqs.DistinctHasNoDuplicates(ks);
    var r := Seqs.Distinct(ks);
    assert forall k :: 0 <= k < |insights| ==> ks[k] == insights[k].kind;
    r
  }
}

=== FILE: navigation.dfy ===
/** The application frame: the sidebar's role-filtered menu with its active
    entry, and the top bar's notification badge, list and relative times. */
module Navigation {
  import opened Optional
  import opened Text
  import Seqs

  // -------------------------------------------------------------- sidebar

  /** A sidebar entry; the icon is left out. */
  datatype MenuItem = MenuItem(id: string, caption: string, roles: seq<string>)

  const Roles: seq<string> := ["admin", "underwriter", "adjuster", "executive", "auditor"]

  /** The seven entries, in the order the sidebar declares them. */
  const MenuItems: seq<MenuItem> := [
    MenuItem("dashboard", "Dashboard", ["admin", "underwriter", "adjuster", "executive", "auditor"]),
    MenuItem("claims", "Claims", ["admin", "adjuster", "executive"]),
    MenuItem("policies", "Policies", ["admin", "underwriter", "executive"]),
    MenuItem("fraud", "Fraud Detection", ["admin", "adjuster", "auditor"]),
    MenuItem("compliance", "Compliance", ["admin", "auditor", "executive"]),
    MenuItem("analytics", "Analytics", ["admin", "executive", "auditor"]),
    MenuItem("users", "User Management", ["admin"])
  ]

  function HasRole(role: string): MenuItem -> bool {
    (item: MenuItem) => role in item.roles
  }

  /** `filteredMenuItems`: the entries whose role list names the user's role,
      in declared order. */
  function VisibleItems(role: string): (r: seq<MenuItem>)
    ensures Seqs.IsSubseq(r, MenuItems)
    ensures forall k :: 0 <= k < |MenuItems| ==> (MenuItems[k] in r <==> role in MenuItems[k].roles)
    ensures forall k :: 0 <= k < |r| ==> role in r[k].roles
  {
    Seqs.Filter(MenuItems, HasRole(role))
  }

  /** Every role sees the dashboard entry. */
  lemma DashboardForAll(role: string)
    requires role in Roles
    ensures MenuItems[0].id == "dashboard" && MenuItems[0] in VisibleItems(role)
  {
  }

  /** The user-management entry is shown to administrators and nobody else. */
  lemma UsersAdminOnly(role: string)
    ensures (exists k :: 0 <= k < |VisibleItems(role)| && VisibleItems(role)[k].id == "users") <==> role == "admin"
  {
    var r := VisibleItems(role);
    UsersIsLast();
    if role == "admin" {
      assert MenuItems[6] in r;
      var k :| 0 <= k < |r| && r[k] == MenuItems[6];
    } else {
      forall k | 0 <= k < |r|
        ensures r[k].id != "users"
      {
        var j :| 0 <= j < |MenuItems| && MenuItems[j] == r[k];
      }
    }
  }

  /** Only the last entry is the user-management entry, and it is for administrators. */
  lemma UsersIsLast()
    ensures |MenuItems| == 7 && MenuItems[6].id == "users" && MenuItems[6].roles == ["admin"]
    ensures forall j :: 0 <= j < 6 ==> MenuItems[j].id != "users"
  {
  }

  /** Every entry names only known roles, and all of them name the administrator. */
  lemma RolesAreKnown()
    ensures forall j :: 0 <= j < |MenuItems| ==> "admin" in MenuItems[j].roles
    ensures forall j, x :: 0 <= j < |MenuItems| && x in MenuItems[j].roles ==> x in Roles
  {
  }

  /** Administrators see the whole menu. */
  lemma AdminSeesAll()
    ensures VisibleItems("admin") == MenuItems
  {
    RolesAreKnown();
    Seqs.FilterKeepsAll(MenuItems, HasRole("admin"));
  }

  /** A role that is not one of the five sees an empty menu. */
  lemma UnknownRoleSeesNone(role: string)
    requires role !in Roles
    ensures VisibleItems(role) == []
  {
    RolesAreKnown();
  }

  function IsActive(activeModule: string): MenuItem -> bool {
    (item: MenuItem) => item.id == activeModule
  }

  predicate DistinctIds(items: seq<MenuItem>) {
    forall i, j :: 0 <= i < j < |items| ==> items[i].id != items[j].id
  }

  lemma MenuIdsDistinct()
    ensures DistinctIds(MenuItems)
  {
  }

  /** Entries with pairwise different ids have at most one active entry. */
  lemma {:induction false} AtMostOneActive(items: seq<MenuItem>, activeModule: string)
    requires DistinctIds(items)
    ensures |Seqs.Filter(items, IsActive(activeModule))| <= 1
    decreases |items|
  {
    if |items| > 0 {
      AtMostOneActive(items[1..], activeModule);
    }
  }

  function VisibleAndActive(role: string, activeModule: string): MenuItem -> bool {
    (item: MenuItem) => role in item.roles && item.id == activeModule
  }

  /** Whatever the role and the active module, the sidebar highlights at most one entry. */
  lemma SidebarHighlightsAtMostOne(role: string, activeModule: string)
    ensures |Seqs.Filter(VisibleItems(role), IsActive(activeModule))| <= 1
  {
    var both := VisibleAndActive(role, activeModule);
    Seqs.FilterFuse(MenuItems, HasRole(role), IsActive(activeModule), both);
    Seqs.FilterFuse(MenuItems, IsActive(activeModule), HasRole(role), both);
    MenuIdsDistinct();
    AtMostOneActive(MenuItems, activeModule);
  }

  // -------------------------------------------------------------- top bar

  datatype Notification = Notification(
    id: string,
    kind: string,
    title: string,
    message: string,
    timestampMs: int,
    read: bool)

  predicate IsUnread(n: Notification) {
    !n.read
  }

  /** `unreadCount`: the number of notifications not yet read. */
  function UnreadCount(ns: seq<Notification>): (r: nat)
    ensures r <= |ns|
    ensures r == 0 <==> forall k :: 0 <= k < |ns| ==> ns[k].read
    ensures |ns| > 0 ==> r == (if ns[0].read then 0 else 1) + UnreadCount(ns[1..])
    decreases |ns|
  {
    var unread := Seqs.Filter(ns, IsUnread);
    assert |unread| > 0 ==> unread[0] in ns;
    |unread|
  }

  /** The unread count of a concatenation is the sum of the parts' counts. */
  lemma UnreadCountAppend(a: seq<Notification>, b: seq<Notification>)
    ensures UnreadCount(a + b) == UnreadCount(a) + UnreadCount(b)
  {
    Seqs.FilterAppend(a, b, IsUnread);
  }

  /** The bell's badge: absent when nothing is unread, `9+` above nine,
      otherwise the count as a single digit. */
  function Badge(unread: nat): (r: Option<string>)
    ensures r.None? <==> unread == 0
    ensures unread > 9 ==> r == Some("9+")
    ensures 0 < unread <= 9 ==> r.Some? && |r.value| == 1 && DecimalValue(r.value) == unread
  {
    if unread == 0 then None
    else if unread > 9 then Some("9+")
    else
      DecimalRoundTrip(unread);
      Some(Decimal(unread))
  }

  /** The dropdown lists the first five notifications in order. */
  function Listed(ns: seq<Notification>): (r: seq<Notification>)
    ensures |r| <= 5 && |r| <= |ns|
    ensures r == ns[..|r|]
    ensures |ns| <= 5 ==> r == ns
  {
    Seqs.Take(ns, 5)
  }

  /** The "View all" button appears iff some notification is not listed. */
  predicate ShowsViewAll(ns: seq<Notification>) {
    |ns| > 5
  }

  lemma ViewAllIffTruncated(ns: seq<Notification>)
    ensures ShowsViewAll(ns) <==> |Listed(ns)| < |ns|
  {
  }

  /** The relative time shown under a notification. */
  datatype TimeAgo = JustNow | MinutesAgo(minutes: nat) | HoursAgo(hours: nat) | DaysAgo(days: nat)

  const MinuteMs: int := 60000
  const HourMs: int := 60 * MinuteMs
  const DayMs: int := 24 * HourMs

  /** `formatTimeAgo`: whole minutes (rounded down) below one are "Just now",
      including timestamps in the future; then whole minutes below sixty,
      whole hours below twenty-four, and whole days. Each bucket brackets
      the elapsed time between the shown count and the next one. */
  function FormatTimeAgo(nowMs: int, timestampMs: int): (r: TimeAgo)
    ensures r == JustNow <==> nowMs - timestampMs < MinuteMs
    ensures r.MinutesAgo? <==> MinuteMs <= nowMs - timestampMs < HourMs
    ensures r.HoursAgo? <==> HourMs <= nowMs - timestampMs < DayMs
    ensures r.DaysAgo? <==> DayMs <= nowMs - timestampMs
    ensures r.MinutesAgo? ==> r.minutes * MinuteMs <= nowMs - timestampMs < (r.minutes + 1) * MinuteMs
    ensures r.HoursAgo? ==> r.hours * HourMs <= nowMs - timestampMs < (r.hours + 1) * HourMs
    ensures r.DaysAgo? ==> r.days * DayMs <= nowMs - timestampMs < (r.days + 1) * DayMs
  {
    var diff := nowMs - timestampMs;
    var minutes := diff / 60000;
    if minutes < 1 then JustNow
    else if minutes < 60 then MinutesAgo(minutes)
    else
      var hours := minutes / 60;
      if hours < 24 then HoursAgo(hours)
      else DaysAgo(hours / 24)
  }

  function AgoText(t: TimeAgo): string {
    match t
    case JustNow => "Just now"
    case MinutesAgo(m) => Decimal(m) + "m ago"
    case HoursAgo(h) => Decimal(h) + "h ago"
    case DaysAgo(d) => Decimal(d) + "d ago"
  }

  /** An older notification never shows a shorter relative time. */
  lemma TimeAgoMonotone(nowMs: int, older: int, newer: int)
    requires older <= newer
    ensures Elapsed(FormatTimeAgo(nowMs, newer)) <= Elapsed(FormatTimeAgo(nowMs, older))
  {
  }

  /** A lower bound, in milliseconds, on the time a shown label stands for. */
  function Elapsed(t: TimeAgo): int {
    match t
    case JustNow => 0
    case MinutesAgo(m) => m * MinuteMs
    case HoursAgo(h) => h * HourMs
    case DaysAgo(d) => d * DayMs
  }
}

=== FILE: option.dfy ===
/** Optional values: `null` / `undefined` fields and lookups that can miss. */
module Optional {

  datatype Option<+T> = None | Some(value: T) {

    /** The value, or `default` when absent (`x ?? default`). */
    function GetOr(default: T): T {
      match this
      case Some(v) => v
      case None => default
    }
  }
}

=== FILE: policies_route.dfy ===
/** The policies API route: the `GET` filter chain over the policy list with
    its pagination fields, and the defaults `POST` fills into a new policy. */
module PoliciesRoute {
  import opened Optional
  import opened Text
  import Seqs
  import ClaimsRoute

  datatype Customer = Customer(
    firstName: Option<string>,
    lastName: Option<string>,
    businessName: Option<string>,
    email: string)

  /** A number as `parseFloat` leaves it: an amount in cents, or NaN. */
  datatype Amount = Cents(value: int) | NaN

  /** One coverage line of a policy. */
  datatype Coverage = Coverage(code: string, name: string, limit: Amount, deductible: Amount, premium: Amount)

  /** The `_count` object: how many claims and documents refer to the policy. */
  datatype RecordCounts = RecordCounts(claims: nat, documents: nat)

  datatype Policy = Policy(
    id: string,
    policyNumber: string,
    customerId: string,
    policyType: string,
    status: string,
    effectiveDate: string,
    expirationDate: string,
    premium: Amount,
    deductible: Amount,
    riskScore: int,
    customer: Customer,
    coverages: seq<Coverage>,
    counts: RecordCounts)

  /** A number as `parseInt` leaves it: an integer, or NaN when the text does
      not start with one. A missing page or limit is read as "1" or "10". */
  datatype ParsedInt = Whole(n: int) | NotANumber

  /** The query string: each filter parameter may be missing
      (`searchParams.get` returns null). */
  datatype Query = Query(page: ParsedInt, limit: ParsedInt, status: Option<string>, policyType: Option<string>, search: Option<string>)

  datatype Listing = Listing(policies: seq<Policy>, page: ParsedInt, limit: ParsedInt, total: nat, pages: ClaimsRoute.PageCount)

  /** `Math.ceil(total / limit)`; dividing by NaN gives NaN. */
  function Pages(total: nat, limit: ParsedInt): (r: ClaimsRoute.PageCount)
    ensures limit.NotANumber? ==> r == ClaimsRoute.NaN
    ensures limit.Whole? ==> r == ClaimsRoute.PageTotal(total, limit.n)
  {
    match limit
    case Whole(l) => ClaimsRoute.PageTotal(total, l)
    case NotANumber => ClaimsRoute.NaN
  }

  /** A filter parameter restricts the list only when it is present, non-empty
      (truthy) and not 'all'. */
  predicate Restricts(param: Option<string>) {
    param.Some? && param.value != "" && param.value != "all"
  }

  /** A nullable name matches when it is present and non-empty and contains the term. */
  predicate NameMatches(name: Option<string>, term: string) {
    name.Some? && name.value != "" && ContainsIgnoreCase(name.value, term)
  }

  /** The search predicate: policy number, e-mail, or any non-null name. */
  predicate SearchMatches(p: Policy, term: string) {
    || ContainsIgnoreCase(p.policyNumber, term)
    || ContainsIgnoreCase(p.customer.email, term)
    || NameMatches(p.customer.firstName, term)
    || NameMatches(p.customer.lastName, term)
    || NameMatches(p.customer.businessName, term)
  }

  /** Everything the three filters ask of one policy. */
  predicate Selected(p: Policy, q: Query) {
    && (Restricts(q.status) ==> p.status == q.status.value)
    && (Restricts(q.policyType) ==> p.policyType == q.policyType.value)
    && (q.search.Some? && q.search.value != "" ==> SearchMatches(p, q.search.value))
  }

  function ByStatus(ps: seq<Policy>, q: Query): seq<Policy> {
    if Restricts(q.status) then Seqs.Filter(ps, (p: Policy) => p.status == q.status.value) else ps
  }

  function ByType(ps: seq<Policy>, q: Query): seq<Policy> {
    if Restricts(q.policyType) then Seqs.Filter(ps, (p: Policy) => p.policyType == q.policyType.value) else ps
  }

  function BySearch(ps: seq<Policy>, q: Query): seq<Policy> {
    if q.search.Some? && q.search.value != "" then Seqs.Filter(ps, (p: Policy) => SearchMatches(p, q.search.value)) else ps
  }

  /** `GET /api/policies`: status, then type, then search filter; `skip` is
      computed but never applied, so every page returns the whole filtered list. */
  function ListPolicies(all: seq<Policy>, q: Query): (r: Listing)
    ensures r.policies == Seqs.Filter(all, (p: Policy) => Selected(p, q))
    ensures r.total == |r.policies|
    ensures q.limit.Whole? ==> r.pages == ClaimsRoute.PageTotal(r.total, q.limit.n)
    ensures q.limit.NotANumber? ==> r.pages == ClaimsRoute.NaN
    ensures r.page == q.page && r.limit == q.limit
  {
    var filtered := BySearch(ByType(ByStatus(all, q), q), q);
    FilterChain(all, q);
    Listing(filtered, q.page, q.limit, |filtered|, Pages(|filtered|, q.limit))
  }

  predicate StatusOk(p: Policy, q: Query) { Restricts(q.status) ==> p.status == q.status.value }
  predicate TypeOk(p: Policy, q: Query) { Restricts(q.policyType) ==> p.policyType == q.policyType.value }
  predicate SearchOk(p: Policy, q: Query) { q.search.Some? && q.search.value != "" ==> SearchMatches(p, q.search.value) }

  lemma ByStatusIsFilter(ps: seq<Policy>, q: Query)
    ensures ByStatus(ps, q) == Seqs.Filter(ps, (p: Policy) => StatusOk(p, q))
  {
    if Restricts(q.status) {
      Seqs.FilterExt(ps, (p: Policy) => p.status == q.status.value, (p: Policy) => StatusOk(p, q));
    } else {
      Seqs.FilterKeepsAll(ps, (p: Policy) => StatusOk(p, q));
    }
  }

  lemma ByTypeIsFilter(ps: seq<Policy>, q: Query)
    ensures ByType(ps, q) == Seqs.Filter(ps, (p: Policy) => TypeOk(p, q))
  {
    if Restricts(q.policyType) {
      Seqs.FilterExt(ps, (p: Policy) => p.policyType == q.policyType.value, (p: Policy) => TypeOk(p, q));
    } else {
      Seqs.FilterKeepsAll(ps, (p: Policy) => TypeOk(p, q));
    }
  }

  lemma BySearchIsFilter(ps: seq<Policy>, q: Query)
    ensures BySearch(ps, q) == Seqs.Filter(ps, (p: Policy) => SearchOk(p, q))
  {
    if q.search.Some? && q.search.value != "" {
      Seqs.FilterExt(ps, (p: Policy) => SearchMatches(p, q.search.value), (p: Policy) => SearchOk(p, q));
    } else {
      Seqs.FilterKeepsAll(ps, (p: Policy) => SearchOk(p, q));
    }
  }

  /** The three sequential filters are one filter by `Selected`. */
  lemma FilterChain(all: seq<Policy>, q: Query)
    ensures BySearch(ByType(ByStatus(all, q), q), q) == Seqs.Filter(all, (p: Policy) => Selected(p, q))
  {
    var st := (p: Policy) => StatusOk(p, q);
    var ty := (p: Policy) => TypeOk(p, q);
    var se := (p: Policy) => SearchOk(p, q);
    var stTy := (p: Policy) => StatusOk(p, q) && TypeOk(p, q);
    ByStatusIsFilter(all, q);
    ByTypeIsFilter(Seqs.Filter(all, st), q);
    Seqs.FilterFuse(all, st, ty, stTy);
    BySearchIsFilter(Seqs.Filter(all, stTy), q);
    Seqs.FilterFuse(all, stTy, se, (p: Policy) => Selected(p, q));
  }

  /** The listing only removes policies and keeps their order; a policy is
      listed exactly when it passes every filter. */
  lemma ListingIsOrderedSubset(all: seq<Policy>, q: Query)
    ensures Seqs.IsSubseq(ListPolicies(all, q).policies, all)
    ensures forall i :: 0 <= i < |all| ==> (all[i] in ListPolicies(all, q).policies <==> Selected(all[i], q))
  {
  }

  /** Without status, type or search restriction every policy is listed. */
  lemma NoRestrictionListsAll(all: seq<Policy>, q: Query)
    requires !Restricts(q.status) && !Restricts(q.policyType)
    requires q.search == None || q.search == Some("")
    ensures ListPolicies(all, q).policies == all
  {
    Seqs.FilterKeepsAll(all, (p: Policy) => Selected(p, q));
  }

  /** The page number, even a NaN one, does not change what is returned. */
  lemma PageIsIgnored(all: seq<Policy>, q: Query, otherPage: ParsedInt)
    ensures ListPolicies(all, q).policies == ListPolicies(all, q.(page := otherPage)).policies
    ensures ListPolicies(all, q).pages == ListPolicies(all, q.(page := otherPage)).pages
  {
  }

  /** A numeric field of the request body as `parseFloat` sees it: missing
      (`undefined`), present without a numeric prefix, or a number, in cents. */
  datatype RawAmount = Missing | NotNumeric | Given(cents: int)

  /** `parseFloat`: NaN unless the field holds a number. */
  function ParseFloat(raw: RawAmount): (r: Amount)
    ensures r.NaN? <==> !raw.Given?
    ensures raw.Given? ==> r.value == raw.cents
  {
    match raw
    case Given(c) => Cents(c)
    case _ => NaN
  }

  /** The JSON body of `POST /api/policies`. */
  datatype PolicyRequest = PolicyRequest(
    customerId: string,
    policyType: string,
    effectiveDate: string,
    expirationDate: string,
    premiumAmount: RawAmount,
    deductible: RawAmount,
    riskScore: Option<int>)

  /** `POL-` followed by the last 8 digits of `Date.now()`. */
  function PolicyNumber(nowMs: nat): (r: string)
    ensures StartsWith(r, "POL-")
    ensures EndsWith(Decimal(nowMs), r[4..])
    ensures |r| == 4 + (if |Decimal(nowMs)| < 8 then |Decimal(nowMs)| else 8)
  {
    "POL-" + LastN(Decimal(nowMs), 8)
  }

  /** The policy `POST` answers with: always PENDING, the risk score 50 when
      the submitted one is missing or 0 (falsy), placeholder customer fields,
      no coverages yet and no claims or documents counted against it.
      The number and the id come from two readings of the clock, `numberMs`
      first and `idMs` second. */
  function CreatePolicy(req: PolicyRequest, numberMs: nat, idMs: nat): (p: Policy)
    ensures p.status == "PENDING"
    ensures p.riskScore == (if req.riskScore.Some? && req.riskScore.value != 0 then req.riskScore.value else 50)
    ensures p.policyNumber == PolicyNumber(numberMs) && p.id == Decimal(idMs)
    ensures p.customerId == req.customerId && p.policyType == req.policyType
    ensures p.effectiveDate == req.effectiveDate && p.expirationDate == req.expirationDate
    ensures p.premium.NaN? <==> !req.premiumAmount.Given?
    ensures p.deductible.NaN? <==> !req.deductible.Given?
    ensures req.premiumAmount.Given? ==> p.premium == Cents(req.premiumAmount.cents)
    ensures req.deductible.Given? ==> p.deductible == Cents(req.deductible.cents)
    ensures p.customer == Customer(Some("New"), Some("Customer"), None, "customer@email.com")
    ensures p.coverages == [] && p.counts.claims == 0 && p.counts.documents == 0
  {
    Policy(
      id := Decimal(idMs),
      policyNumber := PolicyNumber(numberMs),
      customerId := req.customerId,
      policyType := req.policyType,
      status := "PENDING",
      effectiveDate := req.effectiveDate,
      expirationDate := req.expirationDate,
      premium := ParseFloat(req.premiumAmount),
      deductible := ParseFloat(req.deductible),
      riskScore := match req.riskScore case Some(v) => (if v != 0 then v else 50) case None => 50,
      customer := Customer(Some("New"), Some("Customer"), None, "customer@email.com"),
      coverages := [],
      counts := RecordCounts(0, 0))
  }

  /** An HTTP answer of the route: its status and the JSON object it carries. */
  datatype Response = Response(status: int, body: Policy)

  /** `POST` answers 201 with the new policy itself as the body. */
  function Post(req: PolicyRequest, numberMs: nat, idMs: nat): (r: Response)
    ensures r.status == 201
    ensures r.body == CreatePolicy(req, numberMs, idMs)
    ensures r.body.policyNumber == PolicyNumber(numberMs) && r.body.status == "PENDING"
  {
    Response(201, CreatePolicy(req, numberMs, idMs))
  }
}

=== FILE: policy_form.dfy ===
/** What the two policy-application forms share: the form record, the
    coverage entries and their index-wise edits, the insured-item records,
    the review-step premium total and the clamped 1..5 step counter. */
module PolicyForm {
  import opened Optional
  import Seqs

  const FirstStep: int := 1
  const LastStep: int := 5

  /** A date input: empty, text that does not parse as a date, or a parsed
      day number. Comparisons with an unparsable date are false, as with
      JavaScript's `NaN`. */
  datatype DateInput = Empty | Unparsable | Day(n: int)

  /** One entry of a coverage template list. */
  datatype Template = Template(
    code: string,
    name: string,
    kind: string,
    required: bool,
    limits: seq<string>,
    deductibles: seq<string>)

  /** A premium field as the review step reads it with
      `parseFloat(premium || '0')`: blank, an amount in cents, or text that
      does not parse (`NaN`). */
  datatype PremiumInput = Blank | Amount(cents: int) | NotANumber

  /** A selected coverage: the template's fields plus the three inputs. */
  datatype Coverage = Coverage(template: Template, limit: string, deductible: string, premium: PremiumInput)

  /** The field edits the coverage cards make through `updateCoverage`. */
  datatype CoverageEdit = SetLimit(limit: string) | SetDeductible(deductible: string) | SetPremium(premium: PremiumInput)

  /** A field value of an insured item: plain text or the nested address record. */
  datatype ItemValue = Str(text: string) | Address(street: string, city: string, state: string, zipCode: string)

  /** An insured item (vehicle or building) as a record of named fields. */
  type Item = map<string, ItemValue>

  datatype FormData = FormData(
    customerId: string,
    productType: string,
    effectiveDate: DateInput,
    expirationDate: DateInput,
    paymentPlan: string,
    coverages: seq<Coverage>,
    insuredItems: seq<Item>,
    drivers: seq<Item>,
    locations: seq<Item>)

  /** The fields that can carry a validation message. */
  datatype Field = CustomerId | ProductType | EffectiveDate | ExpirationDate | Coverages | InsuredItems

  type Errors = map<Field, string>

  /** The state both forms start in. */
  const InitialForm: FormData :=
    FormData("", "", Empty, Empty, "ANNUAL", [], [], [], [])

  // ---------------------------------------------------------------- steps

  predicate InRange(step: int) {
    FirstStep <= step <= LastStep
  }

  /** `nextStep`: one step forward when the current step validated, never past the last. */
  function NextStep(step: int, valid: bool): (r: int)
    requires InRange(step)
    ensures InRange(r)
    ensures r == step + 1 <==> valid && step < LastStep
    ensures r != step + 1 ==> r == step
  {
    if valid then (if step + 1 < LastStep then step + 1 else LastStep) else step
  }

  /** `prevStep`: one step back, never before the first. */
  function PrevStep(step: int): (r: int)
    requires InRange(step)
    ensures InRange(r)
    ensures r == step - 1 <==> step > FirstStep
    ensures r != step - 1 ==> r == step
  {
    if step - 1 > FirstStep then step - 1 else FirstStep
  }

  /** Going back undoes a successful step forward, and the other way round. */
  lemma StepsAreInverse(step: int)
    requires InRange(step)
    ensures step < LastStep ==> PrevStep(NextStep(step, true)) == step
    ensures step > FirstStep ==> NextStep(PrevStep(step), true) == step
  {
  }

  /** `k` validated forward moves from `step` reach `min(step + k, 5)`. */
  function Forward(step: int, k: nat): int
    requires InRange(step)
    decreases k
  {
    if k == 0 then step else Forward(NextStep(step, true), k - 1)
  }

  lemma {:induction false} ForwardClamps(step: int, k: nat)
    requires InRange(step)
    ensures Forward(step, k) == if step + k < LastStep then step + k else LastStep
    decreases k
  {
    if k > 0 {
      ForwardClamps(NextStep(step, true), k - 1);
    }
  }

  // ------------------------------------------------------------ coverages

  /** `coverages.map(c => c.code)` */
  function Codes(cs: seq<Coverage>): (r: seq<string>)
    ensures |r| == |cs|
    ensures forall i :: 0 <= i < |cs| ==> r[i] == cs[i].template.code
  {
    seq(|cs|, i requires 0 <= i < |cs| => cs[i].template.code)
  }

  /** No code is selected twice. */
  predicate UniqueCodes(cs: seq<Coverage>) {
    forall i, j :: 0 <= i < j < |cs| ==> cs[i].template.code != cs[j].template.code
  }

  /** The templates still offered: those whose code is not selected yet, in template order. */
  function Offered(options: seq<Template>, cs: seq<Coverage>): (r: seq<Template>)
    ensures Seqs.IsSubseq(r, options)
    ensures forall i :: 0 <= i < |r| ==> r[i].code !in Codes(cs)
    ensures forall i :: 0 <= i < |options| ==> (options[i] in r <==> options[i].code !in Codes(cs))
  {
    Seqs.Filter(options, (t: Template) => t.code !in Codes(cs))
  }

  /** `addCoverage`: one new entry at the end with blank limit, deductible and premium. */
  function AddCoverage(cs: seq<Coverage>, t: Template): (r: seq<Coverage>)
    ensures |r| == |cs| + 1 && r[..|cs|] == cs
    ensures r[|cs|].template == t
    ensures r[|cs|].limit == "" && r[|cs|].deductible == "" && r[|cs|].premium == Blank
  {
    cs + [Coverage(t, "", "", Blank)]
  }

  /** `removeCoverage`: drops entry `i`, keeps the rest in order. */
  function RemoveCoverage(cs: seq<Coverage>, i: int): (r: seq<Coverage>)
    ensures 0 <= i < |cs| ==> |r| == |cs| - 1
    ensures 0 <= i < |cs| ==> forall j :: 0 <= j < |r| ==> r[j] == cs[if j < i then j else j + 1]
    ensures !(0 <= i < |cs|) ==> r == cs
  {
    Seqs.RemoveAt(cs, i)
  }

  /** One field of one coverage set to a new value. */
  function ApplyEdit(c: Coverage, e: CoverageEdit): Coverage {
    match e
    case SetLimit(l) => c.(limit := l)
    case SetDeductible(d) => c.(deductible := d)
    case SetPremium(p) => c.(premium := p)
  }

  /** `updateCoverage`: only the named field of entry `i` changes. */
  function UpdateCoverage(cs: seq<Coverage>, i: int, e: CoverageEdit): (r: seq<Coverage>)
    ensures |r| == |cs|
    ensures forall j :: 0 <= j < |cs| && j != i ==> r[j] == cs[j]
    ensures 0 <= i < |cs| ==> r[i].template == cs[i].template
    ensures 0 <= i < |cs| ==> (if e.SetLimit? then r[i].limit == e.limit else r[i].limit == cs[i].limit)
    ensures 0 <= i < |cs| ==> (if e.SetDeductible? then r[i].deductible == e.deductible else r[i].deductible == cs[i].deductible)
    ensures 0 <= i < |cs| ==> (if e.SetPremium? then r[i].premium == e.premium else r[i].premium == cs[i].premium)
  {
    Seqs.UpdateAt(cs, i, (c: Coverage) => ApplyEdit(c, e))
  }

  /** Adding an offered template keeps the selected codes unique. */
  lemma AddOfferedKeepsUnique(cs: seq<Coverage>, options: seq<Template>, k: int)
    requires UniqueCodes(cs)
    requires 0 <= k < |Offered(options, cs)|
    ensures UniqueCodes(AddCoverage(cs, Offered(options, cs)[k]))
  {
    var t := Offered(options, cs)[k];
    var r := AddCoverage(cs, t);
    forall i, j | 0 <= i < j < |r|
      ensures r[i].template.code != r[j].template.code
    {
      if j == |cs| {
        assert Codes(cs)[i] == cs[i].template.code;
      } else {
        assert r[i] == cs[i] && r[j] == cs[j];
      }
    }
  }

  /** Removing and editing keep the selected codes unique. */
  lemma RemoveAndUpdateKeepUnique(cs: seq<Coverage>, i: int, e: CoverageEdit)
    requires UniqueCodes(cs)
    ensures UniqueCodes(RemoveCoverage(cs, i))
    ensures UniqueCodes(UpdateCoverage(cs, i, e))
  {
    var r := RemoveCoverage(cs, i);
    if 0 <= i < |cs| {
      forall a, b | 0 <= a < b < |r|
        ensures r[a].template.code != r[b].template.code
      {
        var a' := if a < i then a else a + 1;
        var b' := if b < i then b else b + 1;
        assert r[a] == cs[a'] && r[b] == cs[b'];
      }
    }
  }

  // ------------------------------------------------------- premium total

  /** The value one premium adds to the total; `NaN` is handled by the fold. */
  function PremiumCents(p: PremiumInput): int {
    match p
    case Amount(c) => c
    case _ => 0
  }

  /** Every premium of the list, in order. */
  function Premiums(cs: seq<Coverage>): (r: seq<int>)
    ensures |r| == |cs|
    ensures forall i :: 0 <= i < |cs| ==> r[i] == PremiumCents(cs[i].premium)
  {
    seq(|cs|, i requires 0 <= i < |cs| => PremiumCents(cs[i].premium))
  }

  predicate HasNaN(cs: seq<Coverage>) {
    exists i :: 0 <= i < |cs| && cs[i].premium == NotANumber
  }

  /** One step of `reduce((sum, c) => sum + parseFloat(c.premium || '0'), 0)`;
      `None` is `NaN`, which absorbs every later addition. */
  function AddPremium(acc: Option<int>, c: Coverage): Option<int> {
    match acc
    case None => None
    case Some(sum) => if c.premium == NotANumber then None else Some(sum + PremiumCents(c.premium))
  }

  /** The left fold behind the review step's total. */
  function Fold(acc: Option<int>, cs: seq<Coverage>): Option<int>
    decreases |cs|
  {
    if |cs| == 0 then acc else Fold(AddPremium(acc, cs[0]), cs[1..])
  }

  /** The total premium shown on the review step: the sum of the premiums,
      blank ones counting 0, or `NaN` as soon as one does not parse. */
  function ReviewTotal(cs: seq<Coverage>): (r: Option<int>)
    ensures r.None? <==> HasNaN(cs)
    ensures r.Some? ==> r.value == Seqs.Sum(Premiums(cs))
  {
    FoldIsSum(0, cs);
    Fold(Some(0), cs)
  }

  lemma {:induction false} FoldOfNaN(cs: seq<Coverage>)
    ensures Fold(None, cs) == None
    decreases |cs|
  {
    if |cs| > 0 {
      FoldOfNaN(cs[1..]);
    }
  }

  /** The fold from `start` adds the sum of the premiums to `start` unless some premium is `NaN`. */
  lemma {:induction false} FoldIsSum(start: int, cs: seq<Coverage>)
    ensures Fold(Some(start), cs) == if HasNaN(cs) then None else Some(start + Seqs.Sum(Premiums(cs)))
    decreases |cs|
  {
    if |cs| > 0 {
      var tail := cs[1..];
      assert Premiums(cs) == [PremiumCents(cs[0].premium)] + Premiums(tail);
      assert HasNaN(cs) <==> cs[0].premium == NotANumber || HasNaN(tail) by {
        if HasNaN(tail) {
          var i :| 0 <= i < |tail| && tail[i].premium == NotANumber;
          assert cs[i + 1] == tail[i];
        }
        if HasNaN(cs) {
          var i :| 0 <= i < |cs| && cs[i].premium == NotANumber;
          if i > 0 {
            assert tail[i - 1] == cs[i];
          }
        }
      }
      if cs[0].premium == NotANumber {
        FoldOfNaN(tail);
      } else {
        FoldIsSum(start + PremiumCents(cs[0].premium), tail);
      }
    }
  }

  /** A new coverage has a blank premium, so adding one leaves the total as it was. */
  lemma AddCoverageKeepsTotal(cs: seq<Coverage>, t: Template)
    ensures ReviewTotal(AddCoverage(cs, t)) == ReviewTotal(cs)
  {
    var r := AddCoverage(cs, t);
    assert Premiums(r) == Premiums(cs) + [0];
    Seqs.SumAppend(Premiums(cs), [0]);
    assert HasNaN(r) ==> HasNaN(cs) by {
      if HasNaN(r) {
        var i :| 0 <= i < |r| && r[i].premium == NotANumber;
        assert i < |cs| && cs[i] == r[i];
      }
    }
    assert HasNaN(cs) ==> HasNaN(r) by {
      if HasNaN(cs) {
        var i :| 0 <= i < |cs| && cs[i].premium == NotANumber;
        assert r[i] == cs[i];
      }
    }
  }

  /** Removing a coverage takes its premium out of the total. */
  lemma RemoveCoverageTotal(cs: seq<Coverage>, i: int)
    requires 0 <= i < |cs| && !HasNaN(cs)
    ensures ReviewTotal(RemoveCoverage(cs, i)) == Some(ReviewTotal(cs).value - PremiumCents(cs[i].premium))
  {
    var r := RemoveCoverage(cs, i);
    assert Premiums(r) == Seqs.RemoveAt(Premiums(cs), i);
    Seqs.SumRemoveAt(Premiums(cs), i);
  }

  /** Changing one premium to a number changes the total by the difference. */
  lemma SetPremiumTotal(cs: seq<Coverage>, i: int, cents: int)
    requires 0 <= i < |cs| && !HasNaN(cs)
    ensures ReviewTotal(UpdateCoverage(cs, i, SetPremium(Amount(cents))))
         == Some(ReviewTotal(cs).value - PremiumCents(cs[i].premium) + cents)
  {
    var r := UpdateCoverage(cs, i, SetPremium(Amount(cents)));
    assert Premiums(r) == Premiums(cs)[i := cents];
    Seqs.SumReplace(Premiums(cs), i, cents);
  }

  // -------------------------------------------------------- insured items

  /** `updateInsuredItem` (and the driver edits): only field `field` of item `i` changes. */
  function UpdateItem(items: seq<Item>, i: int, field: string, value: ItemValue): (r: seq<Item>)
    ensures |r| == |items|
    ensures forall j :: 0 <= j < |items| && j != i ==> r[j] == items[j]
    ensures 0 <= i < |items| ==> r[i].Keys == items[i].Keys + {field} && r[i][field] == value
    ensures 0 <= i < |items| ==> forall k :: k in items[i] && k != field ==> r[i][k] == items[i][k]
  {
    Seqs.UpdateAt(items, i, (it: Item) => it[field := value])
  }

  /** `removeInsuredItem`: drops item `i`, keeps the rest in order. */
  function RemoveItem(items: seq<Item>, i: int): (r: seq<Item>)
    ensures 0 <= i < |items| ==> |r| == |items| - 1
    ensures 0 <= i < |items| ==> forall j :: 0 <= j < |r| ==> r[j] == items[if j < i then j else j + 1]
    ensures !(0 <= i < |items|) ==> r == items
  {
    Seqs.RemoveAt(items, i)
  }
}

=== FILE: policy_overview.dfy ===
/** The policy overview page: the customer's display name, the search /
    status / type filter, and the status and claim tiles. */
module PolicyOverview {
  import opened Optional
  import opened Text
  import Seqs

  /** A policy's customer; the name parts may be absent. */
  datatype Customer = Customer(
    firstName: Option<string>,
    lastName: Option<string>,
    businessName: Option<string>,
    email: string)

  /** A listed policy; `premiumCents` is the premium in cents and the two
      counts are the related claims and documents. */
  datatype Policy = Policy(
    id: string,
    policyNumber: string,
    policyType: string,
    status: string,
    premiumCents: nat,
    riskScore: Option<int>,
    customer: Customer,
    claimCount: nat,
    documentCount: nat)

  /** A present, non-empty string (JavaScript truthiness). */
  predicate Truthy(s: Option<string>) {
    s.Some? && s.value != ""
  }

  /** `getCustomerName`: a business name wins; otherwise the first and last
      names joined by a space, missing parts empty, with the surrounding
      white space trimmed. */
  function CustomerName(c: Customer): (r: string)
    ensures Truthy(c.businessName) ==> r == c.businessName.value
    ensures !Truthy(c.businessName) ==>
              (r == [] || (!IsSpace(r[0]) && !IsSpace(r[|r| - 1])))
              && exists a :: PaddedAt(c.firstName.GetOr("") + " " + c.lastName.GetOr(""), r, a)
  {
    if Truthy(c.businessName) then c.businessName.value
    else Trim(c.firstName.GetOr("") + " " + c.lastName.GetOr(""))
  }

  /** A person with both names, neither padded with white space, is shown as
      "first last". */
  lemma PersonName(c: Customer, first: string, last: string)
    requires !Truthy(c.businessName) && c.firstName == Some(first) && c.lastName == Some(last)
    requires first != [] && !IsSpace(first[0])
    requires last != [] && !IsSpace(last[|last| - 1])
    ensures CustomerName(c) == first + " " + last
  {
    var s := first + " " + last;
    assert s[0] == first[0] && s[|s| - 1] == last[|last| - 1];
    TrimUnpadded(s);
  }

  // ----------------------------------------------------------- the filter

  /** The page's controls; `"all"` imposes no restriction. */
  datatype Query = Query(search: string, status: string, policyType: string)

  predicate MatchesSearch(p: Policy, term: string) {
    ContainsIgnoreCase(p.policyNumber, term) || ContainsIgnoreCase(CustomerName(p.customer), term)
  }

  predicate Selected(p: Policy, q: Query) {
    MatchesSearch(p, q.search) && AllOr(q.status, p.status) && AllOr(q.policyType, p.policyType)
  }

  function Selects(q: Query): Policy -> bool {
    (p: Policy) => Selected(p, q)
  }

  /** `filteredPolicies`: the matching policies, in their original order. */
  function Filtered(ps: seq<Policy>, q: Query): (r: seq<Policy>)
    ensures Seqs.IsSubseq(r, ps)
    ensures forall k :: 0 <= k < |ps| ==> (ps[k] in r <==> Selected(ps[k], q))
    ensures forall k :: 0 <= k < |r| ==> Selected(r[k], q)
  {
    Seqs.Filter(ps, Selects(q))
  }

  /** An empty search with both filters on `"all"` lists every policy. */
  lemma NoRestrictionListsAll(ps: seq<Policy>)
    ensures Filtered(ps, Query("", "all", "all")) == ps
  {
    forall p | p in ps
      ensures Selected(p, Query("", "all", "all"))
    {
      ContainsEmpty(Lower(p.policyNumber));
    }
    Seqs.FilterKeepsAll(ps, Selects(Query("", "all", "all")));
  }

  /** The case of the search term does not matter. */
  lemma SearchIgnoresTermCase(ps: seq<Policy>, q: Query)
    ensures Filtered(ps, q.(search := Lower(q.search))) == Filtered(ps, q)
  {
    forall p: Policy
      ensures Selects(q.(search := Lower(q.search)))(p) == Selects(q)(p)
    {
      IgnoreCaseOfLowered(p.policyNumber, q.search);
      IgnoreCaseOfLowered(CustomerName(p.customer), q.search);
    }
    Seqs.FilterExt(ps, Selects(q.(search := Lower(q.search))), Selects(q));
  }

  // ------------------------------------------------------------ the tiles

  function HasStatus(status: string): Policy -> bool {
    (p: Policy) => p.status == status
  }

  /** A status tile: how many policies have the status. */
  function StatusCount(ps: seq<Policy>, status: string): (r: nat)
    ensures r <= |ps|
    ensures r == 0 <==> forall k :: 0 <= k < |ps| ==> ps[k].status != status
    ensures |ps| > 0 ==>
              r == (if ps[0].status == status then 1 else 0) + StatusCount(ps[1..], status)
    decreases |ps|
  {
    var hits := Seqs.Filter(ps, HasStatus(status));
    assert |hits| > 0 ==> hits[0] in ps;
    |hits|
  }

  /** The Active and Pending tiles never count more policies than there are. */
  lemma ActiveAndPendingAtMostAll(ps: seq<Policy>)
    ensures StatusCount(ps, "ACTIVE") + StatusCount(ps, "PENDING") <= |ps|
  {
    Seqs.DisjointCounts(ps, HasStatus("ACTIVE"), HasStatus("PENDING"));
  }

  function ClaimCounts(ps: seq<Policy>): seq<int> {
    seq(|ps|, k requires 0 <= k < |ps| => ps[k].claimCount)
  }

  /** "Claims Filed": the claim counts of all policies added up. */
  function ClaimsFiled(ps: seq<Policy>): (r: nat)
    ensures r == Seqs.Sum(ClaimCounts(ps))
    ensures forall k :: 0 <= k < |ps| ==> ps[k].claimCount <= r
    ensures r == 0 <==> forall k :: 0 <= k < |ps| ==> ps[k].claimCount == 0
    decreases |ps|
  {
    if |ps| == 0 then 0
    else
      var rest := ClaimsFiled(ps[1..]);
      assert forall k :: 1 <= k < |ps| ==> ps[k] == ps[1..][k - 1];
      assert ClaimCounts(ps)[1..] == ClaimCounts(ps[1..]);
      ps[0].claimCount + rest
  }

  /** The tile over two lists together is the sum of their tiles. */
  lemma {:induction false} ClaimsFiledAppend(a: seq<Policy>, b: seq<Policy>)
    ensures ClaimsFiled(a + b) == ClaimsFiled(a) + ClaimsFiled(b)
    decreases |a|
  {
    if |a| > 0 {
      ClaimsFiledAppend(a[1..], b);
      assert (a + b)[1..] == a[1..] + b;
    } else {
      assert a + b == b;
    }
  }

  function Premiums(ps: seq<Policy>): seq<int> {
    seq(|ps|, k requires 0 <= k < |ps| => ps[k].premiumCents)
  }

  /** "Premium Volume", in cents: the premiums of all policies added up. */
  function PremiumVolume(ps: seq<Policy>): (r: int)
    ensures r >= 0
    ensures forall k :: 0 <= k < |ps| ==> ps[k].premiumCents <= r
    ensures |ps| == 0 ==> r == 0
    ensures |ps| > 0 ==> r == ps[0].premiumCents + PremiumVolume(ps[1..])
    decreases |ps|
  {
    var amounts := Premiums(ps);
    assert forall k :: 0 <= k < |ps| ==> amounts[k] == ps[k].premiumCents;
    Seqs.SumBoundsEntries(amounts);
    assert |ps| > 0 ==> amounts[1..] == Premiums(ps[1..]);
    Seqs.Sum(amounts)
  }

  lemma PremiumVolumeAppend(a: seq<Policy>, b: seq<Policy>)
    ensures PremiumVolume(a + b) == PremiumVolume(a) + PremiumVolume(b)
  {
    assert Premiums(a + b) == Premiums(a) + Premiums(b);
    Seqs.SumAppend(Premiums(a), Premiums(b));
  }
}

=== FILE: policy_register.dfy ===
/** The policy register page: the risk-score colour band, the search /
    status / type filter, and the total, active and pending tiles. */
module PolicyRegister {
  import opened Text
  import Seqs

  /** A registered policy; dates are day numbers and amounts are in cents. */
  datatype Policy = Policy(
    id: string,
    policyNumber: string,
    policyType: string,
    insuredName: string,
    premiumCents: int,
    deductibleCents: int,
    effectiveDay: int,
    expirationDay: int,
    status: string,
    riskScore: int,
    complianceStatus: string,
    lastReviewDay: int)

  // ------------------------------------------------------ the risk colour

  datatype RiskBand = LowRisk | MediumRisk | HighRisk

  function RiskRank(b: RiskBand): nat {
    match b
    case LowRisk => 0
    case MediumRisk => 1
    case HighRisk => 2
  }

  /** `getRiskColor`: 70 and above red, 40 to 69 yellow, below 40 green. */
  function RiskColor(score: int): (r: RiskBand)
    ensures r == HighRisk <==> score >= 70
    ensures r == MediumRisk <==> 40 <= score < 70
    ensures r == LowRisk <==> score < 40
  {
    if score >= 70 then HighRisk else if score >= 40 then MediumRisk else LowRisk
  }

  /** A higher score never gets a milder colour. */
  lemma RiskColorMonotone(a: int, b: int)
    requires a <= b
    ensures RiskRank(RiskColor(a)) <= RiskRank(RiskColor(b))
  {
  }

  // ----------------------------------------------------------- the filter

  /** The page's controls; `"all"` imposes no restriction. */
  datatype Query = Query(search: string, status: string, policyType: string)

  predicate MatchesSearch(p: Policy, term: string) {
    ContainsIgnoreCase(p.policyNumber, term) || ContainsIgnoreCase(p.insuredName, term)
  }

  predicate Selected(p: Policy, q: Query) {
    MatchesSearch(p, q.search) && AllOr(q.status, p.status) && AllOr(q.policyType, p.policyType)
  }

  function Selects(q: Query): Policy -> bool {
    (p: Policy) => Selected(p, q)
  }

  /** `filteredPolicies`: the matching policies, in their original order. */
  function Filtered(ps: seq<Policy>, q: Query): (r: seq<Policy>)
    ensures Seqs.IsSubseq(r, ps)
    ensures forall k :: 0 <= k < |ps| ==> (ps[k] in r <==> Selected(ps[k], q))
    ensures forall k :: 0 <= k < |r| ==> Selected(r[k], q)
  {
    Seqs.Filter(ps, Selects(q))
  }

  /** An empty search with both filters on `"all"` lists every policy. */
  lemma NoRestrictionListsAll(ps: seq<Policy>)
    ensures Filtered(ps, Query("", "all", "all")) == ps
  {
    forall p | p in ps
      ensures Selected(p, Query("", "all", "all"))
    {
      ContainsEmpty(Lower(p.policyNumber));
    }
    Seqs.FilterKeepsAll(ps, Selects(Query("", "all", "all")));
  }

  /** The case of the search term does not matter. */
  lemma SearchIgnoresTermCase(ps: seq<Policy>, q: Query)
    ensures Filtered(ps, q.(search := Lower(q.search))) == Filtered(ps, q)
  {
    forall p: Policy
      ensures Selects(q.(search := Lower(q.search)))(p) == Selects(q)(p)
    {
      IgnoreCaseOfLowered(p.policyNumber, q.search);
      IgnoreCaseOfLowered(p.insuredName, q.search);
    }
    Seqs.FilterExt(ps, Selects(q.(search := Lower(q.search))), Selects(q));
  }

  // ------------------------------------------------------------ the tiles

  function HasStatus(status: string): Policy -> bool {
    (p: Policy) => p.status == status
  }

  /** A status tile: how many policies have the status. */
  function StatusCount(ps: seq<Policy>, status: string): (r: nat)
    ensures r <= |ps|
    ensures r == 0 <==> forall k :: 0 <= k < |ps| ==> ps[k].status != status
    ensures |ps| > 0 ==>
              r == (if ps[0].status == status then 1 else 0) + StatusCount(ps[1..], status)
    decreases |ps|
  {
    var hits := Seqs.Filter(ps, HasStatus(status));
    assert |hits| > 0 ==> hits[0] in ps;
    |hits|
  }

  /** The Active and Pending tiles never add up to more than the Total tile. */
  lemma ActiveAndPendingAtMostTotal(ps: seq<Policy>)
    ensures StatusCount(ps, "active") + StatusCount(ps, "pending") <= |ps|
  {
    Seqs.DisjointCounts(ps, HasStatus("active"), HasStatus("pending"));
  }

  /** When every policy has one of the four statuses, the per-status counts
      add up to the Total tile. */
  lemma {:induction false} StatusCountsPartition(ps: seq<Policy>)
    requires forall k :: 0 <= k < |ps| ==> ps[k].status in {"active", "expired", "cancelled", "pending"}
    ensures StatusCount(ps, "active") + StatusCount(ps, "expired")
            + StatusCount(ps, "cancelled") + StatusCount(ps, "pending") == |ps|
    decreases |ps|
  {
    if |ps| > 0 {
      var rest := ps[1..];
      assert forall k :: 0 <= k < |rest| ==> rest[k] == ps[k + 1];
      StatusCountsPartition(rest);
      var s := ps[0].status;
      assert s in {"active", "expired", "cancelled", "pending"};
      assert "active" != "expired" && "active" != "cancelled" && "active" != "pending";
      assert "expired" != "cancelled" && "expired" != "pending" && "cancelled" != "pending";
    }
  }
}

=== FILE: policy_wizard.dfy ===
/** The five-step policy-application wizard: per-step validation with its
    messages, the coverage templates per product type, the step counter
    with header navigation, and the form edits, as one state machine whose
    invariant (step in 1..5, no coverage code selected twice) every event keeps. */
module PolicyWizard {
  import opened Optional
  import opened Text
  import Seqs
  import opened PolicyForm

  // ------------------------------------------------------------ templates

  const PersonalAuto: seq<Template> := [
    Template("BI", "Bodily Injury Liability", "LIABILITY", true, ["25000/50000", "50000/100000", "100000/300000", "250000/500000"], []),
    Template("PD", "Property Damage Liability", "LIABILITY", true, ["25000", "50000", "100000", "250000"], []),
    Template("COMP", "Comprehensive", "PHYSICAL_DAMAGE", false, [], ["250", "500", "1000"]),
    Template("COLL", "Collision", "PHYSICAL_DAMAGE", false, [], ["250", "500", "1000"]),
    Template("UM", "Uninsured Motorist", "LIABILITY", false, ["25000/50000", "50000/100000", "100000/300000"], []),
    Template("PIP", "Personal Injury Protection", "MEDICAL", false, ["2500", "5000", "10000"], [])
  ]

  const Homeowners: seq<Template> := [
    Template("DWELLING", "Dwelling Coverage", "PROPERTY", true, ["100000", "200000", "300000", "400000", "500000"], []),
    Template("OTHER_STRUCTURES", "Other Structures", "PROPERTY", true, ["10000", "20000", "30000", "40000", "50000"], []),
    Template("PERSONAL_PROPERTY", "Personal Property", "PROPERTY", true, ["50000", "75000", "100000", "150000", "200000"], []),
    Template("LIABILITY", "Personal Liability", "LIABILITY", true, ["100000", "300000", "500000"], []),
    Template("MEDICAL_PAYMENTS", "Medical Payments to Others", "MEDICAL", false, ["1000", "2500", "5000"], [])
  ]

  const CommercialAuto: seq<Template> := [
    Template("BI", "Bodily Injury Liability", "LIABILITY", true, ["500000/1000000", "1000000/2000000"], []),
    Template("PD", "Property Damage Liability", "LIABILITY", true, ["500000", "1000000"], []),
    Template("COMP", "Comprehensive", "PHYSICAL_DAMAGE", false, [], ["500", "1000", "2500"]),
    Template("COLL", "Collision", "PHYSICAL_DAMAGE", false, [], ["500", "1000", "2500"]),
    Template("CARGO", "Cargo Coverage", "CARGO", false, ["50000", "100000", "250000"], [])
  ]

  /** `getCoverageOptions`: the template list keyed by the exact product
      type; every other type (renters, commercial property, umbrella, none)
      has no options. */
  function Options(productType: string): (r: seq<Template>)
    ensures productType == "PERSONAL_AUTO" ==> r == PersonalAuto
    ensures productType == "HOMEOWNERS" ==> r == Homeowners
    ensures productType == "COMMERCIAL_AUTO" ==> r == CommercialAuto
    ensures productType !in {"PERSONAL_AUTO", "HOMEOWNERS", "COMMERCIAL_AUTO"} ==> r == []
  {
    if productType == "PERSONAL_AUTO" then PersonalAuto
    else if productType == "HOMEOWNERS" then Homeowners
    else if productType == "COMMERCIAL_AUTO" then CommercialAuto
    else []
  }

  function Names(ts: seq<Template>): (r: seq<string>)
    ensures |r| == |ts| && forall i :: 0 <= i < |ts| ==> r[i] == ts[i].name
  {
    seq(|ts|, i requires 0 <= i < |ts| => ts[i].name)
  }

  predicate IsRequired(t: Template) {
    t.required
  }

  /** The test `!selectedCoverages.includes(c.code)`. */
  function NotSelected(cs: seq<Coverage>): Template -> bool {
    (t: Template) => t.code !in Codes(cs)
  }

  /** The required templates of a list whose code is not selected, in template order. */
  function MissingIn(options: seq<Template>, cs: seq<Coverage>): (r: seq<Template>)
    ensures forall i :: 0 <= i < |r| ==> r[i] in options && r[i].required && r[i].code !in Codes(cs)
    ensures forall t :: t in options && t.required && t.code !in Codes(cs) ==> t in r
    ensures Seqs.IsSubseq(r, options)
  {
    var required := Seqs.Filter(options, IsRequired);
    var missing := Seqs.Filter(required, NotSelected(cs));
    Seqs.SubseqTrans(missing, required, options);
    assert forall t :: t in options && t.required && t.code !in Codes(cs) ==> t in missing by {
      forall t | t in options && t.required && t.code !in Codes(cs)
        ensures t in missing
      {
        var i :| 0 <= i < |options| && options[i] == t;
        assert t in required;
        var j :| 0 <= j < |required| && required[j] == t;
      }
    }
    missing
  }

  /** The product type's required coverages that are not selected, in
      template order. */
  function MissingRequired(productType: string, cs: seq<Coverage>): (r: seq<Template>)
    ensures forall i :: 0 <= i < |r| ==> r[i] in Options(productType) && r[i].required && r[i].code !in Codes(cs)
    ensures forall t :: t in Options(productType) && t.required && t.code !in Codes(cs) ==> t in r
    ensures Seqs.IsSubseq(r, Options(productType))
  {
    MissingIn(Options(productType), cs)
  }

  /** With nothing selected, the missing templates of a list whose first `n`
      entries are exactly the required ones are those `n` entries. */
  lemma MissingFromNothing(ts: seq<Template>, n: nat)
    requires n <= |ts|
    requires forall i :: 0 <= i < n ==> ts[i].required
    requires forall i :: n <= i < |ts| ==> !ts[i].required
    ensures MissingIn(ts, []) == ts[..n]
  {
    var none: seq<Coverage> := [];
    assert ts == ts[..n] + ts[n..];
    Seqs.FilterAppend(ts[..n], ts[n..], IsRequired);
    FilterNone(ts[n..], IsRequired);
    Seqs.FilterKeepsAll(ts[..n], IsRequired);
    assert Seqs.Filter(ts, IsRequired) == ts[..n];
    Seqs.FilterKeepsAll(ts[..n], NotSelected(none));
  }

  /** Personal and commercial auto require bodily injury and property damage liability. */
  lemma AutoRequiredCoverages(productType: string)
    requires productType in {"PERSONAL_AUTO", "COMMERCIAL_AUTO"}
    ensures MissingRequired(productType, []) == Options(productType)[..2]
    ensures Options(productType)[0].code == "BI" && Options(productType)[1].code == "PD"
  {
    MissingFromNothing(Options(productType), 2);
  }

  /** Homeowners requires dwelling, other structures, personal property and liability. */
  lemma HomeownersRequiredCoverages()
    ensures MissingRequired("HOMEOWNERS", []) == Homeowners[..4]
    ensures Homeowners[0].code == "DWELLING" && Homeowners[1].code == "OTHER_STRUCTURES"
    ensures Homeowners[2].code == "PERSONAL_PROPERTY" && Homeowners[3].code == "LIABILITY"
  {
    HomeownersShape();
    assert Options("HOMEOWNERS") == Homeowners;
    MissingFromNothing(Homeowners, 4);
  }

  lemma HomeownersShape()
    ensures |Homeowners| == 5 && !Homeowners[4].required
    ensures forall i :: 0 <= i < 4 ==> Homeowners[i].required
    ensures Homeowners[0].code == "DWELLING" && Homeowners[1].code == "OTHER_STRUCTURES"
    ensures Homeowners[2].code == "PERSONAL_PROPERTY" && Homeowners[3].code == "LIABILITY"
  {
  }

  /** A filter whose predicate holds of no element keeps nothing. */
  lemma {:induction false} FilterNone(s: seq<Template>, p: Template -> bool)
    requires forall i :: 0 <= i < |s| ==> !p(s[i])
    ensures Seqs.Filter(s, p) == []
    decreases |s|
  {
    if |s| > 0 {
      FilterNone(s[1..], p);
    }
  }

  // ----------------------------------------------------------- validation

  /** Both dates parse and the effective date is not before the expiration date. */
  predicate DatesOutOfOrder(f: FormData) {
    f.effectiveDate.Day? && f.expirationDate.Day? && f.effectiveDate.n >= f.expirationDate.n
  }

  /** Step 1: one message per missing field; an out-of-order pair of dates
      replaces the expiration date's message. */
  function BasicInfoErrors(f: FormData): (r: Errors)
    ensures r.Keys <= {CustomerId, ProductType, EffectiveDate, ExpirationDate}
    ensures CustomerId in r <==> f.customerId == ""
    ensures ProductType in r <==> f.productType == ""
    ensures EffectiveDate in r <==> f.effectiveDate == Empty
    ensures ExpirationDate in r <==> f.expirationDate == Empty || DatesOutOfOrder(f)
    ensures CustomerId in r ==> r[CustomerId] == "Customer selection is required"
    ensures ProductType in r ==> r[ProductType] == "Product type is required"
    ensures EffectiveDate in r ==> r[EffectiveDate] == "Effective date is required"
    ensures ExpirationDate in r ==>
              (r[ExpirationDate] == if DatesOutOfOrder(f) then "Expiration date must be after effective date"
                                    else "Expiration date is required")
  {
    var e0: Errors := map[];
    var e1 := if f.customerId == "" then e0[CustomerId := "Customer selection is required"] else e0;
    var e2 := if f.productType == "" then e1[ProductType := "Product type is required"] else e1;
    var e3 := if f.effectiveDate == Empty then e2[EffectiveDate := "Effective date is required"] else e2;
    var e4 := if f.expirationDate == Empty then e3[ExpirationDate := "Expiration date is required"] else e3;
    if DatesOutOfOrder(f) then e4[ExpirationDate := "Expiration date must be after effective date"] else e4
  }

  /** Step 2: a message when nothing is selected, replaced by the list of
      missing required coverages when there are any. */
  function CoverageErrors(f: FormData): (r: Errors)
    ensures r.Keys <= {Coverages}
    ensures Coverages in r <==> |f.coverages| == 0 || |MissingRequired(f.productType, f.coverages)| > 0
    ensures Coverages in r ==>
              (r[Coverages] == if |MissingRequired(f.productType, f.coverages)| > 0
                               then "Required coverages missing: " + Join(Names(MissingRequired(f.productType, f.coverages)), ", ")
                               else "At least one coverage is required")
  {
    var e0: Errors := map[];
    var e1 := if |f.coverages| == 0 then e0[Coverages := "At least one coverage is required"] else e0;
    var missing := MissingRequired(f.productType, f.coverages);
    if |missing| > 0 then e1[Coverages := "Required coverages missing: " + Join(Names(missing), ", ")] else e1
  }

  /** Step 3: auto and homeowners policies need an insured item; the
      homeowners message wins when the type names both. */
  function ItemErrors(f: FormData): (r: Errors)
    ensures r.Keys <= {InsuredItems}
    ensures InsuredItems in r <==> (Contains(f.productType, "AUTO") || Contains(f.productType, "HOMEOWNERS")) && |f.insuredItems| == 0
    ensures InsuredItems in r ==>
              (r[InsuredItems] == if Contains(f.productType, "HOMEOWNERS") then "Property information is required for homeowners policies"
                                  else "At least one vehicle is required for auto policies")
  {
    var e0: Errors := map[];
    var e1 := if Contains(f.productType, "AUTO") && |f.insuredItems| == 0
              then e0[InsuredItems := "At least one vehicle is required for auto policies"] else e0;
    if Contains(f.productType, "HOMEOWNERS") && |f.insuredItems| == 0
    then e1[InsuredItems := "Property information is required for homeowners policies"] else e1
  }

  /** `validateStep`: the new error map; steps 4 and 5 never fail. */
  function Validate(step: int, f: FormData): (r: Errors)
    ensures step == 1 ==> r == BasicInfoErrors(f)
    ensures step == 2 ==> r == CoverageErrors(f)
    ensures step == 3 ==> r == ItemErrors(f)
    ensures step !in {1, 2, 3} ==> r == map[]
  {
    if step == 1 then BasicInfoErrors(f)
    else if step == 2 then CoverageErrors(f)
    else if step == 3 then ItemErrors(f)
    else map[]
  }

  /** What each step asks of the form, stated directly. */
  predicate StepComplete(step: int, f: FormData) {
    if step == 1 then
      f.customerId != "" && f.productType != "" && f.effectiveDate != Empty && f.expirationDate != Empty
      && !(f.effectiveDate.Day? && f.expirationDate.Day? && f.effectiveDate.n >= f.expirationDate.n)
    else if step == 2 then
      |f.coverages| > 0 && AllRequiredSelected(f.productType, f.coverages)
    else if step == 3 then
      (Contains(f.productType, "AUTO") || Contains(f.productType, "HOMEOWNERS")) ==> |f.insuredItems| > 0
    else true
  }

  /** Every required option of the product type has a selected coverage with its code. */
  predicate AllRequiredSelected(productType: string, cs: seq<Coverage>) {
    forall t :: t in Options(productType) && t.required ==> exists j :: 0 <= j < |cs| && cs[j].template.code == t.code
  }

  /** A step validates exactly when it is complete. */
  lemma ValidIffComplete(step: int, f: FormData)
    ensures Validate(step, f) == map[] <==> StepComplete(step, f)
  {
    if step == 1 {
      BasicInfoValidIff(f);
    } else if step == 2 {
      CoverageValidIff(f);
    } else if step == 3 {
      var r := Validate(step, f);
      if r == map[] {
        assert InsuredItems !in r;
      }
    }
  }

  lemma BasicInfoValidIff(f: FormData)
    ensures BasicInfoErrors(f) == map[] <==> StepComplete(1, f)
  {
    var r := BasicInfoErrors(f);
    if r == map[] {
      assert CustomerId !in r && ProductType !in r && EffectiveDate !in r && ExpirationDate !in r;
    }
  }

  lemma CoverageValidIff(f: FormData)
    ensures CoverageErrors(f) == map[] <==> StepComplete(2, f)
  {
    var r := CoverageErrors(f);
    assert r == map[] <==> Coverages !in r;
    NoneMissingIff(f.productType, f.coverages);
    SelectedIffInCodes(f.productType, f.coverages);
  }

  lemma SelectedIffInCodes(productType: string, cs: seq<Coverage>)
    ensures AllRequiredSelected(productType, cs) <==>
              forall t :: t in Options(productType) && t.required ==> t.code in Codes(cs)
  {
    forall t | t in Options(productType) && t.required
      ensures t.code in Codes(cs) <==> exists j :: 0 <= j < |cs| && cs[j].template.code == t.code
    {
      if t.code in Codes(cs) {
        var j :| 0 <= j < |Codes(cs)| && Codes(cs)[j] == t.code;
      }
    }
  }

  /** Nothing is missing exactly when every required option's code is selected. */
  lemma NoneMissingIff(productType: string, cs: seq<Coverage>)
    ensures |MissingRequired(productType, cs)| == 0 <==>
              forall t :: t in Options(productType) && t.required ==> t.code in Codes(cs)
  {
    var m := MissingRequired(productType, cs);
    if |m| > 0 {
      assert m[0] in Options(productType) && m[0].required && m[0].code !in Codes(cs);
    }
  }

  /** Types without templates only need some coverage on step 2. */
  lemma OtherTypesNeedAnyCoverage(f: FormData)
    requires f.productType !in {"PERSONAL_AUTO", "HOMEOWNERS", "COMMERCIAL_AUTO"}
    ensures Validate(2, f) == map[] <==> |f.coverages| > 0
  {
    ValidIffComplete(2, f);
  }

  // -------------------------------------------------------- insured items

  /** `addInsuredItem`'s new entry: a vehicle for any type mentioning AUTO,
      otherwise a building with an empty address. */
  function NewItem(productType: string): (r: Item)
    ensures "type" in r && r["type"] == (if Contains(productType, "AUTO") then Str("VEHICLE") else Str("BUILDING"))
    ensures "coveredAmount" in r && r["coveredAmount"] == Str("")
    ensures Contains(productType, "AUTO") ==>
              && r.Keys == {"type", "year", "make", "model", "vin", "vehicleType", "garagingZip", "coveredAmount"}
              && r["vehicleType"] == Str("SEDAN")
    ensures !Contains(productType, "AUTO") ==>
              && r.Keys == {"type", "address", "constructionType", "occupancyType", "squareFootage", "yearBuilt", "coveredAmount"}
              && r["address"] == Address("", "", "", "")
              && r["constructionType"] == Str("FRAME") && r["occupancyType"] == Str("OWNER_OCCUPIED")
  {
    if Contains(productType, "AUTO") then
      map["type" := Str("VEHICLE"), "year" := Str(""), "make" := Str(""), "model" := Str(""), "vin" := Str(""),
          "vehicleType" := Str("SEDAN"), "garagingZip" := Str(""), "coveredAmount" := Str("")]
    else
      map["type" := Str("BUILDING"), "address" := Address("", "", "", ""), "constructionType" := Str("FRAME"),
          "occupancyType" := Str("OWNER_OCCUPIED"), "squareFootage" := Str(""), "yearBuilt" := Str(""),
          "coveredAmount" := Str("")]
  }

  // --------------------------------------------------------- the wizard

  datatype Wizard = Wizard(step: int, form: FormData, errors: Errors)

  const Initial: Wizard := Wizard(1, InitialForm, map[])

  /** The user's actions. `AddOffered(k)` clicks the `k`-th offered
      template; `Header(n)` clicks the `n`-th step in the progress header. */
  datatype Event =
    | Next
    | Prev
    | Header(n: int)
    | SetCustomer(customerId: string)
    | SetProductType(productType: string)
    | SetEffectiveDate(effective: DateInput)
    | SetExpirationDate(expiration: DateInput)
    | AddOffered(k: int)
    | RemoveCoverageAt(i: int)
    | EditCoverage(i: int, edit: CoverageEdit)
    | AddItem
    | RemoveItemAt(i: int)
    | EditItem(i: int, field: string, value: ItemValue)

  predicate Inv(w: Wizard) {
    InRange(w.step) && UniqueCodes(w.form.coverages)
  }

  /** `isClickable && setCurrentStep(n)`: only steps up to the current one can be chosen. */
  function GoTo(w: Wizard, n: int): (r: Wizard)
    ensures r.step == (if 1 <= n <= w.step then n else w.step)
    ensures r.form == w.form && r.errors == w.errors
  {
    if 1 <= n <= w.step then w.(step := n) else w
  }

  /** The wizard after one event. */
  function Apply(w: Wizard, ev: Event): (r: Wizard)
    requires Inv(w)
    ensures Inv(r)
    ensures ev.Next? ==> r.errors == Validate(w.step, w.form)
    ensures !ev.Next? ==> r.errors == w.errors
    ensures r.step > w.step ==> ev == Next && Validate(w.step, w.form) == map[] && r.step == w.step + 1
    ensures !ev.Next? && !ev.Prev? && !ev.Header? ==> r.step == w.step
  {
    var f := w.form;
    match ev
    case Next =>
      var errs := Validate(w.step, f);
      w.(step := NextStep(w.step, errs == map[]), errors := errs)
    case Prev => w.(step := PrevStep(w.step))
    case Header(n) => GoTo(w, n)
    case SetCustomer(c) => w.(form := f.(customerId := c))
    case SetProductType(t) => w.(form := f.(productType := t))
    case SetEffectiveDate(d) => w.(form := f.(effectiveDate := d))
    case SetExpirationDate(d) => w.(form := f.(expirationDate := d))
    case AddOffered(k) =>
      var offered := Offered(Options(f.productType), f.coverages);
      if 0 <= k < |offered| then
        AddOfferedKeepsUnique(f.coverages, Options(f.productType), k);
        w.(form := f.(coverages := AddCoverage(f.coverages, offered[k])))
      else w
    case RemoveCoverageAt(i) =>
      RemoveAndUpdateKeepUnique(f.coverages, i, SetLimit(""));
      w.(form := f.(coverages := RemoveCoverage(f.coverages, i)))
    case EditCoverage(i, e) =>
      RemoveAndUpdateKeepUnique(f.coverages, i, e);
      w.(form := f.(coverages := UpdateCoverage(f.coverages, i, e)))
    case AddItem => w.(form := f.(insuredItems := f.insuredItems + [NewItem(f.productType)]))
    case RemoveItemAt(i) => w.(form := f.(insuredItems := RemoveItem(f.insuredItems, i)))
    case EditItem(i, field, v) => w.(form := f.(insuredItems := UpdateItem(f.insuredItems, i, field, v)))
  }

  /** The wizard after a sequence of events. */
  function Run(w: Wizard, evs: seq<Event>): (r: Wizard)
    requires Inv(w)
    ensures Inv(r)
    decreases |evs|
  {
    if |evs| == 0 then w else Run(Apply(w, evs[0]), evs[1..])
  }

  /** Every state reachable from the start keeps the step in 1..5 and the codes unique. */
  lemma ReachableKeepsInvariant(evs: seq<Event>)
    ensures Inv(Run(Initial, evs))
  {
    assert Inv(Initial);
  }

  /** The step reached never exceeds the number of validated `Next` events:
      the only way forward is one validated step at a time. */
  lemma {:induction false} StepBoundedByNexts(w: Wizard, evs: seq<Event>)
    requires Inv(w)
    ensures Run(w, evs).step <= w.step + |Seqs.Filter(evs, (e: Event) => e.Next?)|
    decreases |evs|
  {
    if |evs| > 0 {
      StepBoundedByNexts(Apply(w, evs[0]), evs[1..]);
    }
  }

  /** `handleSubmit`: the form is handed on only when the current step validates. */
  datatype Submission = Submission(wizard: Wizard, sent: Option<FormData>)

  function Submit(w: Wizard): (r: Submission)
    requires Inv(w)
    ensures r.wizard == w.(errors := Validate(w.step, w.form))
    ensures r.sent.Some? <==> StepComplete(w.step, w.form)
    ensures r.sent.Some? ==> r.sent.value == w.form
  {
    var errs := Validate(w.step, w.form);
    ValidIffComplete(w.step, w.form);
    Submission(w.(errors := errs), if errs == map[] then Some(w.form) else None)
  }

  /** On the review step submission never fails validation. */
  lemma ReviewStepAlwaysSubmits(w: Wizard)
    requires Inv(w) && w.step == LastStep
    ensures Submit(w).sent == Some(w.form)
  {
  }
}

=== FILE: processing_status.dfy ===
/** The processing-status panel: nothing for an empty list, the completed
    counter, and per file the clamped progress bar, the error line and the
    first insights. */
module ProcessingStatus {
  import opened Optional
  import Seqs

  /** A file in the processing queue; `status` is one of `waiting`,
      `processing`, `completed` and `error`. */
  datatype ProcessingFile = ProcessingFile(
    id: string,
    name: string,
    mime: string,
    status: string,
    progress: int,
    insights: Option<seq<string>>,
    error: Option<string>)

  /** What one file's card shows besides its name and icons. */
  datatype Card = Card(bar: Option<int>, errorText: Option<string>, shownInsights: seq<string>)

  /** The panel: "completed of total" and one card per file. */
  datatype Panel = Panel(completed: nat, total: nat, cards: seq<Card>)

  /** `Math.min(100, Math.max(0, progress))`. */
  function BarWidth(progress: int): (r: int)
    ensures 0 <= r <= 100
    ensures 0 <= progress <= 100 ==> r == progress
    ensures progress < 0 ==> r == 0
    ensures progress > 100 ==> r == 100
  {
    if progress > 100 then 100 else if progress < 0 then 0 else progress
  }

  /** A larger progress never draws a shorter bar, and clamping twice is clamping once. */
  lemma BarWidthMonotone(a: int, b: int)
    requires a <= b
    ensures BarWidth(a) <= BarWidth(b)
    ensures BarWidth(BarWidth(a)) == BarWidth(a)
  {
  }

  /** One file's card: the bar only while processing; the error line only for
      a failed file with a non-empty message; for a completed file with
      insights, the first three of them. */
  function CardOf(f: ProcessingFile): (c: Card)
    ensures c.bar.Some? <==> f.status == "processing"
    ensures c.bar.Some? ==> c.bar.value == BarWidth(f.progress)
    ensures c.errorText.Some? <==> f.status == "error" && f.error.Some? && f.error.value != ""
    ensures c.errorText.Some? ==> c.errorText == f.error
    ensures |c.shownInsights| <= 3
    ensures |c.shownInsights| > 0 ==> f.status == "completed" && f.insights.Some?
    ensures f.status == "completed" && f.insights.Some? ==>
              |c.shownInsights| <= |f.insights.value|
              && c.shownInsights == f.insights.value[..|c.shownInsights|]
              && |c.shownInsights| == if |f.insights.value| < 3 then |f.insights.value| else 3
  {
    Card(
      if f.status == "processing" then Some(BarWidth(f.progress)) else None,
      if f.status == "error" && f.error.Some? && f.error.value != "" then f.error else None,
      if f.status == "completed" && f.insights.Some? && |f.insights.value| > 0
      then Seqs.Take(f.insights.value, 3) else [])
  }

  predicate IsCompleted(f: ProcessingFile) {
    f.status == "completed"
  }

  /** `completedFiles`: how many files have completed. */
  function CompletedCount(files: seq<ProcessingFile>): (r: nat)
    ensures r <= |files|
    ensures r == |files| <==> forall k :: 0 <= k < |files| ==> IsCompleted(files[k])
    ensures |files| > 0 ==>
              r == (if IsCompleted(files[0]) then 1 else 0) + CompletedCount(files[1..])
    decreases |files|
  {
    Seqs.FilterKeepsAllIff(files, IsCompleted);
    |Seqs.Filter(files, IsCompleted)|
  }

  /** The component: nothing at all for an empty list, otherwise the counter
      and one card per file, in order. */
  function Render(files: seq<ProcessingFile>): (r: Option<Panel>)
    ensures r.None? <==> |files| == 0
    ensures r.Some? ==> r.value.total == |files| && r.value.completed <= r.value.total
    ensures r.Some? ==> |r.value.cards| == |files|
    ensures r.Some? ==> forall k :: 0 <= k < |files| ==> r.value.cards[k] == CardOf(files[k])
  {
    if |files| == 0 then None
    else Some(Panel(CompletedCount(files), |files|, seq(|files|, k requires 0 <= k < |files| => CardOf(files[k]))))
  }
}

=== FILE: seqs.dfy ===
/** Sequence operations behind the list views and the editable form lists:
    `filter`, `filter(...).length`, `reduce` sums, index-wise removal and
    update, `slice(0, n)`, a stable descending sort and first-occurrence
    de-duplication (`Array.from(new Set(xs))`). */
module Seqs {

  /** `a` is an order-preserving sub-sequence of `b`. */
  predicate IsSubseq<T(==)>(a: seq<T>, b: seq<T>)
    decreases |b|
  {
    if |a| == 0 then true
    else if |b| == 0 then false
    else (a[0] == b[0] && IsSubseq(a[1..], b[1..])) || IsSubseq(a, b[1..])
  }

  /** A subsequence of a subsequence is a subsequence. */
  lemma {:induction false} SubseqTrans<T>(a: seq<T>, b: seq<T>, c: seq<T>)
    requires IsSubseq(a, b) && IsSubseq(b, c)
    ensures IsSubseq(a, c)
    decreases |c|
  {
    if |a| > 0 {
      if b[0] == c[0] && IsSubseq(b[1..], c[1..]) {
        if a[0] == b[0] && IsSubseq(a[1..], b[1..]) {
          SubseqTrans(a[1..], b[1..], c[1..]);
        } else {
          SubseqTrans(a, b[1..], c[1..]);
        }
      } else {
        SubseqTrans(a, b, c[1..]);
      }
    }
  }

  /** `s.filter(p)`: keeps exactly the elements satisfying `p`, in their order. */
  function Filter<T(==)>(s: seq<T>, p: T -> bool): (r: seq<T>)
    ensures |r| <= |s|
    ensures forall i :: 0 <= i < |r| ==> p(r[i])
    ensures forall i :: 0 <= i < |r| ==> r[i] in s
    ensures forall i :: 0 <= i < |s| ==> (s[i] in r <==> p(s[i]))
    ensures IsSubseq(r, s)
    decreases |s|
  {
    if |s| == 0 then []
    else if p(s[0]) then [s[0]] + Filter(s[1..], p)
    else Filter(s[1..], p)
  }

  /** A filter whose predicate holds of every element keeps the whole list. */
  lemma {:induction false} FilterKeepsAll<T>(s: seq<T>, p: T -> bool)
    requires forall x :: x in s ==> p(x)
    ensures Filter(s, p) == s
    decreases |s|
  {
    if |s| > 0 {
      FilterKeepsAll(s[1..], p);
    }
  }

  /** Two filters in a row are one filter by the conjunction. */
  lemma {:induction false} FilterFuse<T>(s: seq<T>, p: T -> bool, q: T -> bool, pq: T -> bool)
    requires forall x :: pq(x) == (p(x) && q(x))
    ensures Filter(Filter(s, p), q) == Filter(s, pq)
    decreases |s|
  {
    if |s| > 0 {
      FilterFuse(s[1..], p, q, pq);
    }
  }

  /** Filters with predicates that never hold together select at most
      `|s|` elements between them, so two such counters never exceed the total. */
  lemma {:induction false} DisjointCounts<T>(s: seq<T>, p: T -> bool, q: T -> bool)
    requires forall x :: !(p(x) && q(x))
    ensures |Filter(s, p)| + |Filter(s, q)| <= |s|
    decreases |s|
  {
    if |s| > 0 {
      DisjointCounts(s[1..], p, q);
    }
  }

  /** Filtering distributes over concatenation. */
  lemma {:induction false} FilterAppend<T>(a: seq<T>, b: seq<T>, p: T -> bool)
    ensures Filter(a + b, p) == Filter(a, p) + Filter(b, p)
    decreases |a|
  {
    if |a| > 0 {
      assert (a + b)[0] == a[0];
      assert (a + b)[1..] == a[1..] + b;
      FilterAppend(a[1..], b, p);
      if p(a[0]) {
        assert Filter(a + b, p) == [a[0]] + Filter(a[1..] + b, p);
      } else {
        assert Filter(a + b, p) == Filter(a[1..] + b, p);
      }
    } else {
      assert a + b == b;
    }
  }

  /** A filter keeps every element exactly when it keeps as many as it is given. */
  lemma FilterKeepsAllIff<T>(s: seq<T>, p: T -> bool)
    ensures |Filter(s, p)| == |s| <==> forall k :: 0 <= k < |s| ==> p(s[k])
  {
    if forall k :: 0 <= k < |s| ==> p(s[k]) {
      FilterKeepsAll(s, p);
    } else {
      FilterDropsSome(s, p);
    }
  }

  lemma {:induction false} FilterDropsSome<T>(s: seq<T>, p: T -> bool)
    requires exists k :: 0 <= k < |s| && !p(s[k])
    ensures |Filter(s, p)| < |s|
    decreases |s|
  {
    var k :| 0 <= k < |s| && !p(s[k]);
    if k > 0 {
      assert s[1..][k - 1] == s[k];
      FilterDropsSome(s[1..], p);
    }
  }

  /** Filters by predicates that agree everywhere give the same list. */
  lemma {:induction false} FilterExt<T>(s: seq<T>, p: T -> bool, p': T -> bool)
    requires forall x :: p(x) == p'(x)
    ensures Filter(s, p) == Filter(s, p')
    decreases |s|
  {
    if |s| > 0 {
      FilterExt(s[1..], p, p');
    }
  }

  /** Counting by either of two exclusive predicates adds up their counts. */
  lemma {:induction false} CountUnion<T>(s: seq<T>, p: T -> bool, q: T -> bool, pq: T -> bool)
    requires forall x :: !(p(x) && q(x))
    requires forall x :: pq(x) == (p(x) || q(x))
    ensures |Filter(s, pq)| == |Filter(s, p)| + |Filter(s, q)|
    decreases |s|
  {
    if |s| > 0 {
      CountUnion(s[1..], p, q, pq);
    }
  }

  /** `s.reduce((sum, x) => sum + x, 0)` */
  function Sum(s: seq<int>): int
    decreases |s|
  {
    if |s| == 0 then 0 else s[0] + Sum(s[1..])
  }

  /** Summing a concatenation adds the sums of the parts. */
  lemma {:induction false} SumAppend(a: seq<int>, b: seq<int>)
    ensures Sum(a + b) == Sum(a) + Sum(b)
    decreases |a|
  {
    if |a| > 0 {
      assert (a + b)[0] == a[0];
      assert (a + b)[1..] == a[1..] + b;
      SumAppend(a[1..], b);
    } else {
      assert a + b == b;
    }
  }

  /** A sum of non-negative terms is non-negative. */
  lemma {:induction false} SumNonNegative(s: seq<int>)
    requires forall i :: 0 <= i < |s| ==> s[i] >= 0
    ensures Sum(s) >= 0
    decreases |s|
  {
    if |s| > 0 {
      SumNonNegative(s[1..]);
    }
  }

  /** A prefix of a prefix is a prefix. */
  lemma PrefixOfPrefix<T>(a: seq<T>, b: seq<T>, c: seq<T>)
    requires |a| <= |b| && b[..|a|] == a
    requires |b| <= |c| && c[..|b|] == b
    ensures c[..|a|] == a
  {
    assert forall k :: 0 <= k < |a| ==> c[k] == b[k];
  }

  /** `s.filter((_, j) => j !== i)`: drops position `i`, keeps the rest in
      order; an index outside the list leaves it as it was. */
  function RemoveAt<T>(s: seq<T>, i: int): (r: seq<T>)
    ensures 0 <= i < |s| ==> |r| == |s| - 1
    ensures 0 <= i < |s| ==> forall j :: 0 <= j < i ==> r[j] == s[j]
    ensures 0 <= i < |s| ==> forall j :: i <= j < |r| ==> r[j] == s[j + 1]
    ensures !(0 <= i < |s|) ==> r == s
  {
    if 0 <= i < |s| then s[..i] + s[i + 1..] else s
  }

  /** `s.map((x, j) => j === i ? f(x) : x)`: only position `i` changes. */
  function UpdateAt<T>(s: seq<T>, i: int, f: T -> T): (r: seq<T>)
    ensures |r| == |s|
    ensures 0 <= i < |s| ==> r[i] == f(s[i])
    ensures forall j :: 0 <= j < |s| && j != i ==> r[j] == s[j]
  {
    if 0 <= i < |s| then s[i := f(s[i])] else s
  }

  /** Removing position `i` takes its term out of the sum. */
  lemma {:induction false} SumRemoveAt(s: seq<int>, i: int)
    requires 0 <= i < |s|
    ensures Sum(RemoveAt(s, i)) == Sum(s) - s[i]
    decreases |s|
  {
    if i > 0 {
      var rest := RemoveAt(s[1..], i - 1);
      SumRemoveAt(s[1..], i - 1);
      assert RemoveAt(s, i) == [s[0]] + rest;
      assert ([s[0]] + rest)[1..] == rest;
    } else {
      assert RemoveAt(s, i) == s[1..];
    }
  }

  /** No entry of a sum of non-negative numbers exceeds the sum. */
  lemma SumBoundsEntries(s: seq<int>)
    requires forall i :: 0 <= i < |s| ==> s[i] >= 0
    ensures Sum(s) >= 0
    ensures forall i :: 0 <= i < |s| ==> s[i] <= Sum(s)
  {
    SumNonNegative(s);
    forall i | 0 <= i < |s|
      ensures s[i] <= Sum(s)
    {
      SumRemoveAt(s, i);
      SumNonNegative(RemoveAt(s, i));
    }
  }

  /** Replacing the term at `i` changes the sum by the difference. */
  lemma SumReplace(s: seq<int>, i: int, v: int)
    requires 0 <= i < |s|
    ensures Sum(s[i := v]) == Sum(s) - s[i] + v
  {
    var a, b := s[..i], s[i + 1..];
    assert s == a + ([s[i]] + b);
    assert s[i := v] == a + ([v] + b);
    SumAppend(a, [s[i]] + b);
    SumAppend([s[i]], b);
    SumAppend(a, [v] + b);
    SumAppend([v], b);
  }

  /** `s.slice(0, n)` */
  function Take<T>(s: seq<T>, n: nat): (r: seq<T>)
    ensures |r| == if |s| < n then |s| else n
    ensures forall j :: 0 <= j < |r| ==> r[j] == s[j]
  {
    if |s| <= n then s else s[..n]
  }

  /** Non-increasing by `key`. */
  predicate SortedDesc<T>(s: seq<T>, key: T -> int) {
    forall i, j :: 0 <= i < j < |s| ==> key(s[i]) >= key(s[j])
  }

  /** Inserts `x` in front of the first element whose key is not larger. */
  function InsertDesc<T(==)>(x: T, s: seq<T>, key: T -> int): (r: seq<T>)
    requires SortedDesc(s, key)
    ensures SortedDesc(r, key)
    ensures multiset(r) == multiset(s) + multiset{x}
    ensures forall k :: 0 <= k < |r| ==> r[k] == x || r[k] in s
    decreases |s|
  {
    if |s| == 0 || key(x) >= key(s[0]) then [x] + s
    else
      var tail := s[1..];
      assert SortedDesc(tail, key);
      var rest := InsertDesc(x, tail, key);
      InsertDescStep(x, s, key, rest);
      [s[0]] + rest
  }

  /** The recursive step of `InsertDesc`: `s[0]` stays in front of the insertion into the tail. */
  lemma InsertDescStep<T>(x: T, s: seq<T>, key: T -> int, rest: seq<T>)
    requires |s| > 0 && key(x) < key(s[0]) && SortedDesc(s, key)
    requires SortedDesc(rest, key)
    requires multiset(rest) == multiset(s[1..]) + multiset{x}
    requires forall k :: 0 <= k < |rest| ==> rest[k] == x || rest[k] in s[1..]
    ensures SortedDesc([s[0]] + rest, key)
    ensures multiset([s[0]] + rest) == multiset(s) + multiset{x}
    ensures forall k :: 0 <= k < |[s[0]] + rest| ==> ([s[0]] + rest)[k] == x || ([s[0]] + rest)[k] in s
  {
    assert s == [s[0]] + s[1..];
    var r := [s[0]] + rest;
    forall k | 0 <= k < |rest|
      ensures key(rest[k]) <= key(s[0])
    {
      if rest[k] != x {
        var m :| 0 <= m < |s[1..]| && s[1..][m] == rest[k];
        assert s[m + 1] == rest[k];
      }
    }
    forall i, j | 0 <= i < j < |r|
      ensures key(r[i]) >= key(r[j])
    {
      if i == 0 {
        assert r[j] == rest[j - 1];
      } else {
        assert r[i] == rest[i - 1] && r[j] == rest[j - 1];
      }
    }
  }

  function KeyIs<T>(key: T -> int, v: int): T -> bool {
    (x: T) => key(x) == v
  }

  /** For every key value, the elements of `r` with that key come in the
      same order as in `s`: a sort with this property is stable. */
  ghost predicate SameTies<T>(s: seq<T>, r: seq<T>, key: T -> int) {
    forall v :: Filter(r, KeyIs(key, v)) == Filter(s, KeyIs(key, v))
  }

  /** `InsertDesc` puts `x` in front of every element of equal key, so the
      ties of `[x] + s` keep their order. */
  lemma {:induction false} InsertDescTies<T>(x: T, s: seq<T>, key: T -> int)
    requires SortedDesc(s, key)
    ensures SameTies([x] + s, InsertDesc(x, s, key), key)
    decreases |s|
  {
    if |s| > 0 && key(x) < key(s[0]) {
      var tail := s[1..];
      assert SortedDesc(tail, key);
      InsertDescTies(x, tail, key);
      var rest := InsertDesc(x, tail, key);
      var r := [s[0]] + rest;
      assert r == InsertDesc(x, s, key);
      forall v
        ensures Filter(r, KeyIs(key, v)) == Filter([x] + s, KeyIs(key, v))
      {
        assert r[0] == s[0] && r[1..] == rest;
        assert ([x] + s)[0] == x && ([x] + s)[1..] == s;
        assert ([x] + tail)[0] == x && ([x] + tail)[1..] == tail;
      }
    }
  }

  /** Putting the head back in front of a tie-preserving arrangement of the
      tail preserves the ties of the whole list. */
  lemma SortTiesStep<T>(s: seq<T>, t: seq<T>, key: T -> int)
    requires |s| > 0 && SameTies(s[1..], t, key)
    ensures SameTies(s, [s[0]] + t, key)
  {
    forall v
      ensures Filter([s[0]] + t, KeyIs(key, v)) == Filter(s, KeyIs(key, v))
    {
      assert ([s[0]] + t)[0] == s[0] && ([s[0]] + t)[1..] == t;
    }
  }

  /** `s.sort((a, b) => key(b) - key(a))`: JavaScript's sort is stable, and so
      is this insertion sort: equal keys keep their input order. */
  function SortDesc<T(==)>(s: seq<T>, key: T -> int): (r: seq<T>)
    ensures SortedDesc(r, key)
    ensures multiset(r) == multiset(s)
    ensures SameTies(s, r, key)
    decreases |s|
  {
    if |s| == 0 then []
    else
      assert s == [s[0]] + s[1..];
      var t := SortDesc(s[1..], key);
      InsertDescTies(s[0], t, key);
      SortTiesStep(s, t, key);
      InsertDesc(s[0], t, key)
  }

  /** The index of the first occurrence of `x` in `s`. */
  function FirstIndex<T(==)>(s: seq<T>, x: T): (k: nat)
    requires x in s
    ensures k < |s| && s[k] == x
    ensures forall j :: 0 <= j < k ==> s[j] != x
    decreases |s|
  {
    if s[0] == x then 0 else 1 + FirstIndex(s[1..], x)
  }

  /** `r` holds exactly the values of `s`, ordered by their first occurrence in `s`. */
  predicate DistinctOf<T(==)>(s: seq<T>, r: seq<T>) {
    && (forall i :: 0 <= i < |r| ==> r[i] in s)
    && (forall i :: 0 <= i < |s| ==> s[i] in r)
    && (forall i, j :: 0 <= i < j < |r| ==> FirstIndex(s, r[i]) < FirstIndex(s, r[j]))
  }

  /** `Array.from(new Set(s))`: every distinct element once, in order of
      first occurrence. */
  function Distinct<T(==)>(s: seq<T>): (r: seq<T>)
    ensures DistinctOf(s, r)
    decreases |s|
  {
    if |s| == 0 then []
    else
      var init := s[..|s| - 1];
      var last := s[|s| - 1];
      var r := Distinct(init);
      assert s == init + [last];
      DistinctStep(init, last, r);
      if last in r then r else r + [last]
  }

  /** Extending the distinct values of `init` by `last` (when it is new)
      gives the distinct values of `init + [last]`. */
  lemma DistinctStep<T>(init: seq<T>, last: T, r: seq<T>)
    requires DistinctOf(init, r)
    ensures DistinctOf(init + [last], if last in r then r else r + [last])
  {
    var s := init + [last];
    var d := if last in r then r else r + [last];
    FirstIndexPrefix(init, last, r);
    assert forall i :: 0 <= i < |init| ==> s[i] == init[i];
    assert s[|init|] == last;
    forall i | 0 <= i < |d|
      ensures d[i] in s
    {
      if i < |r| {
        var k :| 0 <= k < |init| && init[k] == r[i];
        assert s[k] == d[i];
      }
    }
    forall i | 0 <= i < |s|
      ensures s[i] in d
    {
      if i < |init| {
        assert init[i] in r;
      }
    }
    forall i, j | 0 <= i < j < |d|
      ensures FirstIndex(s, d[i]) < FirstIndex(s, d[j])
    {
      if j < |r| {
        assert d[i] == r[i] && d[j] == r[j];
      } else {
        assert last !in init && d[i] == r[i] && FirstIndex(s, d[i]) < |init|;
      }
    }
  }

  /** First occurrences in a prefix are first occurrences in the whole. */
  lemma FirstIndexPrefix<T>(init: seq<T>, last: T, r: seq<T>)
    requires forall x :: x in r ==> x in init
    ensures forall x :: x in r ==> FirstIndex(init + [last], x) == FirstIndex(init, x)
    ensures last !in init ==> FirstIndex(init + [last], last) == |init|
  {
    var s := init + [last];
    forall x | x in r
      ensures FirstIndex(s, x) == FirstIndex(init, x)
    {
      var a := FirstIndex(s, x);
      var b := FirstIndex(init, x);
      assert s[b] == x;
    }
    if last !in init {
      assert forall j :: 0 <= j < |init| ==> s[j] == init[j];
      assert s[|init|] == last;
    }
  }

  /** Every distinct value appears exactly once. */
  lemma DistinctHasNoDuplicates<T>(s: seq<T>)
    ensures forall i, j :: 0 <= i < j < |Distinct(s)| ==> Distinct(s)[i] != Distinct(s)[j]
  {
  }
}

=== FILE: simple_policy_form.dfy ===
/** The older single-page policy form: a weaker per-step validation (no
    date ordering, no required-coverage check), a coverage list chosen by a
    substring test on the product type, and a submit that resets the form
    only when the server's answer names the created policy. */
module SimplePolicyForm {
  import opened Optional
  import opened Text
  import opened PolicyForm
  import PoliciesRoute

  const AutoCoverages: seq<Template> := [
    Template("BI", "Bodily Injury Liability", "LIABILITY", true, [], []),
    Template("PD", "Property Damage Liability", "LIABILITY", true, [], []),
    Template("COMP", "Comprehensive", "PHYSICAL_DAMAGE", false, [], []),
    Template("COLL", "Collision", "PHYSICAL_DAMAGE", false, [], []),
    Template("UM", "Uninsured Motorist", "LIABILITY", false, [], []),
    Template("PIP", "Personal Injury Protection", "MEDICAL", false, [], [])
  ]

  const HomeCoverages: seq<Template> := [
    Template("DWELLING", "Dwelling", "PROPERTY", true, [], []),
    Template("OTHER_STRUCTURES", "Other Structures", "PROPERTY", true, [], []),
    Template("PERSONAL_PROPERTY", "Personal Property", "PROPERTY", true, [], []),
    Template("LIABILITY", "Personal Liability", "LIABILITY", true, [], []),
    Template("MEDICAL_PAYMENTS", "Medical Payments", "MEDICAL", false, [], [])
  ]

  /** `getCoverageOptions`: the auto list for every type mentioning AUTO,
      the home list for exactly HOMEOWNERS, nothing otherwise. */
  function Options(productType: string): (r: seq<Template>)
    ensures Contains(productType, "AUTO") ==> r == AutoCoverages
    ensures !Contains(productType, "AUTO") && productType == "HOMEOWNERS" ==> r == HomeCoverages
    ensures !Contains(productType, "AUTO") && productType != "HOMEOWNERS" ==> r == []
  {
    if Contains(productType, "AUTO") then AutoCoverages
    else if productType == "HOMEOWNERS" then HomeCoverages
    else []
  }

  /** Commercial auto is offered the personal auto list. */
  lemma CommercialAutoGetsAutoList()
    ensures Options("COMMERCIAL_AUTO") == AutoCoverages
  {
    assert OccursAt("COMMERCIAL_AUTO", "AUTO", 11);
    ContainsIffOccurs("COMMERCIAL_AUTO", "AUTO");
  }

  /** Step 1: one message per missing field; the dates are not compared. */
  function BasicInfoErrors(f: FormData): (r: Errors)
    ensures r.Keys <= {CustomerId, ProductType, EffectiveDate, ExpirationDate}
    ensures CustomerId in r <==> f.customerId == ""
    ensures ProductType in r <==> f.productType == ""
    ensures EffectiveDate in r <==> f.effectiveDate == Empty
    ensures ExpirationDate in r <==> f.expirationDate == Empty
    ensures CustomerId in r ==> r[CustomerId] == "Customer is required"
    ensures ProductType in r ==> r[ProductType] == "Product type is required"
    ensures EffectiveDate in r ==> r[EffectiveDate] == "Effective date is required"
    ensures ExpirationDate in r ==> r[ExpirationDate] == "Expiration date is required"
  {
    var e0: Errors := map[];
    var e1 := if f.customerId == "" then e0[CustomerId := "Customer is required"] else e0;
    var e2 := if f.productType == "" then e1[ProductType := "Product type is required"] else e1;
    var e3 := if f.effectiveDate == Empty then e2[EffectiveDate := "Effective date is required"] else e2;
    if f.expirationDate == Empty then e3[ExpirationDate := "Expiration date is required"] else e3
  }

  /** `validateStep`: step 2 only asks for some coverage; steps 3 to 5 never fail. */
  function Validate(step: int, f: FormData): (r: Errors)
    ensures step == 1 ==> r == BasicInfoErrors(f)
    ensures step == 2 ==> r == (if |f.coverages| == 0 then map[Coverages := "At least one coverage is required"] else map[])
    ensures step !in {1, 2} ==> r == map[]
  {
    if step == 1 then BasicInfoErrors(f)
    else if step == 2 && |f.coverages| == 0 then map[Coverages := "At least one coverage is required"]
    else map[]
  }

  /** What each step asks of the form, stated directly. */
  predicate StepComplete(step: int, f: FormData) {
    if step == 1 then f.customerId != "" && f.productType != "" && f.effectiveDate != Empty && f.expirationDate != Empty
    else if step == 2 then |f.coverages| > 0
    else true
  }

  /** A step validates exactly when it is complete; in particular dates in
      the wrong order and missing required coverages pass. */
  lemma ValidIffComplete(step: int, f: FormData)
    ensures Validate(step, f) == map[] <==> StepComplete(step, f)
  {
    if step == 1 {
      var r := Validate(step, f);
      if r == map[] {
        assert CustomerId !in r && ProductType !in r && EffectiveDate !in r && ExpirationDate !in r;
      }
    } else if step == 2 && |f.coverages| == 0 {
      assert Coverages in Validate(step, f);
    }
  }

  // ------------------------------------------------------------- the form

  datatype Form = Form(step: int, data: FormData, errors: Errors)

  const Initial: Form := Form(1, InitialForm, map[])

  datatype Event =
    | Next
    | Prev
    | SetCustomer(customerId: string)
    | SetProductType(productType: string)
    | SetEffectiveDate(effective: DateInput)
    | SetExpirationDate(expiration: DateInput)
    | AddOffered(k: int)
    | RemoveCoverageAt(i: int)
    | EditCoverage(i: int, edit: CoverageEdit)

  predicate Inv(w: Form) {
    InRange(w.step) && UniqueCodes(w.data.coverages)
  }

  /** The form after one event. */
  function Apply(w: Form, ev: Event): (r: Form)
    requires Inv(w)
    ensures Inv(r)
    ensures ev.Next? ==> r.errors == Validate(w.step, w.data)
    ensures !ev.Next? ==> r.errors == w.errors
    ensures r.step > w.step ==> ev == Next && Validate(w.step, w.data) == map[] && r.step == w.step + 1
    ensures r.step < w.step ==> ev == Prev && r.step == w.step - 1
  {
    var f := w.data;
    match ev
    case Next =>
      var errs := Validate(w.step, f);
      w.(step := NextStep(w.step, errs == map[]), errors := errs)
    case Prev => w.(step := PrevStep(w.step))
    case SetCustomer(c) => w.(data := f.(customerId := c))
    case SetProductType(t) => w.(data := f.(productType := t))
    case SetEffectiveDate(d) => w.(data := f.(effectiveDate := d))
    case SetExpirationDate(d) => w.(data := f.(expirationDate := d))
    case AddOffered(k) =>
      var offered := Offered(Options(f.productType), f.coverages);
      if 0 <= k < |offered| then
        AddOfferedKeepsUnique(f.coverages, Options(f.productType), k);
        w.(data := f.(coverages := AddCoverage(f.coverages, offered[k])))
      else w
    case RemoveCoverageAt(i) =>
      RemoveAndUpdateKeepUnique(f.coverages, i, SetLimit(""));
      w.(data := f.(coverages := RemoveCoverage(f.coverages, i)))
    case EditCoverage(i, e) =>
      RemoveAndUpdateKeepUnique(f.coverages, i, e);
      w.(data := f.(coverages := UpdateCoverage(f.coverages, i, e)))
  }

  /** The server's answer as `handleSubmit` reads it: not OK, with the body's
      `error` text; OK with a body whose `policy` member carries a number; or
      OK with a body without a `policy` member, where reading
      `result.policy.policyNumber` throws and the `catch` branch runs. */
  datatype Answer =
    | Refused(error: string)
    | Created(policyNumber: string)
    | CreatedWithoutPolicy

  /** What `handleSubmit` leaves behind, what it posts and what it alerts. */
  datatype Submission = Submission(form: Form, posted: Option<FormData>, alert: Option<string>)

  const FailureText := "Failed to create policy"

  /** `handleSubmit`: a form that fails validation is neither posted nor
      alerted about. A posted form is reset to its initial values and step 1
      only when the answer names the created policy; a refusal or a thrown
      error leaves it as it was and alerts. */
  function Submit(w: Form, answer: Answer): (r: Submission)
    requires Inv(w)
    ensures Inv(r.form)
    ensures r.posted.Some? <==> StepComplete(w.step, w.data)
    ensures r.posted.Some? ==> r.posted.value == w.data
    ensures r.posted.None? ==> r.alert.None?
    ensures r.form.errors == Validate(w.step, w.data)
    ensures r.posted.Some? && answer.Created? ==>
              r.form.data == InitialForm && r.form.step == 1
              && r.alert == Some("Policy " + answer.policyNumber + " created successfully!")
    ensures r.posted.None? || !answer.Created? ==> r.form.data == w.data && r.form.step == w.step
    ensures r.posted.Some? && answer.Refused? ==> r.alert == Some("Error: " + answer.error)
    ensures r.posted.Some? && answer.CreatedWithoutPolicy? ==> r.alert == Some(FailureText)
  {
    var errs := Validate(w.step, w.data);
    ValidIffComplete(w.step, w.data);
    if errs != map[] then Submission(w.(errors := errs), None, None)
    else
      match answer
      case Created(n) => Submission(Form(1, InitialForm, errs), Some(w.data), Some("Policy " + n + " created successfully!"))
      case Refused(e) => Submission(w.(errors := errs), Some(w.data), Some("Error: " + e))
      case CreatedWithoutPolicy => Submission(w.(errors := errs), Some(w.data), Some(FailureText))
  }

  /** After a submission answered with the created policy the form is exactly
      the freshly opened one. */
  lemma AcceptedSubmitRestarts(w: Form, policyNumber: string)
    requires Inv(w) && StepComplete(w.step, w.data)
    ensures Submit(w, Created(policyNumber)).form == Initial
  {
  }

  /** How the handler reads an answer of `POST /api/policies`: a 2xx status is
      OK, and the body is the policy object itself, which has no `policy`
      member. */
  function ReadAnswer(resp: PoliciesRoute.Response): Answer {
    if 200 <= resp.status < 300 then CreatedWithoutPolicy else Refused("Internal server error")
  }

  /** Against the policies route a complete form is posted and the policy is
      created, yet the form is not reset: the answer has no `policy` member,
      so the handler ends in its failure alert with the form as it was. */
  lemma RouteAnswerKeepsForm(w: Form, req: PoliciesRoute.PolicyRequest, numberMs: nat, idMs: nat)
    requires Inv(w) && StepComplete(w.step, w.data)
    ensures Submit(w, ReadAnswer(PoliciesRoute.Post(req, numberMs, idMs))).posted == Some(w.data)
    ensures Submit(w, ReadAnswer(PoliciesRoute.Post(req, numberMs, idMs))).form.data == w.data
    ensures Submit(w, ReadAnswer(PoliciesRoute.Post(req, numberMs, idMs))).form.step == w.step
    ensures Submit(w, ReadAnswer(PoliciesRoute.Post(req, numberMs, idMs))).alert == Some(FailureText)
  {
  }
}

=== FILE: text.dfy ===
/** String helpers shared by the classifiers, the search filters and the
    message builders. Strings are `seq<char>`; case folding is ASCII only. */
module Text {

  /** ASCII lower-casing of one character; every other character is kept. */
  function LowerChar(c: char): char {
    if 'A' <= c <= 'Z' then (c as int + 32) as char else c
  }

  /** `toLowerCase()` restricted to ASCII letters. */
  function Lower(s: string): (r: string)
    ensures |r| == |s|
    ensures forall i :: 0 <= i < |s| ==> r[i] == LowerChar(s[i])
  {
    seq(|s|, i requires 0 <= i < |s| => LowerChar(s[i]))
  }

  /** Lower-casing twice is lower-casing once, so a classifier that lower-cases
      its input gives the same answer for a name and its lower-cased form. */
  lemma LowerIdempotent(s: string)
    ensures Lower(Lower(s)) == Lower(s)
  {
  }

  /** `s.startsWith(p)` */
  predicate StartsWith(s: string, p: string) {
    |p| <= |s| && s[..|p|] == p
  }

  /** `s.endsWith(p)` */
  predicate EndsWith(s: string, p: string) {
    |p| <= |s| && s[|s| - |p|..] == p
  }

  /** `t` occurs in `s` starting at index `i`. */
  predicate OccursAt(s: string, t: string, i: int) {
    0 <= i && i + |t| <= |s| && s[i..i + |t|] == t
  }

  /** `s.includes(t)`, computed by scanning the start positions from the left. */
  predicate Contains(s: string, t: string)
    decreases |s|
  {
    StartsWith(s, t) || (|s| > 0 && Contains(s[1..], t))
  }

  /** The scan finds `t` exactly when `t` occurs at some position of `s`. */
  lemma {:induction false} ContainsIffOccurs(s: string, t: string)
    ensures Contains(s, t) <==> exists i :: OccursAt(s, t, i)
    decreases |s|
  {
    if StartsWith(s, t) {
      assert OccursAt(s, t, 0);
    }
    if |s| > 0 {
      ContainsIffOccurs(s[1..], t);
      if Contains(s[1..], t) {
        var i :| OccursAt(s[1..], t, i);
        assert s[1..][i..i + |t|] == s[i + 1..i + 1 + |t|];
        assert OccursAt(s, t, i + 1);
      }
      if i :| OccursAt(s, t, i) {
        if i > 0 {
          assert s[1..][i - 1..i - 1 + |t|] == s[i..i + |t|];
          assert OccursAt(s[1..], t, i - 1);
        } else {
          assert StartsWith(s, t);
        }
      }
    } else {
      if i :| OccursAt(s, t, i) {
        assert i == 0 && |t| == 0;
        assert StartsWith(s, t);
      }
    }
  }

  /** The empty search term is found in every string. */
  lemma ContainsEmpty(s: string)
    ensures Contains(s, "")
  {
  }

  /** Case-insensitive `includes`: both sides are lower-cased first, as the
      filters do with `x.toLowerCase().includes(term.toLowerCase())`. */
  predicate ContainsIgnoreCase(s: string, t: string) {
    Contains(Lower(s), Lower(t))
  }

  /** Lower-casing the search term first changes nothing. */
  lemma IgnoreCaseOfLowered(s: string, t: string)
    ensures ContainsIgnoreCase(s, Lower(t)) == ContainsIgnoreCase(s, t)
  {
    LowerIdempotent(t);
  }

  /** A drop-down filter: `"all"` admits every value, anything else only itself. */
  predicate AllOr(filter: string, value: string) {
    filter == "all" || value == filter
  }

  /** `parts.join(sep)` */
  function Join(parts: seq<string>, sep: string): (r: string)
    ensures |parts| == 0 ==> r == ""
    ensures |parts| == 1 ==> r == parts[0]
    ensures |parts| >= 2 ==> r == parts[0] + sep + Join(parts[1..], sep)
  {
    if |parts| == 0 then ""
    else if |parts| == 1 then parts[0]
    else parts[0] + sep + Join(parts[1..], sep)
  }

  /** The characters `String.prototype.trim` removes, restricted to ASCII. */
  predicate IsSpace(c: char) {
    c == ' ' || c == '\t' || c == '\n' || c == '\r' || c == '\U{B}' || c == '\U{C}'
  }

  /** Drops the leading white space: the result is a suffix of `s`, what was
      dropped is all white space, and the result does not start with any. */
  function TrimStart(s: string): (r: string)
    ensures |r| <= |s| && r == s[|s| - |r|..]
    ensures forall i :: 0 <= i < |s| - |r| ==> IsSpace(s[i])
    ensures r == [] || !IsSpace(r[0])
    decreases |s|
  {
    if |s| > 0 && IsSpace(s[0]) then TrimStart(s[1..]) else s
  }

  /** Drops the trailing white space: the result is a prefix of `s`, what was
      dropped is all white space, and the result does not end with any. */
  function TrimEnd(s: string): (r: string)
    ensures |r| <= |s| && r == s[..|r|]
    ensures forall i :: |r| <= i < |s| ==> IsSpace(s[i])
    ensures r == [] || !IsSpace(r[|r| - 1])
    decreases |s|
  {
    if |s| > 0 && IsSpace(s[|s| - 1]) then TrimEnd(s[..|s| - 1]) else s
  }

  /** `r` is the slice of `s` at offset `a`, with only white space around it. */
  predicate PaddedAt(s: string, r: string, a: int) {
    && 0 <= a <= a + |r| <= |s|
    && r == s[a..a + |r|]
    && (forall i :: 0 <= i < a ==> IsSpace(s[i]))
    && (forall i :: a + |r| <= i < |s| ==> IsSpace(s[i]))
  }

  /** `s.trim()`: the slice of `s` after its leading white space, with
      only white space after it, and none at either end of it. */
  function Trim(s: string): (r: string)
    ensures PaddedAt(s, r, |s| - |TrimStart(s)|)
    ensures r == [] || (!IsSpace(r[0]) && !IsSpace(r[|r| - 1]))
  {
    var t := TrimStart(s);
    var r := TrimEnd(t);
    PaddedCompose(s, t, r);
    r
  }

  /** Trimming the front and then the back leaves a slice with only white
      space around it. */
  lemma PaddedCompose(s: string, t: string, r: string)
    requires |t| <= |s| && t == s[|s| - |t|..]
    requires forall i :: 0 <= i < |s| - |t| ==> IsSpace(s[i])
    requires |r| <= |t| && r == t[..|r|]
    requires forall i :: |r| <= i < |t| ==> IsSpace(t[i])
    ensures PaddedAt(s, r, |s| - |t|)
  {
    var a := |s| - |t|;
    forall i | a + |r| <= i < |s|
      ensures IsSpace(s[i])
    {
      assert s[i] == t[i - a];
    }
    assert r == s[a..a + |r|] by {
      forall i | 0 <= i < |r|
        ensures r[i] == s[a + i]
      {
        assert r[i] == t[i];
      }
    }
  }

  /** A string without white space at either end is its own trim. */
  lemma TrimUnpadded(s: string)
    requires s == [] || (!IsSpace(s[0]) && !IsSpace(s[|s| - 1]))
    ensures Trim(s) == s
  {
  }

  /** The decimal digit for `d` in 0..9. */
  function Digit(d: nat): char
    requires d < 10
  {
    ('0' as int + d) as char
  }

  /** The value of a decimal digit character. */
  function DigitValue(c: char): int {
    c as int - '0' as int
  }

  /** `n.toString()` for a non-negative integer. */
  function Decimal(n: nat): (r: string)
    ensures |r| >= 1
    ensures forall i :: 0 <= i < |r| ==> '0' <= r[i] <= '9'
    decreases n
  {
    if n < 10 then [Digit(n)] else Decimal(n / 10) + [Digit(n % 10)]
  }

  /** Reads a string of decimal digits back as a number. */
  function DecimalValue(s: string): int
    decreases |s|
  {
    if |s| == 0 then 0 else DecimalValue(s[..|s| - 1]) * 10 + DigitValue(s[|s| - 1])
  }

  /** Rendering a count in decimal loses nothing: reading it back gives the count. */
  lemma {:induction false} DecimalRoundTrip(n: nat)
    ensures DecimalValue(Decimal(n)) == n
    decreases n
  {
    if n >= 10 {
      DecimalRoundTrip(n / 10);
      var s := Decimal(n);
      assert s[..|s| - 1] == Decimal(n / 10);
    }
  }

  /** `s.slice(-n)` for n > 0: the last `n` characters, or all of `s` when shorter. */
  function LastN(s: string, n: nat): (r: string)
    ensures |r| == if |s| < n then |s| else n
    ensures EndsWith(s, r)
  {
    if |s| <= n then s else s[|s| - n..]
  }
}

=== FILE: workspace.dfy ===
/** The analysis workspace page: the category and tag classifiers for an
    uploaded file, the canned insights produced per file type, the document
    and insight lists the processing loop fills, and document deletion. */
module Workspace {
  import opened Optional
  import opened Text
  import Seqs
  import opened InsightsList
  import opened DocumentLibrary
  import ProcessingStatus

  /** An uploaded file as the processing loop sees it; `id` is its random id. */
  datatype FileEntry = FileEntry(id: string, name: string, mime: string, size: nat)

  // ----------------------------------------------------------- classifiers

  predicate IsSpreadsheet(mime: string) {
    Contains(mime, "excel") || Contains(mime, "spreadsheet")
  }

  predicate IsImage(mime: string) {
    StartsWith(mime, "image/")
  }

  /** `getDocumentCategory`: the first matching rule decides. */
  function Category(mime: string): (r: string)
    ensures r == "Financial Data" <==> IsSpreadsheet(mime)
    ensures r == "Text Document" <==> !IsSpreadsheet(mime) && mime == "text/plain"
    ensures r == "Scanned Document" <==> !IsSpreadsheet(mime) && mime != "text/plain" && IsImage(mime)
    ensures r == "PDF Document" <==> !IsSpreadsheet(mime) && mime != "text/plain" && !IsImage(mime) && Contains(mime, "pdf")
    ensures r == "Other" <==> !IsSpreadsheet(mime) && mime != "text/plain" && !IsImage(mime) && !Contains(mime, "pdf")
  {
    if IsSpreadsheet(mime) then "Financial Data"
    else if mime == "text/plain" then "Text Document"
    else if IsImage(mime) then "Scanned Document"
    else if Contains(mime, "pdf") then "PDF Document"
    else "Other"
  }

  function If(c: bool, tag: string): seq<string> {
    if c then [tag] else []
  }

  /** The tags the lower-cased file name earns, in rule order. */
  function NameTags(name: string): seq<string> {
    var n := Lower(name);
    If(Contains(n, "revenue") || Contains(n, "sales"), "Revenue")
    + If(Contains(n, "cost") || Contains(n, "expense"), "Costs")
    + If(Contains(n, "budget"), "Budget")
    + If(Contains(n, "report"), "Report")
    + If(Contains(n, "analysis"), "Analysis")
  }

  /** The tags the MIME type earns (case-sensitive), in rule order. */
  function TypeTags(mime: string): seq<string> {
    If(Contains(mime, "excel"), "Spreadsheet") + If(IsImage(mime), "OCR")
  }

  /** `generateTags`: the name tags followed by the type tags, cut after the third. */
  function Tags(name: string, mime: string): (r: seq<string>)
    ensures |r| <= 3 && |r| <= |NameTags(name) + TypeTags(mime)|
    ensures r == (NameTags(name) + TypeTags(mime))[..|r|]
    ensures |r| == 3 || r == NameTags(name) + TypeTags(mime)
  {
    Seqs.Take(NameTags(name) + TypeTags(mime), 3)
  }

  /** Name tags ignore the case of the file name. */
  lemma TagsIgnoreNameCase(a: string, b: string, mime: string)
    requires Lower(a) == Lower(b)
    ensures Tags(a, mime) == Tags(b, mime)
  {
  }

  /** Name-derived tags come first: a name mentioning revenue or sales always
      leads with the Revenue tag. */
  lemma RevenueLeads(name: string, mime: string)
    requires Contains(Lower(name), "revenue") || Contains(Lower(name), "sales")
    ensures |Tags(name, mime)| > 0 && Tags(name, mime)[0] == "Revenue"
  {
  }

  // ------------------------------------------------------------ insights

  /** The branch of `generateMockInsights` a MIME type takes. */
  datatype FileKind = SpreadsheetFile | PlainTextFile | ImageFile | OtherFile

  function KindOf(mime: string): (k: FileKind)
    ensures k == SpreadsheetFile <==> IsSpreadsheet(mime)
    ensures k == PlainTextFile <==> !IsSpreadsheet(mime) && mime == "text/plain"
    ensures k == ImageFile <==> !IsSpreadsheet(mime) && mime != "text/plain" && IsImage(mime)
  {
    if IsSpreadsheet(mime) then SpreadsheetFile
    else if mime == "text/plain" then PlainTextFile
    else if IsImage(mime) then ImageFile
    else OtherFile
  }

  const RevenueText := "Analysis shows 15% quarter-over-quarter revenue increase with strong performance in Q3."
  const CostText := "Operating expenses increased by 8% while revenue grew 15%, indicating room for cost optimization."
  const SummaryText := "Key topics identified include strategic planning, market analysis, and competitive positioning."
  const ActionText := "Document contains 5 actionable recommendations for improving market position."
  const OcrText := "Successfully extracted text content from image. Identified key financial figures and dates."

  /** `generateMockInsights`: two financial insights for spreadsheets, two
      content insights for plain text, one OCR insight for images, none
      otherwise; every one carries the file's name and the given time. The
      two random ids are inputs. */
  function MockInsights(f: FileEntry, id1: string, id2: string, nowMs: int): (r: seq<Insight>)
    ensures |r| == match KindOf(f.mime) case SpreadsheetFile => 2 case PlainTextFile => 2 case ImageFile => 1 case OtherFile => 0
    ensures forall k :: 0 <= k < |r| ==> r[k].fileName == f.name && r[k].timestampMs == nowMs
    ensures forall k :: 0 <= k < |r| ==> 79 <= r[k].confidence <= 92
  {
    match KindOf(f.mime)
    case SpreadsheetFile =>
      [Insight(id1, f.name, "metric", "Revenue Growth Detected", RevenueText, 92, "Financial Performance", nowMs),
       Insight(id2, f.name, "trend", "Cost Optimization Opportunity", CostText, 85, "Cost Analysis", nowMs)]
    case PlainTextFile =>
      [Insight(id1, f.name, "summary", "Document Summary", SummaryText, 88, "Content Analysis", nowMs),
       Insight(id2, f.name, "recommendation", "Action Items Identified", ActionText, 79, "Strategic Planning", nowMs)]
    case ImageFile =>
      [Insight(id1, f.name, "summary", "OCR Text Extraction Complete", OcrText, 91, "OCR Processing", nowMs)]
    case OtherFile => []
  }

  /** The document's category and its insight count follow the same rules:
      a file gets insights exactly when it is filed as financial data, a text
      document or a scanned document. */
  lemma InsightsFollowCategory(f: FileEntry, id1: string, id2: string, nowMs: int)
    ensures |MockInsights(f, id1, id2, nowMs)| > 0 <==>
              Category(f.mime) in {"Financial Data", "Text Document", "Scanned Document"}
  {
  }

  /** The library entry for a processed file. */
  function NewDocument(f: FileEntry, insightCount: nat, nowMs: int): (d: Document)
    ensures d.id == f.id && d.name == f.name && d.mime == f.mime && d.size == f.size
    ensures d.status == "processed" && d.insightCount == insightCount && d.uploadMs == nowMs
    ensures d.category == Some(Category(f.mime)) && d.tags == Some(Tags(f.name, f.mime))
  {
    Document(f.id, f.name, f.mime, f.size, nowMs, "processed", insightCount, Some(Category(f.mime)), Some(Tags(f.name, f.mime)))
  }

  datatype State = State(documents: seq<Document>, insights: seq<Insight>)

  /** One iteration of `simulateProcessing`: the file's insights are appended
      to the insight list and its document, counting them, to the library.
      The insights are stamped with one clock reading, `insightMs`, and the
      document with a later one, `uploadMs`. */
  function ProcessFile(s: State, f: FileEntry, id1: string, id2: string, insightMs: int, uploadMs: int): (r: State)
    ensures |r.documents| == |s.documents| + 1 && r.documents[..|s.documents|] == s.documents
    ensures |r.insights| >= |s.insights| && r.insights[..|s.insights|] == s.insights
    ensures r.insights[|s.insights|..] == MockInsights(f, id1, id2, insightMs)
    ensures r.documents[|s.documents|] == NewDocument(f, |r.insights| - |s.insights|, uploadMs)
    ensures r.documents[|s.documents|].insightCount == |r.insights| - |s.insights|
    ensures forall k :: |s.insights| <= k < |r.insights| ==> r.insights[k].fileName == f.name
  {
    var found := MockInsights(f, id1, id2, insightMs);
    var r := State(s.documents + [NewDocument(f, |found|, uploadMs)], s.insights + found);
    assert r.insights[..|s.insights|] == s.insights;
    r
  }

  /** `mockInsights.map(insight => insight.title)` */
  function Titles(ins: seq<Insight>): (r: seq<string>)
    ensures |r| == |ins|
    ensures forall k :: 0 <= k < |ins| ==> r[k] == ins[k].title
  {
    seq(|ins|, k requires 0 <= k < |ins| => ins[k].title)
  }

  /** The processing queue once a file is done: the record carrying the file's
      id becomes completed with the given insight titles; every other record
      stays as it was, and the queue keeps its order and length. */
  function CompleteRecord(queue: seq<ProcessingStatus.ProcessingFile>, id: string, titles: seq<string>)
    : (r: seq<ProcessingStatus.ProcessingFile>)
    ensures |r| == |queue|
    ensures forall k :: 0 <= k < |queue| ==> r[k].id == queue[k].id && r[k].name == queue[k].name
    ensures forall k :: 0 <= k < |queue| && queue[k].id == id ==>
              ProcessingStatus.IsCompleted(r[k]) && r[k].insights == Some(titles)
              && r[k].progress == queue[k].progress && r[k].error == queue[k].error
    ensures forall k :: 0 <= k < |queue| && queue[k].id != id ==> r[k] == queue[k]
  {
    seq(|queue|, k requires 0 <= k < |queue| =>
      if queue[k].id == id then queue[k].(status := "completed", insights := Some(titles)) else queue[k])
  }

  /** After one iteration the file's record is completed, and its card lists
      the titles of the insights the iteration appended, at most three. */
  lemma CompletedCardShowsNewInsights(s: State, f: FileEntry, id1: string, id2: string, insightMs: int, uploadMs: int,
                                      queue: seq<ProcessingStatus.ProcessingFile>, k: nat)
    requires k < |queue| && queue[k].id == f.id
    ensures ProcessingStatus.IsCompleted(CompleteRecord(queue, f.id, Titles(MockInsights(f, id1, id2, insightMs)))[k])
    ensures ProcessingStatus.CardOf(CompleteRecord(queue, f.id, Titles(MockInsights(f, id1, id2, insightMs)))[k]).shownInsights
            == Seqs.Take(Titles(ProcessFile(s, f, id1, id2, insightMs, uploadMs).insights[|s.insights|..]), 3)
  {
    var titles := Titles(MockInsights(f, id1, id2, insightMs));
    var r := ProcessFile(s, f, id1, id2, insightMs, uploadMs);
    assert r.insights[|s.insights|..] == MockInsights(f, id1, id2, insightMs);
    var c := ProcessingStatus.CardOf(CompleteRecord(queue, f.id, titles)[k]);
    assert c.shownInsights == titles[..|c.shownInsights|];
  }

  // ------------------------------------------------------------ deletion

  /** The names of the documents carrying `id`. */
  predicate NamedByDeleted(docs: seq<Document>, id: string, fileName: string) {
    exists k :: 0 <= k < |docs| && docs[k].id == id && docs[k].name == fileName
  }

  /** `handleDeleteDocument`: drops every document with the id and every
      insight whose file name is the name of such a document. */
  function DeleteDocument(s: State, id: string): (r: State)
    ensures Seqs.IsSubseq(r.documents, s.documents) && Seqs.IsSubseq(r.insights, s.insights)
    ensures forall k :: 0 <= k < |s.documents| ==> (s.documents[k] in r.documents <==> s.documents[k].id != id)
    ensures forall k :: 0 <= k < |s.insights| ==>
              (s.insights[k] in r.insights <==> !NamedByDeleted(s.documents, id, s.insights[k].fileName))
  {
    State(
      Seqs.Filter(s.documents, (d: Document) => d.id != id),
      Seqs.Filter(s.insights, (i: Insight) => !NamedByDeleted(s.documents, id, i.fileName)))
  }

  /** The insights are matched by file name, not by document: deleting one
      document also drops the insights of another document of the same name. */
  lemma DeletionFollowsNames(s: State, a: Document, b: Document, i: Insight)
    requires a in s.documents && b in s.documents && a.id != b.id && a.name == b.name
    requires i in s.insights && i.fileName == b.name
    ensures b in DeleteDocument(s, a.id).documents
    ensures i !in DeleteDocument(s, a.id).insights
  {
    var ka :| 0 <= ka < |s.documents| && s.documents[ka] == a;
    var kb :| 0 <= kb < |s.documents| && s.documents[kb] == b;
    var ki :| 0 <= ki < |s.insights| && s.insights[ki] == i;
    assert NamedByDeleted(s.documents, a.id, i.fileName);
  }
}
